=== FILE: README.md ===
# DockMaster AI — a verified model of the prototype's logic

DockMaster AI is a React prototype of a marina service desk. A customer's
request is read by an AI pipeline and turned into a work order that a
service writer reviews, edits and prices. A proactive dashboard proposes
outreach to boat owners, and an architecture board shows the product's
components. This project models the deterministic logic behind those
screens in Dafny and proves what that logic promises.

- **Work-order editor** (`work_order_editor.dfy`, `line_item_table.dfy`,
  `work_order_assembly.dfy`). The working list of line items supports
  update, remove, append and reset. Appended items get ids from a shared
  counter. The work order is priced in integer cents: subtotal, 7 % tax
  rounded half up, total and estimated hours. The table's inputs normalise
  quantity and price before they update a row. The pipeline summary splits
  the items into labor, parts and other.
- **Proactive outreach** (`outreach.dfy`, `proactive_dashboard.dfy`,
  `add_opportunity.dfy`, `fleet_overview.dfy`).
  - The outreach list has four filters and a two-key sort.
  - The funnel gives per-status counts and revenues.
  - Items are updated by id: send, dismiss and message edits. New items are
    prepended.
  - The dashboard shows summary figures, including the conversion rate.
  - The "Add Opportunity" form has a submit guard and builds the new item.
  - The fleet-health table classifies each vessel and builds one row per
    vessel.
- **Request inbox** (`request_list.dfy`). Statuses default to "new". The
  inbox has a status filter and per-status counts. Each card carries
  labels: a truncated message, an AI badge, a relative time and a short id.
- **State machines** (`guided_flow.dfy`, `pipeline_animation.dfy`,
  `typewriter.dfy`, `app_shell.dfy`). These cover the five-step guided
  walkthrough, the timed four-stage pipeline animation, the typewriter
  reveal, and the shell's welcome dialog, mode and highlight tour.
- **Architecture board** (`architecture_view.dfy`). Pan, zoom, fit and
  node focus are modelled over real numbers, as is edge routing with
  anchors, automatic sides and control points.

Shared helpers are in `common.dfy` (Option, filter, find, sums, decimal
rendering), `sorting.dfy` (a stable insertion sort by an integer key) and
`types.dfy` (the records the screens share).

Each stateful piece of the source is a class. Its methods are proved
against a pure function of the old state, e.g.
`State() == AfterNext(old(State()))`, and the properties are lemmas about
those functions. Timers and intervals are explicit steps: `Fire` and
`Tick` stand for one callback each. Clocks are parameters.

## Model

| member | source | states |
|---|---|---|
| WorkOrderEditor.ApplyUpdate | app/src/hooks/useWorkOrderEditor.ts:18-24 | The id is kept. Every field named by the update takes the new value and the others keep theirs. With a quantity or unit price the total is the new quantity times the new unit price. Otherwise the total is the supplied total, or the old one if none is supplied. |
| WorkOrderEditor.UpdateKeepsConsistency | app/src/hooks/useWorkOrderEditor.ts:20-23 | An item whose total equals quantity × unit price keeps that property under every update except one that carries a bare total. |
| WorkOrderEditor.BareTotalOverwrites | app/src/hooks/useWorkOrderEditor.ts:16-23 | An update carrying only a total writes it unchecked, so the item's total can differ from quantity × unit price. |
| WorkOrderEditor.UpdateItems | app/src/hooks/useWorkOrderEditor.ts:15-29 | The length is unchanged. Items with another id are untouched, and items with the id are updated in place. |
| WorkOrderEditor.UpdateUnknownIdIsNoOp | app/src/hooks/useWorkOrderEditor.ts:17-19 | An id carried by no item leaves the list identical. |
| WorkOrderEditor.RemoveItems | app/src/hooks/useWorkOrderEditor.ts:31-33 | No survivor carries the id, every survivor was in the list, and every item with another id survives. |
| WorkOrderEditor.RemoveIsIdempotent | app/src/hooks/useWorkOrderEditor.ts:31-33 | A second removal of the same id changes nothing. |
| WorkOrderEditor.RemoveKeepsOrder | app/src/hooks/useWorkOrderEditor.ts:31-33 | Removal distributes over concatenation, so survivors keep their relative order. |
| WorkOrderEditor.NewItem | app/src/hooks/useWorkOrderEditor.ts:36-43 | The appended item is a blank labor item: quantity 1, price 0, total 0, no part and no hours. Its total is consistent. |
| WorkOrderEditor.TaxCents | app/src/hooks/useWorkOrderEditor.ts:53 | The tax is within half a cent of 7 % of the subtotal, with halves rounding up. |
| WorkOrderEditor.TaxIsUnique | app/src/lib/constants.ts:3 | Only one cent amount meets those rounding bounds. |
| WorkOrderEditor.Subtotal | app/src/hooks/useWorkOrderEditor.ts:51 | The sum of the item totals. Its contract lives in `Recompute`, `AppendKeepsTotals`, `RemoveSubtractsTotals` and `UpdateShiftsSubtotal`. |
| WorkOrderEditor.LaborHours | app/src/hooks/useWorkOrderEditor.ts:54-57 | The sum of the items' labor hours, 0 where an item has none. Its contract lives in `Recompute` and `EmptyWorkOrder`. |
| WorkOrderEditor.Recompute | app/src/hooks/useWorkOrderEditor.ts:51-67 | The base's id, date and notes pass through. Subtotal is the sum of item totals, tax is the rounded 7 %, and total is subtotal plus tax. Hours are the sum of labor hours, or the base's hours when that sum is 0. |
| WorkOrderEditor.EmptyWorkOrder | app/src/hooks/useWorkOrderEditor.ts:52-58 | With no items, subtotal, tax and total are 0 and the hours fall back to the base's. |
| WorkOrderEditor.RecomputeIsIdempotent | app/src/hooks/useWorkOrderEditor.ts:59-66 | Recomputing a computed work order from the same items gives it back unchanged. |
| WorkOrderEditor.AppendKeepsTotals | app/src/hooks/useWorkOrderEditor.ts:35-45 | Appending a blank item changes no derived figure. |
| WorkOrderEditor.RemoveSubtractsTotals | app/src/hooks/useWorkOrderEditor.ts:31-33 | Removing an id lowers the subtotal by exactly the totals of the items carrying it. |
| WorkOrderEditor.UpdateShiftsSubtotal | app/src/hooks/useWorkOrderEditor.ts:15-29 | When one item carries the id, the subtotal moves by that item's change of total. |
| WorkOrderEditor.GeneratedIdInjective | app/src/hooks/useWorkOrderEditor.ts:5-8 | Distinct counter values give distinct ids. |
| WorkOrderEditor.IssuedIdsDistinct | app/src/hooks/useWorkOrderEditor.ts:5-8 | Ids issued in counter order from 1000 never repeat. |
| WorkOrderEditor.IdGenerator.constructor | app/src/hooks/useWorkOrderEditor.ts:5 | The counter starts at 1000 with nothing issued. |
| WorkOrderEditor.GeneratedId | app/src/hooks/useWorkOrderEditor.ts:7 | "li-new-" followed by at least one decimal digit and nothing else. |
| Common.NatToString | app/src/hooks/useWorkOrderEditor.ts:7 | The decimal rendering of a counter in a template literal: at least one digit, digits only, one digit exactly below 10. |
| WorkOrderEditor.IdGenerator.Generate | app/src/hooks/useWorkOrderEditor.ts:6-8 | Returns "li-new-" plus the counter and advances it by one. The id was never issued before. |
| WorkOrderEditor.Editor.constructor | app/src/hooks/useWorkOrderEditor.ts:10-13 | The working list starts as the base work order's items. |
| WorkOrderEditor.Editor.UpdateItem | app/src/hooks/useWorkOrderEditor.ts:15-29 | The new list is the id-addressed update of the old one. |
| WorkOrderEditor.Editor.RemoveItem | app/src/hooks/useWorkOrderEditor.ts:31-33 | The new list is the old one without the id's items. |
| WorkOrderEditor.Editor.AddItem | app/src/hooks/useWorkOrderEditor.ts:35-45 | Exactly one blank item is appended, under an id never issued before. The shared counter advances by one. |
| WorkOrderEditor.Editor.ResetItems | app/src/hooks/useWorkOrderEditor.ts:47-49 | The list is the base work order's items again. |
| WorkOrderEditor.Editor.ComputedWorkOrder | app/src/hooks/useWorkOrderEditor.ts:51-67 | The computed work order is the pricing of the current list. |
| LineItemTable.CategoryChoicesAreAllCategories | app/src/components/workorder/EditableLineItemTable.tsx:21-26 | The selector offers every category exactly once. |
| LineItemTable.NormalizeQuantity | app/src/components/workorder/EditableLineItemTable.tsx:84 | The result is always at least 1. A parsed value of at least 1 is kept, and NaN, zero or negatives give 1. |
| LineItemTable.NormalizeUnitPrice | app/src/components/workorder/EditableLineItemTable.tsx:98 | NaN gives 0. Any number, negatives included, passes unchanged. |
| LineItemTable.OnDescriptionChange | app/src/components/workorder/EditableLineItemTable.tsx:54-56 | An update for the row's own id that carries no quantity, price or total. |
| LineItemTable.OnCategoryChange | app/src/components/workorder/EditableLineItemTable.tsx:63-67 | An update for the row's own id that carries no quantity, price or total. |
| LineItemTable.OnQuantityChange | app/src/components/workorder/EditableLineItemTable.tsx:82-85 | An update for the row's own id whose quantity is the normalised parse of the text (at least 1), with no unit price or total. |
| LineItemTable.OnUnitPriceChange | app/src/components/workorder/EditableLineItemTable.tsx:96-99 | An update for the row's own id carrying the normalised price and no quantity. |
| LineItemTable.OnRemove | app/src/components/workorder/EditableLineItemTable.tsx:112 | A removal addressed by the row's own id. |
| LineItemTable.TextEditsKeepTotal | app/src/components/workorder/EditableLineItemTable.tsx:53-67 | Description and category edits set their field and leave the row's total and the list length unchanged. |
| LineItemTable.QuantityEditReprices | app/src/components/workorder/EditableLineItemTable.tsx:82-85 | A quantity edit gives the row the normalised parse of the text as its quantity, at least 1, and reprices it with its own unit price. |
| LineItemTable.CallsTouchOnlyTheirRow | app/src/components/workorder/EditableLineItemTable.tsx:55-112 | Rows with another id are untouched by a row's update calls and survive its removal. |
| WorkOrderAssembly.LaborItems | app/src/components/pipeline/WorkOrderAssembly.tsx:10 | Exactly the labor items. |
| WorkOrderAssembly.PartsItems | app/src/components/pipeline/WorkOrderAssembly.tsx:11 | Exactly the parts items. |
| WorkOrderAssembly.OtherItems | app/src/components/pipeline/WorkOrderAssembly.tsx:12-14 | Exactly the materials and environmental items. |
| WorkOrderAssembly.AssemblyPartitions | app/src/components/pipeline/WorkOrderAssembly.tsx:10-14 | Together the three lists hold every item exactly as often as the work order does, and their sizes add up to its count. |
| WorkOrderAssembly.AssemblyMultiset | app/src/components/pipeline/WorkOrderAssembly.tsx:10-14 | The union of the three lists' multisets is the items' multiset. |
| WorkOrderAssembly.AssemblyListsAreDisjoint | app/src/lib/types.ts:53 | An item is in a given list if and only if its category belongs to that list. |
| WorkOrderAssembly.AssemblyKeepsOrder | app/src/components/pipeline/WorkOrderAssembly.tsx:10-14 | Each list distributes over concatenation, so it keeps work-order order. |
| Outreach.MatchesStatusFilter | app/src/hooks/useProactiveOutreach.ts:21-34 | Per status, the filters that show it: drafts under "all" and "to-review", sent items under all but "to-review" and "dismissed", opened items under "all" and "to-reply", booked items only under "all", dismissed items only under "dismissed". |
| Outreach.StatusFiltersRelate | app/src/hooks/useProactiveOutreach.ts:21-34 | "all" shows exactly what "dismissed" hides. "to-reply" is "sent" plus opened, and "to-review" is exactly the drafts. |
| Outreach.MatchesRevenueRange | app/src/hooks/useProactiveOutreach.ts:36-47 | "all" takes every revenue; a bounded range takes exactly the revenues of its band (0-500 inclusive, above 500 to 1500 inclusive, above 1500), and no range takes a negative revenue. |
| Outreach.RevenueRangesPartition | app/src/hooks/useProactiveOutreach.ts:36-47 | Every non-negative revenue is in exactly one bounded range, with 500 in the first and 1500 in the second. A negative revenue is in none. |
| Outreach.Passes | app/src/hooks/useProactiveOutreach.ts:62-68 | Passing needs the status filter to match, and under the default filters an item passes exactly when it is not dismissed. |
| Outreach.Passing | app/src/hooks/useProactiveOutreach.ts:62-68 | Exactly the items passing all four filters. |
| Outreach.PriorityRank | app/src/hooks/useProactiveOutreach.ts:12 | The priority table: high 0, medium 1, low 2, all below 3. |
| Outreach.StatusRank | app/src/hooks/useProactiveOutreach.ts:13-19 | The status table: draft 0 up to dismissed 4, all below 5. |
| Outreach.SortKey | app/src/hooks/useProactiveOutreach.ts:69-73 | A key below 15 from which both ranks read back: the priority rank is the key divided by 5, the status rank the remainder. |
| Outreach.SortKeyIsLexicographic | app/src/hooks/useProactiveOutreach.ts:69-73 | The single sort key orders by priority first and status second, as the comparator does. |
| Outreach.VisibleItems | app/src/hooks/useProactiveOutreach.ts:60-74 | A permutation of the passing items, sorted by the key. |
| Outreach.VisibleItemsOrder | app/src/hooks/useProactiveOutreach.ts:60-74 | An item is visible if and only if it is in the list and passes the filters. Higher priority comes first, and within one priority the earlier status comes first. |
| Outreach.WithStatus | app/src/hooks/useProactiveOutreach.ts:79 | Exactly the items of one status: every kept item has the status and comes from the list, and every item of the list with the status is kept. |
| Outreach.StatusCount | app/src/hooks/useProactiveOutreach.ts:79-80 | The number of items of one status, at most the item count; `StatusCountsPartition` adds the five up. |
| Outreach.MonthlyAverageCount | app/src/data/proactive.ts:3-9 | The fixture's monthly-average count for each status, between 1 and 3. |
| Outreach.FunnelMetrics | app/src/hooks/useProactiveOutreach.ts:76-90 | Four entries for draft, sent, opened and booked, in that order. Each has its status's count, the revenue of those items, and the count minus the monthly average. |
| Outreach.StatusCountsPartition | app/src/hooks/useProactiveOutreach.ts:76-90 | The five status counts add up to the number of items. |
| Outreach.StatusRevenuesPartition | app/src/hooks/useProactiveOutreach.ts:79-81 | The five status revenues add up to the whole list's revenue. |
| Outreach.WithStatusSplit | app/src/hooks/useProactiveOutreach.ts:79-81 | A leading item counts, with its revenue, towards its own status only. |
| Outreach.SetStatus | app/src/hooks/useProactiveOutreach.ts:92-102 | Items with the id take the new status and keep every other field. All other items are unchanged. |
| Outreach.SetMessage | app/src/hooks/useProactiveOutreach.ts:108-112 | Items with the id take the new message and keep every other field. All other items are unchanged. |
| Outreach.SetStatusOverrides | app/src/hooks/useProactiveOutreach.ts:92-102 | A later status update replaces an earlier one whatever the prior status. An unknown id changes nothing. |
| Outreach.StatusUpdateMovesBetweenViews | app/src/hooks/useProactiveOutreach.ts:21-34 | A dismissed item leaves the default view. A sent item shows under "sent" and "to-reply". |
| Outreach.SetMessageKeepsStatuses | app/src/hooks/useProactiveOutreach.ts:108-112 | A message edit keeps every status count and status revenue. |
| Outreach.PrependCounts | app/src/hooks/useProactiveOutreach.ts:104-106 | A prepended item adds one to its own status's count and nothing elsewhere. |
| Outreach.ApplyFilterChange | app/src/hooks/useProactiveOutreach.ts:114-119 | Exactly the named key takes the new value; the other three keep theirs. |
| Outreach.FilterChangesCommute | app/src/hooks/useProactiveOutreach.ts:114-119 | Changes of different keys commute, and the second change of the same key wins. |
| Outreach.OutreachBoard.constructor | app/src/hooks/useProactiveOutreach.ts:5-10 | The board starts with the given items and all four filters at "all". |
| Outreach.OutreachBoard.Items | app/src/hooks/useProactiveOutreach.ts:60-74 | The visible list holds exactly the board's items that pass its current filters. |
| Outreach.OutreachBoard.Funnel | app/src/hooks/useProactiveOutreach.ts:76-90 | Four entries, for draft, sent, opened and booked, each with that status's count over all items, whatever the filters. |
| Outreach.OutreachBoard.SendOutreach | app/src/hooks/useProactiveOutreach.ts:92-96 | The items with the id become sent. The filters are unchanged. |
| Outreach.OutreachBoard.DismissOutreach | app/src/hooks/useProactiveOutreach.ts:98-102 | The items with the id become dismissed. The filters are unchanged. |
| Outreach.OutreachBoard.AddOutreach | app/src/hooks/useProactiveOutreach.ts:104-106 | The new item is first and the old list follows in order. |
| Outreach.OutreachBoard.UpdateOutreachMessage | app/src/hooks/useProactiveOutreach.ts:108-112 | Only the message of the id's items changes. |
| Outreach.OutreachBoard.UpdateFilter | app/src/hooks/useProactiveOutreach.ts:114-119 | One filter key changes and the items are unchanged. |
| ProactiveDashboard.ActiveItems | app/src/components/proactive/ProactiveDashboard.tsx:31 | Exactly the non-dismissed items. |
| ProactiveDashboard.ActiveItemsLeaveOutDismissed | app/src/components/proactive/ProactiveDashboard.tsx:31-32 | The active count plus the dismissed count is the item count. The active revenue plus the dismissed revenue is the total revenue. |
| ProactiveDashboard.ActiveCount | app/src/components/proactive/ProactiveDashboard.tsx:31 | The active count plus the dismissed count is the item count. |
| ProactiveDashboard.ActiveRevenue | app/src/components/proactive/ProactiveDashboard.tsx:32 | The active revenue plus the dismissed revenue is the whole revenue. |
| ProactiveDashboard.FunnelCount | app/src/components/proactive/ProactiveDashboard.tsx:33-36 | 0 when no metric has the status; otherwise the count of the first metric that has it. |
| ProactiveDashboard.FunnelCountIsStatusCount | app/src/components/proactive/ProactiveDashboard.tsx:33-36 | A funnel status read back from the metrics gives its item count. Dismissed is not in the funnel and gives 0. |
| ProactiveDashboard.ConversionRate | app/src/components/proactive/ProactiveDashboard.tsx:38 | 0 with nothing engaged. Otherwise it is the whole percentage nearest to booked/engaged, with halves rounding up. |
| ProactiveDashboard.ConversionRateIsPercentage | app/src/components/proactive/ProactiveDashboard.tsx:37-38 | With no more bookings than engagements, the rate lies in [0, 100]. |
| ProactiveDashboard.Summarize | app/src/components/proactive/ProactiveDashboard.tsx:31-38 | The opportunities and revenue are the whole list's minus the dismissed ones'. The four counts are the status counts, and engaged is sent + opened + booked. "Requires Review" is drafts + opened (line 77). The rate lies in [0, 100]. |
| AddOpportunity.CanSubmit | app/src/components/proactive/AddOpportunityDialog.tsx:43 | Any one of customer, vessel and title left empty blocks the submit; all three filled allow it. |
| AddOpportunity.FilteredVessels | app/src/components/proactive/AddOpportunityDialog.tsx:38-41 | Empty with no customer. Otherwise a vessel is offered if and only if the selected customer owns it. |
| AddOpportunity.RevenueValue | app/src/components/proactive/AddOpportunityDialog.tsx:57 | NaN gives 0. Any number passes unchanged. |
| AddOpportunity.RevenueValueCases | app/src/components/proactive/AddOpportunityDialog.tsx:57 | A blank entry gives 0, a whole number gives itself, and letters give 0. |
| AddOpportunity.BuildItem | app/src/components/proactive/AddOpportunityDialog.tsx:47-62 | The item is a time-based draft with confidence 0.75 and the form's fields. The trigger defaults to "Manual outreach" and the revenue is the parsed value. |
| AddOpportunity.CreatedItemIsNewDraft | app/src/components/proactive/AddOpportunityDialog.tsx:48-56 | Items made at different instants have different ids. A new item shows under "to-review" and adds one draft. |
| AddOpportunity.AddOpportunityForm.constructor | app/src/components/proactive/AddOpportunityDialog.tsx:29-36 | Every field starts at its default. |
| AddOpportunity.AddOpportunityForm.SelectCustomer | app/src/components/proactive/AddOpportunityDialog.tsx:92-95 | Sets the customer and always clears the vessel. Nothing else changes. |
| AddOpportunity.AddOpportunityForm.SelectVessel | app/src/components/proactive/AddOpportunityDialog.tsx:30 | Sets only the vessel. |
| AddOpportunity.AddOpportunityForm.Edit | app/src/components/proactive/AddOpportunityDialog.tsx:133-196 | Each input or selector sets its own field only. |
| AddOpportunity.AddOpportunityForm.ResetForm | app/src/components/proactive/AddOpportunityDialog.tsx:68-77 | Every field returns to its default and the dialog's open state is unchanged. |
| AddOpportunity.AddOpportunityForm.HandleSubmit | app/src/components/proactive/AddOpportunityDialog.tsx:43-66 | Without customer, vessel and title, nothing changes and nothing is added. Otherwise exactly one built item is handed over, the dialog closes and the form is blank. |
| AddOpportunity.AddOpportunityForm.Cancel | app/src/components/proactive/AddOpportunityDialog.tsx:204-205 | Closes the dialog and keeps the fields. |
| FleetOverview.DaysSince | app/src/components/proactive/FleetOverview.tsx:10-12 | The whole number of days elapsed, floored. |
| FleetOverview.DaysSinceAntitone | app/src/components/proactive/FleetOverview.tsx:10-12 | A later service date is that many fewer days ago. |
| FleetOverview.Classify | app/src/components/proactive/FleetOverview.tsx:14-16 | The status is the worse of what the engine hours alone call for (1000 due, 500 attention) and what the days alone call for (over 180 due, over 120 attention). |
| FleetOverview.GetHealthStatus | app/src/components/proactive/FleetOverview.tsx:9-17 | In elapsed time: service is due exactly at 1000 hours or once 181 whole days have passed, and good exactly under 500 hours and before 121 whole days. |
| FleetOverview.ClassifyThresholds | app/src/components/proactive/FleetOverview.tsx:14-16 | Service-due if and only if hours ≥ 1000 or days > 180. Attention if and only if not due and (hours ≥ 500 or days > 120). Good if and only if hours < 500 and days ≤ 120. |
| FleetOverview.ClassifyIsMonotone | app/src/components/proactive/FleetOverview.tsx:14-16 | More hours or more days never give a healthier status. |
| FleetOverview.OlderServiceIsNoHealthier | app/src/components/proactive/FleetOverview.tsx:9-17 | An older last service never gives a healthier status. |
| FleetOverview.SortedHistory | app/src/components/proactive/FleetOverview.tsx:45-47 | A permutation of the history, sorted newest first. |
| FleetOverview.LastService | app/src/components/proactive/FleetOverview.tsx:43-48 | None if and only if the history is empty. Otherwise it is a history entry with the latest date. |
| FleetOverview.RowFor | app/src/components/proactive/FleetOverview.tsx:49-63 | The vessel's and customer's names and hours. Days-since is null if and only if there is no history, and health then uses the 2025-01-01 default. Otherwise both come from a latest entry. |
| FleetOverview.RowsFor | app/src/components/proactive/FleetOverview.tsx:56-64 | One row per vessel, in vessel order. |
| FleetOverview.VesselsOwnedByAdd | app/src/components/proactive/FleetOverview.tsx:42 | A new owner adds exactly its own vessels. |
| FleetOverview.FleetRows | app/src/components/proactive/FleetOverview.tsx:39-67 | Customer by customer, the rows of each customer's own vessels; its contract lives in `FleetRowsAreOwnRows` and `OneRowPerOwnedVessel`. |
| FleetOverview.FleetRowsAreOwnRows | app/src/components/proactive/FleetOverview.tsx:39-67 | Every row is the row of a listed customer and a vessel that customer owns. |
| FleetOverview.OneRowPerOwnedVessel | app/src/components/proactive/FleetOverview.tsx:39-67 | With distinct customer ids there is exactly one row per vessel owned by a listed customer. |
| FleetOverview.WithSortedHistories | app/src/components/proactive/FleetOverview.tsx:45-47 | Each customer with the history sorted and nothing else changed. |
| FleetOverview.SortingHistoriesKeepsRows | app/src/components/proactive/FleetOverview.tsx:43-49 | Re-sorting a sorted history keeps the last-service day the rows read. |
| FleetOverview.LastServiceIsSortedHead | app/src/components/proactive/FleetOverview.tsx:43-49 | The last service is the sorted head, and its date is the health date. |
| FleetOverview.PushVesselRows | app/src/components/proactive/FleetOverview.tsx:56-64 | The loop appends exactly the customer's rows, in vessel order. |
| FleetOverview.BuildFleetRows | app/src/components/proactive/FleetOverview.tsx:39-67 | The rows are customer by customer, each customer's vessels in fixture order. It also returns each customer's history sorted newest first. |
| Sorting.SortByKey | app/src/hooks/useProactiveOutreach.ts:69-73 | Sorted by the key and a permutation of the input. |
| Sorting.SortedHeadIsLeast | app/src/components/proactive/FleetOverview.tsx:45-47 | The head of the sorted list is in the list and has the least key. |
| Sorting.SortKeepsEqualKeyOrder | app/src/hooks/useProactiveOutreach.ts:69-73 | The sort is stable: items with equal keys keep their relative order. |
| Sorting.InsertKeepsEqualKeyOrder | app/src/hooks/useProactiveOutreach.ts:69-73 | An insertion places the new item in front of those with an equal key; every other key's order is untouched. |
| Types.VesselsOf | app/src/components/proactive/FleetOverview.tsx:42 | Exactly the vessels of the customer, each one taken from the list. |
| RequestList.EffectiveStatus | app/src/components/guided/RequestList.tsx:52 | A recorded status, or "new" when none is recorded. |
| RequestList.WithStatus | app/src/components/guided/RequestList.tsx:50-53 | Exactly the scenarios with that effective status. |
| RequestList.FilteredScenarios | app/src/components/guided/RequestList.tsx:50-53 | "all" keeps every scenario, and a status keeps exactly its scenarios. |
| RequestList.StatusCountsAddUp | app/src/components/guided/RequestList.tsx:55-65 | New + in progress + completed equals the "All" count, and an unrecorded scenario counts as new. |
| RequestList.FilterKeepsOrder | app/src/components/guided/RequestList.tsx:50-53 | The filter distributes over concatenation, so the list order is kept. |
| RequestList.Truncate | app/src/components/guided/RequestList.tsx:189-192 | Up to 120 characters are shown unchanged. A longer message shows its first 120 characters plus "...". |
| RequestList.TruncateIsIdempotent | app/src/components/guided/RequestList.tsx:189-192 | At most 123 characters are shown, and truncating again changes nothing. |
| RequestList.IsAiGenerated | app/src/components/guided/RequestList.tsx:188 | Badged when the fixture id set lacks the scenario's id; `AiGeneratedIffNotFixture` states it against the fixture list. |
| RequestList.AiGeneratedIffNotFixture | app/src/components/guided/RequestList.tsx:28 | AI-generated if and only if no fixture has the scenario's id. |
| RequestList.IndexOf | app/src/components/guided/RequestList.tsx:181 | -1 if and only if the scenario is absent. Otherwise it is the first position holding it. |
| RequestList.TimeLabel | app/src/components/guided/RequestList.tsx:232-234 | "Just now" when AI-generated. Otherwise it is the relative time at the index, falling back to "2 hr ago". |
| RequestList.ShortId | app/src/components/guided/RequestList.tsx:267 | The first five characters, or the whole id if shorter. |
| RequestList.CardFor | app/src/components/guided/RequestList.tsx:181-194 | One scenario's card; `CardsPointBack` states its index, highlight, label and status. |
| RequestList.Cards | app/src/components/guided/RequestList.tsx:181-194 | One card per filtered scenario, in filtered order. |
| RequestList.CardsPointBack | app/src/components/guided/RequestList.tsx:181-194 | A card's index points back at its scenario, and it is highlighted if and only if it is first under the request highlight. Fixture cards at positions 0-2 show that position's time, and a status filter shows only that status. |
| NumberText.LeadingDigits | app/src/components/workorder/EditableLineItemTable.tsx:84 | The longest run of digits at the start. |
| NumberText.ParseInt | app/src/components/workorder/EditableLineItemTable.tsx:84 | NaN if and only if no digit follows the optional sign. |
| NumberText.ParseIntRoundTrip | app/src/components/workorder/EditableLineItemTable.tsx:84 | Parsing a rendered natural number gives it back. |
| NumberText.ParseIntRoundTripNegative | app/src/components/workorder/EditableLineItemTable.tsx:84 | Parsing "-" plus a rendered number gives its negation. |
| NumberText.NumberValue | app/src/components/proactive/AddOpportunityDialog.tsx:57 | A blank text reads as 0. |
| NumberText.NumberOfNatToString | app/src/components/proactive/AddOpportunityDialog.tsx:57 | A rendered whole number reads back as itself. |
| NumberText.NumberOfDecimalDigits | app/src/components/proactive/AddOpportunityDialog.tsx:57 | "ip.fp" reads as ip plus fp over the matching power of ten. |
| NumberText.NumberExamples | app/src/components/proactive/AddOpportunityDialog.tsx:57 | "" reads as 0, while "abc" and "1,200" are NaN. |
| GuidedFlow.StepIndex | app/src/lib/constants.ts:60-66 | The unique position of a step in the five-step order. |
| GuidedFlow.StepMovesByOne | app/src/hooks/useGuidedFlow.ts:12-46 | Next and its timer move exactly one step forward, stopping at estimate. Prev and its timer move exactly one back, stopping at intake. |
| GuidedFlow.NextThenPrevReturns | app/src/hooks/useGuidedFlow.ts:12-46 | From a non-final step, next then prev returns to it, settled. |
| GuidedFlow.DoubleNextAdvancesOnce | app/src/hooks/useGuidedFlow.ts:20-26 | Two nexts before the timer fires advance one step only, because the target is captured when the timer is scheduled. |
| GuidedFlow.SelectScenarioEffect | app/src/hooks/useGuidedFlow.ts:53-61 | The same index changes nothing. Another index sets it and returns to intake. |
| GuidedFlow.ResetKeepsScheduledTransition | app/src/hooks/useGuidedFlow.ts:23-26 | Reset returns to intake, but an already scheduled transition still moves the flow on when its timer fires. |
| GuidedFlow.GuidedFlowHook.constructor | app/src/hooks/useGuidedFlow.ts:6-8 | Intake, scenario 0, not transitioning. |
| GuidedFlow.GuidedFlowHook.NextStep | app/src/hooks/useGuidedFlow.ts:12-28 | Below the last step, schedules the following step and starts transitioning. |
| GuidedFlow.GuidedFlowHook.PrevStep | app/src/hooks/useGuidedFlow.ts:30-46 | Above the first step, schedules the preceding step and starts transitioning. |
| GuidedFlow.GuidedFlowHook.Fire | app/src/hooks/useGuidedFlow.ts:23-26 | The oldest timer sets its step and ends the transition. |
| GuidedFlow.GuidedFlowHook.Reset | app/src/hooks/useGuidedFlow.ts:48-51 | Intake, not transitioning. |
| GuidedFlow.GuidedFlowHook.SelectScenario | app/src/hooks/useGuidedFlow.ts:53-61 | A different index is set and the flow returns to intake. |
| PipelineAnimation.Duration | app/src/hooks/usePipelineAnimation.ts:11-16 | Each stage runs between 1500 and 2500 ms. |
| PipelineAnimation.StartAt | app/src/hooks/usePipelineAnimation.ts:43-47 | The stage at position i starts no sooner than i + 1 pauses plus i shortest stages. |
| PipelineAnimation.CompleteAt | app/src/hooks/usePipelineAnimation.ts:47 | A stage completes at least 1500 ms after it starts. |
| PipelineAnimation.Schedule | app/src/hooks/usePipelineAnimation.ts:43-63 | Two timers per stage. |
| PipelineAnimation.ScheduleIsIncreasing | app/src/hooks/usePipelineAnimation.ts:11-16 | Delays strictly increase. Start < complete < next start. The first start is at 300 ms and the last completion at 9000 ms, the four durations plus four pauses. |
| PipelineAnimation.Position | app/src/hooks/usePipelineAnimation.ts:4-9 | A stage's position in the stage order. |
| PipelineAnimation.ApplyEvent | app/src/hooks/usePipelineAnimation.ts:49-59 | The timer's stage takes its status. The flags change only when the last stage completes. |
| PipelineAnimation.InOrderFiring | app/src/hooks/usePipelineAnimation.ts:45-63 | After the first k timers in time order, each stage has its expected status. The run ends and the animation is complete exactly when all eight have fired. |
| PipelineAnimation.StepFiring | app/src/hooks/usePipelineAnimation.ts:49-59 | The j-th timer advances the statuses from step j to step j + 1. |
| PipelineAnimation.StageProgress | app/src/hooks/usePipelineAnimation.ts:49-55 | No stage moves back, at most one stage is processing, and a stage starts only after every earlier one is complete. |
| PipelineAnimation.ScheduleSnoc | app/src/hooks/usePipelineAnimation.ts:46-62 | Each loop round appends one stage's two timers at the accumulated delays. |
| PipelineAnimation.PipelineAnimationHook.constructor | app/src/hooks/usePipelineAnimation.ts:21-31 | All stages pending, both flags off, no handles. |
| PipelineAnimation.PipelineAnimationHook.StartAnimation | app/src/hooks/usePipelineAnimation.ts:33-64 | All stages pending and running. The eight scheduled timers are added after those already waiting, and eight new handles are appended without clearing the old ones. |
| PipelineAnimation.PipelineAnimationHook.Fire | app/src/hooks/usePipelineAnimation.ts:49-59 | The chosen timer's effect is applied and the timer stops waiting. |
| PipelineAnimation.PipelineAnimationHook.ResetAnimation | app/src/hooks/usePipelineAnimation.ts:66-77 | Every timer is cleared, the handle list is empty, all stages are pending and both flags are off. |
| Typewriter.OperationsKeepConsistency | app/src/hooks/useTypewriter.ts:21-52 | Start, tick and skip keep the shown text a prefix of the text, never typing and complete at once. |
| Typewriter.InitialIsConsistent | app/src/hooks/useTypewriter.ts:14-17 | The initial state is consistent. |
| Typewriter.TickEffect | app/src/hooks/useTypewriter.ts:29-42 | A tick does nothing unless typing. Short of the end it shows one more character. At the end it shows the whole text, stops, completes and reports once. |
| Typewriter.TypingRevealsPrefix | app/src/hooks/useTypewriter.ts:31-41 | After a start, k ticks short of the end show the first k characters. |
| Typewriter.TypingCompletes | app/src/hooks/useTypewriter.ts:31-42 | n characters complete after exactly n ticks (an empty text after one), with one completion report. Further ticks change nothing. |
| Typewriter.StoppedStaysStopped | app/src/hooks/useTypewriter.ts:29 | Ticks change nothing once typing has stopped. |
| Typewriter.TicksAdd | app/src/hooks/useTypewriter.ts:31-42 | m + n ticks are m ticks followed by n. |
| Typewriter.TypewriterHook.constructor | app/src/hooks/useTypewriter.ts:14-17 | Nothing shown, neither typing nor complete. |
| Typewriter.TypewriterHook.Start | app/src/hooks/useTypewriter.ts:21-26 | Index 0, empty text, typing, not complete. |
| Typewriter.TypewriterHook.Tick | app/src/hooks/useTypewriter.ts:31-42 | One interval firing. |
| Typewriter.TypewriterHook.SkipToEnd | app/src/hooks/useTypewriter.ts:47-52 | The whole text, stopped, complete, completion reported. |
| AppShell.PageFor | app/src/App.tsx:127-134 | No page if and only if the mode is live. |
| AppShell.HighlightTour | app/src/App.tsx:37-45 | Demo → request → new-request → none, and none stays. Three dismissals clear any highlight, and from demo fewer do not. |
| AppShell.WelcomeFlow | app/src/App.tsx:21-35 | A first visit opens the dialog and a later one does not. Closing it, by button or by the dialog, lights the demo controller and marks it seen. |
| AppShell.ModeChangeEndsTour | app/src/App.tsx:47-50 | Sets the mode and clears the highlight. Dismissing afterwards changes nothing. |
| AppShell.Shell.constructor | app/src/App.tsx:17-19 | Guided mode, no dialog, no highlight. |
| AppShell.Shell.Mount | app/src/App.tsx:21-26 | Opens the dialog unless it was seen. |
| AppShell.Shell.WelcomeClose | app/src/App.tsx:28-35 | Hides the dialog, remembers it as seen and starts the tour at demo. |
| AppShell.Shell.OpenChange | app/src/App.tsx:56-62 | Closing is a welcome close, and opening shows the dialog. |
| AppShell.Shell.ShowWelcome | app/src/App.tsx:123 | Shows the dialog. |
| AppShell.Shell.DismissHighlight | app/src/App.tsx:37-45 | Moves to the next highlight. |
| AppShell.Shell.ModeChange | app/src/App.tsx:47-50 | Sets the mode and clears the highlight. |
| ArchitectureView.Clamp | app/src/components/architecture/ProductArchitecturePage.tsx:69-71 | The result is in [lo, hi] when lo ≤ hi, equals v when v is in range, and is the crossed bound otherwise. |
| ArchitectureView.GetBounds | app/src/components/architecture/ProductArchitecturePage.tsx:73-82 | maxX = maxY = 120 and min ≤ max on both axes. Each min is 120 or the far-side limit, whichever is smaller. |
| ArchitectureView.ClampToBounds | app/src/components/architecture/ProductArchitecturePage.tsx:87-91 | The point is in the bounds, and a point already inside is unchanged. |
| ArchitectureView.CenteringTarget | app/src/components/architecture/ProductArchitecturePage.tsx:85-86 | Puts the node's centre at the viewport's centre. |
| ArchitectureView.GetCenteredOffset | app/src/components/architecture/ProductArchitecturePage.tsx:84-92 | Always within the bounds, and centres the node exactly when that offset is allowed. |
| ArchitectureView.GetAnchorPoint | app/src/components/architecture/ProductArchitecturePage.tsx:94-99 | The midpoint of the chosen side. |
| ArchitectureView.GetAutoSides | app/src/components/architecture/ProductArchitecturePage.tsx:101-118 | The entry side is opposite the exit side. Horizontal if and only if abs(dx) ≥ abs(dy), with ties horizontal. The exit side faces the target. |
| ArchitectureView.GetControlPoint | app/src/components/architecture/ProductArchitecturePage.tsx:120-125 | Moved exactly the distance outward from the side, with the other coordinate unchanged. |
| ArchitectureView.EdgeRoute | app/src/components/architecture/ProductArchitecturePage.tsx:462-478 | The route of one edge; its contract lives in `EdgeRouteShape` and `EdgeSidesFallBack`. |
| ArchitectureView.EdgeRouteShape | app/src/components/architecture/ProductArchitecturePage.tsx:462-478 | Ends off the data bus sit at side midpoints. A sideways data-bus end is level with the other end. The control points stand 76 straight out from both ends. |
| ArchitectureView.EdgeSidesFallBack | app/src/components/architecture/ProductArchitecturePage.tsx:462-466 | Missing sides fall back to the automatic ones, and stated sides override them. |
| ArchitectureView.FitScale | app/src/components/architecture/ProductArchitecturePage.tsx:245-249 | In [0.25, 1]. Either the board plus 180 of room fits, or the scale is 0.25. No larger scale up to 1 fits, so it is the largest fitting scale capped at 1. |
| ArchitectureView.FocusScale | app/src/components/architecture/ProductArchitecturePage.tsx:271 | In [1.12, 1.8] and never below the current scale. Exactly 1.12 below 1.12, the current scale within [1.12, 1.8], and 1.8 above it. |
| ArchitectureView.NodeById | app/src/components/architecture/ProductArchitecturePage.tsx:142-149 | None if and only if no node has the id. Otherwise it is a node with that id. |
| ArchitectureView.Gateway | app/src/components/architecture/ProductArchitecturePage.tsx:251 | A node of the board. |
| ArchitectureView.ZoomTarget | app/src/components/architecture/ProductArchitecturePage.tsx:229-234 | The board point under the centre stays under it at the new scale. |
| ArchitectureView.Zoomed | app/src/components/architecture/ProductArchitecturePage.tsx:225-242 | The scale is in [0.25, 1.8] and the offset is within bounds. When no clamp binds, the point under the zoom centre stays fixed. |
| ArchitectureView.Fitted | app/src/components/architecture/ProductArchitecturePage.tsx:244-253 | The fitting scale and the gateway's centred offset. |
| ArchitectureView.ZoomAndFitStayInRange | app/src/components/architecture/ProductArchitecturePage.tsx:244-265 | Zoom steps stay in range and move in the step's direction. Fitting gives a scale ≤ 1 and an in-bounds offset. |
| ArchitectureView.BoardViewer.constructor | app/src/components/architecture/ProductArchitecturePage.tsx:137-140 | 1280 × 680, offset (80, 80), scale 0.85, the gateway open. |
| ArchitectureView.BoardViewer.Measure | app/src/components/architecture/ProductArchitecturePage.tsx:151-183 | The first measurement fits and centres the gateway. Later ones keep the scale and pull the offset into bounds. |
| ArchitectureView.BoardViewer.StartDrag | app/src/components/architecture/ProductArchitecturePage.tsx:185-194 | Records the pointer and the current offset. |
| ArchitectureView.BoardViewer.OnDrag | app/src/components/architecture/ProductArchitecturePage.tsx:196-209 | During a drag, the offset moves exactly with the pointer, unclamped. |
| ArchitectureView.BoardViewer.EndDrag | app/src/components/architecture/ProductArchitecturePage.tsx:211-223 | Ends the drag and clamps the offset into bounds. An offset already inside stays. |
| ArchitectureView.BoardViewer.ZoomTo | app/src/components/architecture/ProductArchitecturePage.tsx:225-242 | The new view is the zoomed view. |
| ArchitectureView.BoardViewer.Wheel | app/src/components/architecture/ProductArchitecturePage.tsx:255-265 | Zooms by ∓0.08 at the pointer. |
| ArchitectureView.BoardViewer.FitBoard | app/src/components/architecture/ProductArchitecturePage.tsx:244-253 | The new view is the fitted view. |
| ArchitectureView.BoardViewer.OpenNode | app/src/components/architecture/ProductArchitecturePage.tsx:267-275 | An unknown id changes nothing. A known node opens at the focus scale, centred as far as the bounds allow. |
| ArchitectureView.BoardViewer.CloseNode | app/src/components/architecture/ProductArchitecturePage.tsx:277-279 | No node is open, and the view is unchanged. |

## Left out

- **Not modelled:**
  - The LLM and network code: `app/api/scope.ts`, `useStreamingResponse.ts`, `NewRequestDialog.tsx`, the live-scoping screens and the dev-server middleware. Their behaviour depends on an external model API.
  - Rendering, styling, framer-motion animation, focus handling (`blur`) and the pointer-capture calls in the drag handlers.
  - The presentation-only components, the wiring in `GuidedFlow.tsx`, and the fixture data. Fixtures enter only as parameters.
- **Environment as parameters:**
  - Browser storage is the `welcomeSeen` flag of the shell.
  - `Date.now()` is the parameter `nowMillis`.
  - The ISO day of `new Date()` is the `today` text.
  - Service dates are day numbers, not date strings.
- **Timers.** A `setTimeout` or `setInterval` callback is one `Fire` or `Tick` step. Real delays are not modelled beyond their order: the guided-flow timers all have the same 300 ms delay and fire oldest first; the pipeline's `Fire(k)` lets any waiting timer fire.
- **Number representation:**
  - Money is integer cents, and revenue and geometry are exact reals. IEEE rounding drift is not modelled, and neither is the cent rounding of the grand total, which is exact in cents.
  - The unit-price input takes the parsed price in cents (`None` for NaN), so the parsing of decimal prices into cents is left out.
  - `parseInt` and `Number` are modelled for decimal texts only. Exponents, hexadecimal, `Infinity` and the Unicode white space beyond space, tab, newline and carriage return are left out.
  - The measured viewport size is given already rounded to whole pixels.
  - Vessel engine hours are whole numbers (`int` in `Vessel`), where the source field is a JavaScript `number`; every fixture vessel has whole hours.
- **Typewriter.** A change of the `text` or `speed` props while typing is not modelled. Each hook object has one fixed text.
- **Shell.** `AppMode` in `app/src/lib/types.ts:140` lists only "guided" and "live", but `App.tsx` also switches to "proactive" and "architecture". The model uses the four modes `App.tsx` uses.
- **Updates.** An update key present with the value `undefined` counts as absent, whereas `"quantity" in updates` would count it as present. Optional outreach fields that the code never reads (`dueDate`, `aiAnalysis`) are not part of the record.
- **Fleet rows.** `buildFleetRows` sorts each customer's history in place. `FleetOverview.BuildFleetRows` returns the sorted customers as a value instead, so aliasing of the shared fixture array is not captured.
- **Architecture board:**
  - The wheel handler's `preventDefault` and the bounding-rectangle offset of the pointer are left out; the pointer arrives in viewport coordinates.
  - The measure effect re-running when the scale changes is one more `Measure` call.
  - Edges whose end nodes are missing (`ProductArchitecturePage.tsx:460`) are not drawn; `EdgeRoute` takes the two nodes directly.
  - The zoom buttons (±0.12) are `ZoomTo` calls covered by `ZoomAndFitStayInRange`.
- **Strings.** A Dafny string is a sequence of Unicode scalar values, while JavaScript's `length` and `slice` count UTF-16 code units. The two agree on text inside the Basic Multilingual Plane and differ on emoji and other astral characters, which take two code units each.
- RequestList.Truncate: the 120-character limit and cut are counted in scalar values, not UTF-16 code units; a message of 119 letters and one emoji is 121 code units long, and the source cuts it inside the surrogate pair and appends "..." where the model leaves it whole.
- RequestList.ShortId: takes the first five scalar values, where `slice(0, 5)` takes five UTF-16 code units.
- Typewriter.TypewriterHook.Tick: the index and `text.length` count scalar values; the source reveals one UTF-16 code unit per tick, so an astral character takes two ticks and the text shown between them ends in a lone surrogate.
- Typewriter.TypingCompletes: the number of ticks to completion is the text's number of scalar values; the source needs one tick per UTF-16 code unit.
- ArchitectureView.NodeById: its contract states that the result carries the id, not that it is the last node with that id as the id-keyed record holds it (the body does return the last match).
- ArchitectureView.Gateway: the first measurement takes the first "gateway" node, `fitBoard` the last one; the model takes the last for both, which is the same node when node ids are distinct.
- RequestList.IndexOf: compares scenarios as values where `indexOf` compares object identity; the two agree when the list holds no two equal scenarios.

=== FILE: add_opportunity.dfy ===
/**
 * The "Add Opportunity" dialog: eight form fields, the vessel choices that
 * follow the selected customer, the submit guard, and the outreach item a
 * submit creates before the form returns to its defaults and closes.
 * The clock is a parameter: `nowMillis` stands for `Date.now()` and
 * `today` for the ISO date part of `new Date()`.
 */
module AddOpportunity {
  import opened Common
  import opened Types
  import opened NumberText
  import opened Outreach

  /** The submit guard: customer, vessel and title are all filled in. */
  predicate CanSubmit(customerId: string, vesselId: string, title: string)
    ensures customerId == "" || vesselId == "" || title == "" ==> !CanSubmit(customerId, vesselId, title)
    ensures |customerId| > 0 && |vesselId| > 0 && |title| > 0 ==> CanSubmit(customerId, vesselId, title)
  {
    customerId != "" && vesselId != "" && title != ""
  }

  /**
   * The vessel choices: none before a customer is selected, afterwards
   * exactly the selected customer's vessels.
   */
  function FilteredVessels(vessels: seq<Vessel>, customerId: string): (r: seq<Vessel>)
    ensures customerId == "" ==> r == []
    ensures forall v :: v in r <==> customerId != "" && v in vessels && v.customerId == customerId
  {
    if customerId != "" then
      var r := VesselsOf(vessels, customerId);
      assert forall v :: v in vessels && v.customerId == customerId ==> v in r by {
        forall v | v in vessels && v.customerId == customerId
          ensures v in r
        {
          var k :| 0 <= k < |vessels| && vessels[k] == v;
        }
      }
      r
    else []
  }

  /** `Number(revenue) || 0`: `NaN` and zero give 0, every other number passes through. */
  function RevenueValue(text: string): (r: real)
    ensures NumberValue(text).None? ==> r == 0.0
    ensures NumberValue(text).Some? ==> r == NumberValue(text).value
  {
    match NumberValue(text)
    case None => 0.0
    case Some(v) => if v == 0.0 then 0.0 else v
  }

  /** The entered revenue as the created item carries it, for blank, whole and malformed entries. */
  lemma RevenueValueCases(n: nat)
    ensures RevenueValue("") == 0.0
    ensures RevenueValue(NatToString(n)) == n as real
    ensures RevenueValue("abc") == 0.0
  {
    NumberExamples();
    NumberOfNatToString(n);
  }

  /** The default trigger text of a manual entry. */
  const ManualTrigger := "Manual outreach"

  /** The item `handleSubmit` builds from the form. */
  function BuildItem(customerId: string, vesselId: string, title: string, message: string,
                     channel: Channel, priority: Priority, revenue: string, trigger: string,
                     nowMillis: nat, today: string): (o: Outreach)
    ensures o.status == Draft && o.triggerType == TimeBased && o.aiConfidence == 0.75
    ensures o.trigger == (if trigger == "" then ManualTrigger else trigger)
    ensures o.estimatedRevenue == RevenueValue(revenue)
    ensures o.customerId == customerId && o.vesselId == vesselId && o.title == title
    ensures o.message == message && o.channel == channel && o.priority == priority
    ensures o.createdDate == today
  {
    Outreach(
      "outreach-" + NatToString(nowMillis),
      customerId, vesselId, title, message,
      if trigger == "" then ManualTrigger else trigger,
      TimeBased, priority, Draft, RevenueValue(revenue), channel, today, 0.75,
      "Manual entry: " + (if trigger == "" then "User-created opportunity" else trigger))
  }

  /**
   * Items created at different instants have different ids, and a created
   * item waits for review: it shows under "to-review" and counts as one
   * more draft once it is added to the list.
   */
  lemma CreatedItemIsNewDraft(customerId: string, vesselId: string, title: string, message: string,
                              channel: Channel, priority: Priority, revenue: string, trigger: string,
                              nowMillis: nat, laterMillis: nat, today: string, items: seq<Outreach>)
    requires nowMillis != laterMillis
    ensures var o := BuildItem(customerId, vesselId, title, message, channel, priority, revenue, trigger, nowMillis, today);
            var p := BuildItem(customerId, vesselId, title, message, channel, priority, revenue, trigger, laterMillis, today);
            o.id != p.id &&
            MatchesStatusFilter(o.status, ToReview) &&
            StatusCount([o] + items, Draft) == StatusCount(items, Draft) + 1
  {
    var o := BuildItem(customerId, vesselId, title, message, channel, priority, revenue, trigger, nowMillis, today);
    var p := BuildItem(customerId, vesselId, title, message, channel, priority, revenue, trigger, laterMillis, today);
    var prefix := "outreach-";
    if o.id == p.id {
      assert NatToString(nowMillis) == o.id[|prefix|..];
      assert NatToString(laterMillis) == p.id[|prefix|..];
      NatToStringInjective(nowMillis, laterMillis);
    }
    PrependCounts(items, o, Draft);
  }

  /** One edit of a free-text input or of the channel or priority selector. */
  datatype FieldEdit =
    | TitleEdit(text: string)
    | MessageEdit(text: string)
    | RevenueEdit(text: string)
    | TriggerEdit(text: string)
    | ChannelEdit(channel: Channel)
    | PriorityEdit(priority: Priority)

  /** The dialog's form state, and the `open` flag its parent keeps. */
  class AddOpportunityForm {
    var customerId: string
    var vesselId: string
    var title: string
    var message: string
    var channel: Channel
    var priority: Priority
    var revenue: string
    var trigger: string
    var open: bool

    /** Every field holds its default: empty texts, email and medium priority. */
    predicate IsBlank()
      reads this
    {
      customerId == "" && vesselId == "" && title == "" && message == "" &&
      channel == Email && priority == Medium && revenue == "" && trigger == ""
    }

    constructor(open: bool)
      ensures IsBlank() && this.open == open
    {
      customerId, vesselId, title, message := "", "", "", "";
      channel, priority, revenue, trigger := Email, Medium, "", "";
      this.open := open;
    }

    /** Choosing a customer always clears the chosen vessel. */
    method SelectCustomer(id: string)
      modifies this
      ensures customerId == id && vesselId == ""
      ensures title == old(title) && message == old(message) && channel == old(channel)
      ensures priority == old(priority) && revenue == old(revenue) && trigger == old(trigger)
      ensures open == old(open)
    {
      customerId := id;
      vesselId := "";
    }

    method SelectVessel(id: string)
      modifies this
      ensures vesselId == id
      ensures customerId == old(customerId) && title == old(title) && message == old(message)
      ensures channel == old(channel) && priority == old(priority) && revenue == old(revenue)
      ensures trigger == old(trigger) && open == old(open)
    {
      vesselId := id;
    }

    /** The title, message, revenue and trigger inputs and the channel and priority selectors each set their own field only. */
    method Edit(e: FieldEdit)
      modifies this
      ensures title == (if e.TitleEdit? then e.text else old(title))
      ensures message == (if e.MessageEdit? then e.text else old(message))
      ensures revenue == (if e.RevenueEdit? then e.text else old(revenue))
      ensures trigger == (if e.TriggerEdit? then e.text else old(trigger))
      ensures channel == (if e.ChannelEdit? then e.channel else old(channel))
      ensures priority == (if e.PriorityEdit? then e.priority else old(priority))
      ensures customerId == old(customerId) && vesselId == old(vesselId) && open == old(open)
    {
      match e
      case TitleEdit(t) => title := t;
      case MessageEdit(t) => message := t;
      case RevenueEdit(t) => revenue := t;
      case TriggerEdit(t) => trigger := t;
      case ChannelEdit(c) => channel := c;
      case PriorityEdit(p) => priority := p;
    }

    method ResetForm()
      modifies this
      ensures IsBlank() && open == old(open)
    {
      customerId, vesselId, title, message := "", "", "", "";
      channel, priority, revenue, trigger := Email, Medium, "", "";
    }

    /**
     * `handleSubmit`: without a customer, vessel and title nothing changes
     * and nothing is added; otherwise exactly one item is handed to the
     * caller, built from the form, the dialog closes and the form is blank.
     */
    method HandleSubmit(nowMillis: nat, today: string) returns (added: Option<Outreach>)
      modifies this
      ensures !CanSubmit(old(customerId), old(vesselId), old(title)) ==>
        added.None? && unchanged(this)
      ensures CanSubmit(old(customerId), old(vesselId), old(title)) ==>
        added == Some(BuildItem(old(customerId), old(vesselId), old(title), old(message),
                                old(channel), old(priority), old(revenue), old(trigger), nowMillis, today)) &&
        !open && IsBlank()
    {
      if !CanSubmit(customerId, vesselId, title) {
        return None;
      }
      var item := BuildItem(customerId, vesselId, title, message, channel, priority, revenue, trigger,
                            nowMillis, today);
      added := Some(item);
      open := false;
      ResetForm();
    }

    /** The cancel button closes the dialog and keeps what was entered. */
    method Cancel()
      modifies this
      ensures !open
      ensures customerId == old(customerId) && vesselId == old(vesselId) && title == old(title)
      ensures message == old(message) && channel == old(channel) && priority == old(priority)
      ensures revenue == old(revenue) && trigger == old(trigger)
    {
      open := false;
    }
  }
}

=== FILE: app_shell.dfy ===
/**
 * The application shell: the current mode, the welcome dialog and the
 * walkthrough highlight that moves from the demo controller to the request
 * list and on to the new-request button. Browser storage is the
 * `welcomeSeen` flag: it stands for the stored "welcome seen" key.
 */
module AppShell {
  import opened Common
  import opened Types

  /** The modes the shell switches between. */
  datatype AppMode = Guided | Live | Proactive | Architecture

  /** The page the shell shows for a mode; the live mode shows none. */
  datatype Page = GuidedPage | ProactivePage | ArchitecturePage | NoPage

  function PageFor(mode: AppMode): (p: Page)
    ensures p == NoPage <==> mode == Live
  {
    match mode
    case Guided => GuidedPage
    case Proactive => ProactivePage
    case Architecture => ArchitecturePage
    case Live => NoPage
  }

  /** Dismissing the current highlight moves it to the next one; after the last one there is none. */
  function NextHighlight(h: Option<Highlight>): Option<Highlight>
  {
    match h
    case Some(DemoHighlight) => Some(RequestHighlight)
    case Some(RequestHighlight) => Some(NewRequestHighlight)
    case _ => None
  }

  /** `k` dismissals in a row. */
  function Dismissals(h: Option<Highlight>, k: nat): Option<Highlight>
  {
    if k == 0 then h else NextHighlight(Dismissals(h, k - 1))
  }

  /**
   * The highlight tour: demo, then request, then new-request, then none,
   * and none stays none; whatever the highlight, three dismissals clear it,
   * and from the demo highlight fewer than three do not.
   */
  lemma {:induction false} HighlightTour(h: Option<Highlight>, k: nat)
    ensures NextHighlight(Some(DemoHighlight)) == Some(RequestHighlight)
    ensures NextHighlight(Some(RequestHighlight)) == Some(NewRequestHighlight)
    ensures NextHighlight(Some(NewRequestHighlight)) == None
    ensures NextHighlight(None) == None
    ensures k >= 3 ==> Dismissals(h, k) == None
    ensures k < 3 ==> Dismissals(Some(DemoHighlight), k) != None
  {
    if k > 0 {
      HighlightTour(h, k - 1);
      if k == 3 {
        assert Dismissals(h, 3) == NextHighlight(NextHighlight(NextHighlight(h)));
      }
    }
  }

  /** The shell's state. */
  datatype ShellState = ShellState(mode: AppMode, showWelcome: bool, highlight: Option<Highlight>, welcomeSeen: bool)

  /** The demo-controller highlight is on exactly when the demo highlight is active. */
  predicate HighlightDemoController(st: ShellState)
  {
    st.highlight == Some(DemoHighlight)
  }

  /** On mount, the welcome dialog opens unless it was seen before. */
  function AfterMount(st: ShellState): ShellState
  {
    if !st.welcomeSeen then st.(showWelcome := true) else st
  }

  /** Closing the welcome dialog hides it, remembers it as seen and starts the tour. */
  function AfterWelcomeClose(st: ShellState): ShellState
  {
    st.(showWelcome := false, welcomeSeen := true, highlight := Some(DemoHighlight))
  }

  /** The dialog reports a change of its open state: closing is a welcome close. */
  function AfterOpenChange(st: ShellState, open: bool): ShellState
  {
    if !open then AfterWelcomeClose(st) else st.(showWelcome := true)
  }

  function AfterDismissHighlight(st: ShellState): ShellState
  {
    st.(highlight := NextHighlight(st.highlight))
  }

  /** Switching mode always ends the highlight tour. */
  function AfterModeChange(st: ShellState, next: AppMode): ShellState
  {
    st.(mode := next, highlight := None)
  }

  /**
   * The welcome flow: a first visit opens the dialog, a later one does
   * not; closing it, by button or by the dialog itself, lights the demo
   * controller, and from then on mounting no longer opens it.
   */
  lemma WelcomeFlow(st: ShellState)
    ensures !st.welcomeSeen ==> AfterMount(st).showWelcome
    ensures st.welcomeSeen ==> AfterMount(st) == st
    ensures HighlightDemoController(AfterWelcomeClose(st)) && !AfterWelcomeClose(st).showWelcome
    ensures AfterOpenChange(st, false) == AfterWelcomeClose(st)
    ensures AfterMount(AfterWelcomeClose(st)) == AfterWelcomeClose(st)
    ensures AfterWelcomeClose(st).mode == st.mode
  {
  }

  /**
   * A mode change sets the mode and clears the highlight, so no
   * highlight is shown, and dismissing afterwards changes nothing; the
   * welcome dialog is not affected.
   */
  lemma ModeChangeEndsTour(st: ShellState, next: AppMode)
    ensures AfterModeChange(st, next).mode == next
    ensures !HighlightDemoController(AfterModeChange(st, next))
    ensures AfterDismissHighlight(AfterModeChange(st, next)) == AfterModeChange(st, next)
    ensures AfterModeChange(st, next).showWelcome == st.showWelcome
  {
  }

  /** The shell component. */
  class Shell {
    var mode: AppMode
    var showWelcome: bool
    var highlight: Option<Highlight>
    /** The stored "welcome seen" key. */
    var welcomeSeen: bool

    function State(): ShellState
      reads this
    {
      ShellState(mode, showWelcome, highlight, welcomeSeen)
    }

    /** The first render: guided mode, no dialog and no highlight; storage as found. */
    constructor(welcomeSeen: bool)
      ensures State() == ShellState(Guided, false, None, welcomeSeen)
    {
      mode, showWelcome, highlight := Guided, false, None;
      this.welcomeSeen := welcomeSeen;
    }

    method Mount()
      modifies this
      ensures State() == AfterMount(old(State()))
    {
      if !welcomeSeen {
        showWelcome := true;
      }
    }

    method WelcomeClose()
      modifies this
      ensures State() == AfterWelcomeClose(old(State()))
    {
      showWelcome := false;
      welcomeSeen := true;
      highlight := Some(DemoHighlight);
    }

    method OpenChange(open: bool)
      modifies this
      ensures State() == AfterOpenChange(old(State()), open)
    {
      if !open {
        WelcomeClose();
      } else {
        showWelcome := true;
      }
    }

    /** The shell's "show welcome" action. */
    method ShowWelcome()
      modifies this
      ensures State() == old(State()).(showWelcome := true)
    {
      showWelcome := true;
    }

    method DismissHighlight()
      modifies this
      ensures State() == AfterDismissHighlight(old(State()))
    {
      if highlight == Some(DemoHighlight) {
        highlight := Some(RequestHighlight);
      } else if highlight == Some(RequestHighlight) {
        highlight := Some(NewRequestHighlight);
      } else {
        highlight := None;
      }
    }

    method ModeChange(next: AppMode)
      modifies this
      ensures State() == AfterModeChange(old(State()), next)
    {
      mode := next;
      highlight := None;
    }
  }
}

=== FILE: architecture_view.dfy ===
/**
 * The product-architecture board: a 5200 × 2200 board of node boxes seen
 * through a viewport that can be panned by dragging, zoomed between 0.25
 * and 1.8, fitted to the viewport and centred on a node; and the routing
 * of the edges between nodes as cubic curves leaving and entering the node
 * boxes at the midpoints of their sides. Coordinates are real numbers.
 */
module ArchitectureView {
  import opened Common

  datatype Point = Point(x: real, y: real)
  datatype Size = Size(width: real, height: real)

  /** A node box on the board. */
  datatype NodeBox = NodeBox(id: string, x: real, y: real, width: real, height: real)

  datatype Side = Left | Right | Top | Bottom

  const BoardWidth: real := 5200.0
  const BoardHeight: real := 2200.0
  const ZoomMin: real := 0.25
  const ZoomMax: real := 1.8
  /** How far the board may be pulled in from the viewport's edges. */
  const Margin: real := 120.0

  function Min(a: real, b: real): real { if a <= b then a else b }
  function Max(a: real, b: real): real { if a >= b then a else b }
  function Abs(a: real): real { if a >= 0.0 then a else -a }

  /** `Math.min(hi, Math.max(lo, v))`. */
  function Clamp(v: real, lo: real, hi: real): (r: real)
    ensures r <= hi
    ensures lo <= hi ==> lo <= r
    ensures lo <= v <= hi ==> r == v
    ensures v < lo <= hi ==> r == lo
    ensures v > hi ==> r == hi
  {
    Min(hi, Max(lo, v))
  }

  /** The range the board's offset may take, per axis. */
  datatype Bounds = Bounds(minX: real, maxX: real, minY: real, maxY: real)

  predicate InBounds(p: Point, b: Bounds)
  {
    b.minX <= p.x <= b.maxX && b.minY <= p.y <= b.maxY
  }

  /**
   * The offsets allowed at a scale: the board's left (top) edge at most the
   * margin into the viewport, and its right (bottom) edge at least the
   * margin in from the viewport's far side when the scaled board is wider
   * (taller) than that leaves room for.
   */
  function GetBounds(size: Size, scale: real): (b: Bounds)
    ensures b.maxX == Margin && b.maxY == Margin
    ensures b.minX <= b.maxX && b.minY <= b.maxY
    ensures b.minX <= size.width - BoardWidth * scale - Margin
    ensures b.minY <= size.height - BoardHeight * scale - Margin
    ensures b.minX == Margin || b.minX == size.width - BoardWidth * scale - Margin
    ensures b.minY == Margin || b.minY == size.height - BoardHeight * scale - Margin
  {
    Bounds(Min(Margin, size.width - BoardWidth * scale - Margin), Margin,
           Min(Margin, size.height - BoardHeight * scale - Margin), Margin)
  }

  /** Both coordinates clamped into the bounds. */
  function ClampToBounds(p: Point, b: Bounds): (r: Point)
    ensures b.minX <= b.maxX && b.minY <= b.maxY ==> InBounds(r, b)
    ensures InBounds(p, b) ==> r == p
  {
    Point(Clamp(p.x, b.minX, b.maxX), Clamp(p.y, b.minY, b.maxY))
  }

  function Center(n: NodeBox): Point
  {
    Point(n.x + n.width / 2.0, n.y + n.height / 2.0)
  }

  /** The offset that puts the centre of `node` at the centre of the viewport. */
  function CenteringTarget(node: NodeBox, size: Size, scale: real): (p: Point)
    ensures p.x + Center(node).x * scale == size.width / 2.0
    ensures p.y + Center(node).y * scale == size.height / 2.0
  {
    Point(size.width / 2.0 - Center(node).x * scale, size.height / 2.0 - Center(node).y * scale)
  }

  /**
   * `getCenteredOffset`: an offset within the bounds; when centring the
   * node exactly is allowed, the node's centre is at the viewport's centre.
   */
  function GetCenteredOffset(node: NodeBox, size: Size, scale: real): (r: Point)
    ensures InBounds(r, GetBounds(size, scale))
    ensures InBounds(CenteringTarget(node, size, scale), GetBounds(size, scale)) ==>
      r.x + Center(node).x * scale == size.width / 2.0 &&
      r.y + Center(node).y * scale == size.height / 2.0
  {
    ClampToBounds(CenteringTarget(node, size, scale), GetBounds(size, scale))
  }

  function Midpoint(a: Point, b: Point): Point
  {
    Point((a.x + b.x) / 2.0, (a.y + b.y) / 2.0)
  }

  /** The two corners of the box that bound one of its sides. */
  function SideEnds(n: NodeBox, side: Side): (Point, Point)
  {
    var left, right := n.x, n.x + n.width;
    var top, bottom := n.y, n.y + n.height;
    match side
    case Left => (Point(left, top), Point(left, bottom))
    case Right => (Point(right, top), Point(right, bottom))
    case Top => (Point(left, top), Point(right, top))
    case Bottom => (Point(left, bottom), Point(right, bottom))
  }

  /** `getAnchorPoint`: where an edge meets the box on a side, the midpoint of that side. */
  function GetAnchorPoint(n: NodeBox, side: Side): (p: Point)
    ensures p == Midpoint(SideEnds(n, side).0, SideEnds(n, side).1)
  {
    match side
    case Left => Point(n.x, n.y + n.height / 2.0)
    case Right => Point(n.x + n.width, n.y + n.height / 2.0)
    case Top => Point(n.x + n.width / 2.0, n.y)
    case Bottom => Point(n.x + n.width / 2.0, n.y + n.height)
  }

  predicate IsHorizontal(side: Side)
  {
    side == Left || side == Right
  }

  function Opposite(side: Side): Side
  {
    match side
    case Left => Right
    case Right => Left
    case Top => Bottom
    case Bottom => Top
  }

  /** The unit step outward from a side: left and up are negative, as on the screen. */
  function Outward(side: Side): Point
  {
    match side
    case Left => Point(-1.0, 0.0)
    case Right => Point(1.0, 0.0)
    case Top => Point(0.0, -1.0)
    case Bottom => Point(0.0, 1.0)
  }

  /**
   * `getAutoSides`: the edge leaves from the side facing the other box and
   * enters through the opposite side; it runs horizontally when the
   * centres are at least as far apart across as down, vertically otherwise.
   */
  function GetAutoSides(from: NodeBox, to: NodeBox): (r: (Side, Side))
    ensures r.1 == Opposite(r.0)
    ensures IsHorizontal(r.0) <==>
      Abs(Center(to).x - Center(from).x) >= Abs(Center(to).y - Center(from).y)
    ensures var d := Point(Center(to).x - Center(from).x, Center(to).y - Center(from).y);
      d.x * Outward(r.0).x + d.y * Outward(r.0).y >= 0.0
  {
    var dx := Center(to).x - Center(from).x;
    var dy := Center(to).y - Center(from).y;
    if Abs(dx) >= Abs(dy) then
      (if dx >= 0.0 then Right else Left, if dx >= 0.0 then Left else Right)
    else
      (if dy >= 0.0 then Bottom else Top, if dy >= 0.0 then Top else Bottom)
  }

  /** `getControlPoint`: the point moved `distance` outward from the side. */
  function GetControlPoint(p: Point, side: Side, distance: real): (r: Point)
    ensures r == Point(p.x + distance * Outward(side).x, p.y + distance * Outward(side).y)
    ensures IsHorizontal(side) ==> r.y == p.y && Abs(r.x - p.x) == Abs(distance)
    ensures !IsHorizontal(side) ==> r.x == p.x && Abs(r.y - p.y) == Abs(distance)
  {
    match side
    case Left => Point(p.x - distance, p.y)
    case Right => Point(p.x + distance, p.y)
    case Top => Point(p.x, p.y - distance)
    case Bottom => Point(p.x, p.y + distance)
  }

  /** The id of the data bus, whose edges are drawn level with their other end. */
  const DataBusId := "data-bus"

  /** How far the curve's control points stand off from its ends. */
  const CurveReach: real := 76.0

  /** A drawn edge: a cubic curve from `start` to `end` with two control points. */
  datatype Route = Route(start: Point, c1: Point, c2: Point, end: Point)

  /**
   * The route of an edge: the given sides, or the automatic ones where an
   * edge gives none; the anchors on those sides, the data bus's end moved
   * level with the other end when it leaves or enters the bus sideways; and
   * control points `CurveReach` outward from both ends.
   */
  function EdgeRoute(from: NodeBox, to: NodeBox, fromSide: Option<Side>, toSide: Option<Side>): Route
  {
    var auto := GetAutoSides(from, to);
    var fs := fromSide.GetOr(auto.0);
    var ts := toSide.GetOr(auto.1);
    var start0 := GetAnchorPoint(from, fs);
    var end0 := GetAnchorPoint(to, ts);
    var start := if from.id == DataBusId && IsHorizontal(fs) then start0.(y := end0.y) else start0;
    var end := if to.id == DataBusId && IsHorizontal(ts) then end0.(y := start.y) else end0;
    Route(start, GetControlPoint(start, fs, CurveReach), GetControlPoint(end, ts, CurveReach), end)
  }

  /**
   * What every route looks like: an end off the data bus is the midpoint
   * of its side; a sideways end on the data bus keeps the side's x and is
   * level with the other end; the curve leaves and enters straight out of
   * the sides by `CurveReach`.
   */
  lemma EdgeRouteShape(from: NodeBox, to: NodeBox, fromSide: Option<Side>, toSide: Option<Side>)
    ensures var auto := GetAutoSides(from, to);
      var fs := fromSide.GetOr(auto.0);
      var ts := toSide.GetOr(auto.1);
      var r := EdgeRoute(from, to, fromSide, toSide);
      (from.id != DataBusId ==> r.start == GetAnchorPoint(from, fs)) &&
      (to.id != DataBusId ==> r.end == GetAnchorPoint(to, ts)) &&
      (from.id == DataBusId && IsHorizontal(fs) ==>
        r.start.x == GetAnchorPoint(from, fs).x && r.start.y == r.end.y) &&
      (to.id == DataBusId && IsHorizontal(ts) ==>
        r.end.x == GetAnchorPoint(to, ts).x && r.end.y == r.start.y) &&
      r.c1 == Point(r.start.x + CurveReach * Outward(fs).x, r.start.y + CurveReach * Outward(fs).y) &&
      r.c2 == Point(r.end.x + CurveReach * Outward(ts).x, r.end.y + CurveReach * Outward(ts).y)
  {
  }

  /** The edge sides an edge states override the automatic ones; missing ones fall back to them. */
  lemma EdgeSidesFallBack(from: NodeBox, to: NodeBox, fs: Side, ts: Side)
    ensures EdgeRoute(from, to, None, None) ==
            EdgeRoute(from, to, Some(GetAutoSides(from, to).0), Some(GetAutoSides(from, to).1))
    ensures from.id != DataBusId && to.id != DataBusId ==>
            EdgeRoute(from, to, Some(fs), Some(ts)).start == GetAnchorPoint(from, fs) &&
            EdgeRoute(from, to, Some(fs), Some(ts)).end == GetAnchorPoint(to, ts)
  {
  }

  /** At scale `s`, the board with 180 of room on each axis fits into the viewport. */
  predicate Fits(size: Size, s: real)
  {
    BoardWidth * s + 180.0 <= size.width && BoardHeight * s + 180.0 <= size.height
  }

  /**
   * The scale that fits the board, less 180 of room, into the viewport,
   * between 0.25 and 1: the largest scale up to 1 that fits, or 0.25 when
   * none of at least 0.25 does.
   */
  function FitScale(size: Size): (r: real)
    ensures ZoomMin <= r <= 1.0
    ensures r == ZoomMin || Fits(size, r)
    ensures forall s :: r < s <= 1.0 ==> !Fits(size, s)
  {
    var a := (size.width - 180.0) / BoardWidth;
    var b := (size.height - 180.0) / BoardHeight;
    var r := Clamp(Min(a, b), ZoomMin, 1.0);
    assert forall s :: Min(a, b) < s ==> !Fits(size, s) by {
      forall s | Min(a, b) < s
        ensures !Fits(size, s)
      {
        if a <= b {
          assert BoardWidth * s > BoardWidth * a == size.width - 180.0;
        } else {
          assert BoardHeight * s > BoardHeight * b == size.height - 180.0;
        }
      }
    }
    r
  }

  /** The scale a node opens at: at least 1.12, kept if already larger, within the zoom range. */
  function FocusScale(scale: real): (r: real)
    ensures 1.12 <= r <= ZoomMax
    ensures scale <= ZoomMax ==> scale <= r
    ensures 1.12 <= scale <= ZoomMax ==> r == scale
    ensures scale < 1.12 ==> r == 1.12
    ensures scale > ZoomMax ==> r == ZoomMax
  {
    Clamp(Max(scale, 1.12), ZoomMin, ZoomMax)
  }

  /**
   * The node with an id, as the id-keyed record built from the node list
   * holds it: when ids repeat, the last one.
   */
  function NodeById(nodes: seq<NodeBox>, id: string): (r: Option<NodeBox>)
    ensures r.None? <==> forall i :: 0 <= i < |nodes| ==> nodes[i].id != id
    ensures r.Some? ==> r.value in nodes && r.value.id == id
  {
    if nodes == [] then None
    else if nodes[|nodes| - 1].id == id then Some(nodes[|nodes| - 1])
    else
      var prefix := nodes[..|nodes| - 1];
      assert forall i :: 0 <= i < |prefix| ==> prefix[i] == nodes[i];
      NodeById(prefix, id)
  }

  /** The node fitting centres on: the gateway, or the first node without one. */
  function Gateway(nodes: seq<NodeBox>): (n: NodeBox)
    requires |nodes| > 0
    ensures n in nodes
  {
    match NodeById(nodes, "gateway")
    case Some(g) => g
    case None => nodes[0]
  }

  /** What the board's placement is: viewport size, offset and scale. */
  datatype ViewState = ViewState(viewport: Size, offset: Point, scale: real)

  /** The board coordinates under a viewport point. */
  function BoardPointAt(v: ViewState, c: Point): Point
    requires v.scale != 0.0
  {
    Point((c.x - v.offset.x) / v.scale, (c.y - v.offset.y) / v.scale)
  }

  /** The point a zoom is centred on: the given one, or the viewport's centre. */
  function ZoomCenter(v: ViewState, center: Option<Point>): Point
  {
    center.GetOr(Point(v.viewport.width / 2.0, v.viewport.height / 2.0))
  }

  /** The offset at `nextScale` that keeps the board point under `c` where it is. */
  function ZoomTarget(v: ViewState, nextScale: real, c: Point): (p: Point)
    requires v.scale != 0.0 && nextScale != 0.0
    ensures BoardPointAt(ViewState(v.viewport, p, nextScale), c) == BoardPointAt(v, c)
  {
    var board := BoardPointAt(v, c);
    var p := Point(c.x - board.x * nextScale, c.y - board.y * nextScale);
    assert (c.x - p.x) / nextScale == board.x by {
      assert c.x - p.x == board.x * nextScale;
    }
    assert (c.y - p.y) / nextScale == board.y by {
      assert c.y - p.y == board.y * nextScale;
    }
    p
  }

  /**
   * `zoomTo`: the scale clamped to [0.25, 1.8], the offset within the
   * bounds at that scale; when neither clamp binds, the board point under
   * the zoom centre stays under it.
   */
  function Zoomed(v: ViewState, nextScale: real, center: Option<Point>): (r: ViewState)
    requires v.scale > 0.0
    ensures r.viewport == v.viewport
    ensures ZoomMin <= r.scale <= ZoomMax
    ensures ZoomMin <= nextScale <= ZoomMax ==> r.scale == nextScale
    ensures InBounds(r.offset, GetBounds(v.viewport, r.scale))
    ensures InBounds(ZoomTarget(v, r.scale, ZoomCenter(v, center)), GetBounds(v.viewport, r.scale)) ==>
      BoardPointAt(r, ZoomCenter(v, center)) == BoardPointAt(v, ZoomCenter(v, center))
  {
    var clampedScale := Clamp(nextScale, ZoomMin, ZoomMax);
    var target := ZoomTarget(v, clampedScale, ZoomCenter(v, center));
    ViewState(v.viewport, ClampToBounds(target, GetBounds(v.viewport, clampedScale)), clampedScale)
  }

  /** `fitBoard`: the fitting scale, centred on the gateway as far as the bounds allow. */
  function Fitted(v: ViewState, gateway: NodeBox): (r: ViewState)
    ensures r.viewport == v.viewport
    ensures r.scale == FitScale(v.viewport)
    ensures r.offset == GetCenteredOffset(gateway, v.viewport, r.scale)
  {
    var fitScale := FitScale(v.viewport);
    ViewState(v.viewport, GetCenteredOffset(gateway, v.viewport, fitScale), fitScale)
  }

  /**
   * Zooming by wheel or button steps from a valid scale stays valid and
   * inside the bounds; fitting gives a scale no larger than 1 with the
   * offset inside the bounds.
   */
  lemma ZoomAndFitStayInRange(v: ViewState, step: real, gateway: NodeBox)
    requires ZoomMin <= v.scale <= ZoomMax
    ensures ZoomMin <= Zoomed(v, v.scale + step, None).scale <= ZoomMax
    ensures step >= 0.0 ==> Zoomed(v, v.scale + step, None).scale >= v.scale
    ensures step <= 0.0 ==> Zoomed(v, v.scale + step, None).scale <= v.scale
    ensures Fitted(v, gateway).scale <= 1.0
    ensures InBounds(Fitted(v, gateway).offset, GetBounds(v.viewport, Fitted(v, gateway).scale))
  {
  }

  /** The pointer position and board offset a drag started from. */
  datatype Drag = Drag(active: bool, startX: real, startY: real, originX: real, originY: real)

  /** The board viewer. */
  class BoardViewer {
    const nodes: seq<NodeBox>
    var viewport: Size
    var offset: Point
    var scale: real
    var openNodeId: string
    var drag: Drag
    var initialized: bool

    /** The node list is not empty and the scale is within the zoom range. */
    predicate Valid()
      reads this
    {
      |nodes| > 0 && ZoomMin <= scale <= ZoomMax
    }

    function State(): ViewState
      reads this
    {
      ViewState(viewport, offset, scale)
    }

    /** The first render: a 1280 × 680 viewport, offset (80, 80), scale 0.85, the gateway open. */
    constructor(nodes: seq<NodeBox>)
      requires |nodes| > 0
      ensures Valid() && this.nodes == nodes && !initialized && !drag.active
      ensures State() == ViewState(Size(1280.0, 680.0), Point(80.0, 80.0), 0.85)
      ensures openNodeId == "gateway"
    {
      this.nodes := nodes;
      viewport := Size(1280.0, 680.0);
      offset := Point(80.0, 80.0);
      scale := 0.85;
      openNodeId := "gateway";
      drag := Drag(false, 0.0, 0.0, 0.0, 0.0);
      initialized := false;
    }

    /**
     * A measurement of the viewport, already rounded to whole pixels. The
     * first one fits the board and centres the gateway; later ones keep the
     * scale and pull the offset back within the new bounds.
     */
    method Measure(width: int, height: int)
      requires Valid()
      modifies this
      ensures Valid() && initialized
      ensures viewport == Size(width as real, height as real)
      ensures !old(initialized) ==> State() == Fitted(old(State()).(viewport := viewport), Gateway(nodes))
      ensures old(initialized) ==>
        (scale == old(scale) && offset == ClampToBounds(old(offset), GetBounds(viewport, scale)))
      ensures InBounds(offset, GetBounds(viewport, scale))
      ensures drag == old(drag) && openNodeId == old(openNodeId)
    {
      var nextSize := Size(width as real, height as real);
      viewport := nextSize;
      if !initialized {
        var fitScale := FitScale(nextSize);
        scale := fitScale;
        offset := GetCenteredOffset(Gateway(nodes), nextSize, fitScale);
        initialized := true;
      } else {
        offset := ClampToBounds(offset, GetBounds(nextSize, scale));
      }
    }

    /** Pointer down: the drag starts from the pointer and the current offset. */
    method StartDrag(clientX: real, clientY: real)
      requires Valid()
      modifies this
      ensures Valid()
      ensures drag == Drag(true, clientX, clientY, old(offset).x, old(offset).y)
      ensures State() == old(State()) && openNodeId == old(openNodeId) && initialized == old(initialized)
    {
      drag := Drag(true, clientX, clientY, offset.x, offset.y);
    }

    /** Pointer move: during a drag the board moves by exactly as much as the pointer has since the drag began. */
    method OnDrag(clientX: real, clientY: real)
      requires Valid()
      modifies this
      ensures Valid()
      ensures drag == old(drag) && scale == old(scale) && viewport == old(viewport)
      ensures !drag.active ==> offset == old(offset)
      ensures drag.active ==> offset.x - drag.originX == clientX - drag.startX &&
                              offset.y - drag.originY == clientY - drag.startY
      ensures openNodeId == old(openNodeId) && initialized == old(initialized)
    {
      if !drag.active {
        return;
      }
      var dx := clientX - drag.startX;
      var dy := clientY - drag.startY;
      offset := Point(drag.originX + dx, drag.originY + dy);
    }

    /** Pointer up or cancel: the drag ends and the offset is pulled back within the bounds. */
    method EndDrag()
      requires Valid()
      modifies this
      ensures Valid() && !drag.active
      ensures offset == ClampToBounds(old(offset), GetBounds(viewport, scale))
      ensures InBounds(offset, GetBounds(viewport, scale))
      ensures InBounds(old(offset), GetBounds(viewport, scale)) ==> offset == old(offset)
      ensures scale == old(scale) && viewport == old(viewport)
      ensures openNodeId == old(openNodeId) && initialized == old(initialized)
    {
      drag := drag.(active := false);
      var b := GetBounds(viewport, scale);
      offset := ClampToBounds(offset, b);
    }

    method ZoomTo(nextScale: real, center: Option<Point>)
      requires Valid()
      modifies this
      ensures Valid()
      ensures State() == Zoomed(old(State()), nextScale, center)
      ensures drag == old(drag) && openNodeId == old(openNodeId) && initialized == old(initialized)
    {
      var clampedScale := Clamp(nextScale, ZoomMin, ZoomMax);
      var viewportCenter := center.GetOr(Point(viewport.width / 2.0, viewport.height / 2.0));
      var boardX := (viewportCenter.x - offset.x) / scale;
      var boardY := (viewportCenter.y - offset.y) / scale;
      var nextOffset := Point(viewportCenter.x - boardX * clampedScale, viewportCenter.y - boardY * clampedScale);
      assert nextOffset == ZoomTarget(State(), clampedScale, viewportCenter);
      var b := GetBounds(viewport, clampedScale);
      scale := clampedScale;
      offset := ClampToBounds(nextOffset, b);
    }

    /** A wheel turn zooms by 0.08 at the pointer: out when scrolling down, in otherwise. */
    method Wheel(deltaY: real, pointer: Point)
      requires Valid()
      modifies this
      ensures Valid()
      ensures State() == Zoomed(old(State()), old(scale) + (if deltaY > 0.0 then -0.08 else 0.08), Some(pointer))
      ensures drag == old(drag) && openNodeId == old(openNodeId) && initialized == old(initialized)
    {
      var zoomDelta := if deltaY > 0.0 then -0.08 else 0.08;
      ZoomTo(scale + zoomDelta, Some(pointer));
    }

    method FitBoard()
      requires Valid()
      modifies this
      ensures Valid()
      ensures State() == Fitted(old(State()), Gateway(nodes))
      ensures drag == old(drag) && openNodeId == old(openNodeId) && initialized == old(initialized)
    {
      var fitScale := FitScale(viewport);
      scale := fitScale;
      offset := GetCenteredOffset(Gateway(nodes), viewport, fitScale);
    }

    /**
     * `openNode`: an unknown id changes nothing; a known node opens at the
     * focus scale, centred as far as the bounds allow.
     */
    method OpenNode(nodeId: string)
      requires Valid()
      modifies this
      ensures Valid()
      ensures NodeById(nodes, nodeId).None? ==> State() == old(State()) && openNodeId == old(openNodeId)
      ensures NodeById(nodes, nodeId).Some? ==>
        openNodeId == nodeId && scale == FocusScale(old(scale)) && viewport == old(viewport) &&
        offset == GetCenteredOffset(NodeById(nodes, nodeId).value, viewport, scale)
      ensures drag == old(drag) && initialized == old(initialized)
    {
      var node := NodeById(nodes, nodeId);
      if node.None? {
        return;
      }
      var focusScale := FocusScale(scale);
      scale := focusScale;
      offset := GetCenteredOffset(node.value, viewport, focusScale);
      openNodeId := nodeId;
    }

    method CloseNode()
      requires Valid()
      modifies this
      ensures Valid() && openNodeId == ""
      ensures State() == old(State()) && drag == old(drag) && initialized == old(initialized)
    {
      openNodeId := "";
    }
  }
}

=== FILE: common.dfy ===
/**
 * Small building blocks shared by the models: an optional value, the
 * JavaScript array operations the components use (`filter`, `map` with an
 * id guard, `find`), a sum over a sequence, and decimal rendering of
 * counters as used in generated ids.
 */
module Common {

  /** `T | undefined` / `T | null` in the source. */
  datatype Option<T> = None | Some(value: T) {
    /** The `??` operator: the value, or `default` when absent. */
    function GetOr(default: T): T {
      match this
      case Some(v) => v
      case None => default
    }
  }

  /** `s.filter(p)`: the elements satisfying `p`, in their original order. */
  function Filter<T(==)>(s: seq<T>, p: T -> bool): (r: seq<T>)
    ensures |r| <= |s|
    ensures forall i :: 0 <= i < |r| ==> r[i] in s && p(r[i])
    ensures forall i :: 0 <= i < |s| && p(s[i]) ==> s[i] in r
  {
    if s == [] then []
    else if p(s[0]) then [s[0]] + Filter(s[1..], p)
    else Filter(s[1..], p)
  }

  /** Filtering a concatenation filters each part: the order of the survivors is kept. */
  lemma {:induction false} FilterConcat<T>(a: seq<T>, b: seq<T>, p: T -> bool)
    ensures Filter(a + b, p) == Filter(a, p) + Filter(b, p)
  {
    if a == [] {
      assert a + b == b;
    } else {
      assert (a + b)[1..] == a[1..] + b;
      FilterConcat(a[1..], b, p);
    }
  }

  /** Filtering a sequence with a given first element. */
  lemma FilterCons<T>(h: T, t: seq<T>, p: T -> bool)
    ensures Filter([h] + t, p) == if p(h) then [h] + Filter(t, p) else Filter(t, p)
  {
    assert ([h] + t)[1..] == t;
  }

  /** A filter that rejects nothing returns its input. */
  lemma {:induction false} FilterKeepsAll<T>(s: seq<T>, p: T -> bool)
    requires forall i :: 0 <= i < |s| ==> p(s[i])
    ensures Filter(s, p) == s
  {
    if s != [] {
      FilterKeepsAll(s[1..], p);
    }
  }

  /** Filtering twice by the same test is filtering once. */
  lemma {:induction false} FilterIdempotent<T>(s: seq<T>, p: T -> bool)
    ensures Filter(Filter(s, p), p) == Filter(s, p)
  {
    FilterKeepsAll(Filter(s, p), p);
  }

  /**
   * `s.map(x => p(x) ? f(x) : x)`: the id-addressed update the hooks
   * perform. Length and order are kept and only matching elements change.
   */
  function MapWhere<T>(s: seq<T>, p: T -> bool, f: T -> T): (r: seq<T>)
    ensures |r| == |s|
    ensures forall i :: 0 <= i < |s| ==> r[i] == if p(s[i]) then f(s[i]) else s[i]
  {
    if s == [] then [] else [if p(s[0]) then f(s[0]) else s[0]] + MapWhere(s[1..], p, f)
  }

  /** The first element satisfying `p`, as `Array.prototype.find` returns it. */
  function Find<T(==)>(s: seq<T>, p: T -> bool): (r: Option<T>)
    ensures r.None? <==> forall i :: 0 <= i < |s| ==> !p(s[i])
    ensures r.Some? ==> exists k :: 0 <= k < |s| && s[k] == r.value && p(s[k]) &&
                                    forall i :: 0 <= i < k ==> !p(s[i])
  {
    if s == [] then None
    else if p(s[0]) then
      assert s[0] == s[0] && p(s[0]);
      Some(s[0])
    else
      var r := Find(s[1..], p);
      if r.Some? then
        var k :| 0 <= k < |s[1..]| && s[1..][k] == r.value && p(s[1..][k]) &&
                 forall i :: 0 <= i < k ==> !p(s[1..][i]);
        assert s[k + 1] == r.value && forall i :: 0 <= i < k + 1 ==> !p(s[i]);
        r
      else r
  }

  /** `s.reduce((sum, x) => sum + f(x), 0)` over integers. */
  function SumInt<T>(s: seq<T>, f: T -> int): int
  {
    if s == [] then 0 else f(s[0]) + SumInt(s[1..], f)
  }

  /** The same reduction over real numbers. */
  function SumReal<T>(s: seq<T>, f: T -> real): real
  {
    if s == [] then 0.0 else f(s[0]) + SumReal(s[1..], f)
  }

  /** A sum over a concatenation is the sum of the sums. */
  lemma {:induction false} SumIntConcat<T>(a: seq<T>, b: seq<T>, f: T -> int)
    ensures SumInt(a + b, f) == SumInt(a, f) + SumInt(b, f)
  {
    if a == [] {
      assert a + b == b;
    } else {
      assert (a + b)[1..] == a[1..] + b;
      SumIntConcat(a[1..], b, f);
    }
  }

  /** The same for real sums. */
  lemma {:induction false} SumRealConcat<T>(a: seq<T>, b: seq<T>, f: T -> real)
    ensures SumReal(a + b, f) == SumReal(a, f) + SumReal(b, f)
  {
    if a == [] {
      assert a + b == b;
    } else {
      assert (a + b)[1..] == a[1..] + b;
      SumRealConcat(a[1..], b, f);
    }
  }

  /** The decimal digit character for `d`. */
  function DigitChar(d: nat): (c: char)
    requires d < 10
    ensures '0' <= c <= '9'
  {
    (48 + d) as char
  }

  /** `String(n)` for a non-negative integer: its decimal digits, most significant first. */
  function NatToString(n: nat): (s: string)
    ensures 1 <= |s|
    ensures n < 10 <==> |s| == 1
    ensures forall i :: 0 <= i < |s| ==> '0' <= s[i] <= '9'
  {
    if n < 10 then [DigitChar(n)] else NatToString(n / 10) + [DigitChar(n % 10)]
  }

  /** Distinct numbers render as distinct strings. */
  lemma {:induction false} NatToStringInjective(a: nat, b: nat)
    requires NatToString(a) == NatToString(b)
    ensures a == b
  {
    var sa, sb := NatToString(a), NatToString(b);
    if a >= 10 && b >= 10 {
      assert sa[|sa| - 1] == sb[|sb| - 1];
      assert (48 + a % 10) as char == (48 + b % 10) as char;
      assert a % 10 == b % 10;
      assert NatToString(a / 10) == sa[..|sa| - 1] == sb[..|sb| - 1] == NatToString(b / 10);
      NatToStringInjective(a / 10, b / 10);
    } else if a < 10 && b < 10 {
      assert sa[0] == sb[0];
    }
  }
}

=== FILE: fleet_overview.dfy ===
/**
 * The fleet-health table of the proactive dashboard: a threshold
 * classifier over engine hours and days since the last service, and the
 * row builder that walks the customers, picks each one's latest service by
 * sorting its history newest first, and emits one row per vessel.
 * Dates are day numbers (days since 1970-01-01, the midnight that
 * `new Date("YYYY-MM-DD")` stands for); the clock is the parameter
 * `nowMillis`, standing for `Date.now()`.
 */
module FleetOverview {
  import opened Common
  import opened Sorting
  import opened Types

  datatype HealthStatus = Good | Attention | ServiceDue

  const MillisPerDay: int := 1000 * 60 * 60 * 24

  /** The day number of 2025-01-01, assumed when a customer has no history. */
  const DefaultServiceDay: int := 20089

  /** `Math.floor((Date.now() - date) / dayLength)`, in whole days. */
  function DaysSince(nowMillis: int, day: int): (d: int)
    ensures d * MillisPerDay <= nowMillis - day * MillisPerDay < (d + 1) * MillisPerDay
  {
    (nowMillis - day * MillisPerDay) / MillisPerDay
  }

  /** A later service date is never more days ago. */
  lemma DaysSinceAntitone(nowMillis: int, day1: int, day2: int)
    requires day1 <= day2
    ensures DaysSince(nowMillis, day2) <= DaysSince(nowMillis, day1)
    ensures DaysSince(nowMillis, day1) == DaysSince(nowMillis, day2) + (day2 - day1)
  {
    var d2 := DaysSince(nowMillis, day2);
    var k := day2 - day1;
    assert nowMillis - day1 * MillisPerDay == (nowMillis - day2 * MillisPerDay) + k * MillisPerDay;
    assert (d2 + k) * MillisPerDay == d2 * MillisPerDay + k * MillisPerDay;
    assert (d2 + k + 1) * MillisPerDay == (d2 + 1) * MillisPerDay + k * MillisPerDay;
    DivisionIsUnique(nowMillis - day1 * MillisPerDay, d2 + k);
  }

  /** A quotient is the one whole number whose day span holds the dividend. */
  lemma DivisionIsUnique(x: int, q: int)
    requires q * MillisPerDay <= x < (q + 1) * MillisPerDay
    ensures x / MillisPerDay == q
  {
    var r := x / MillisPerDay;
    assert r * MillisPerDay <= x < (r + 1) * MillisPerDay;
  }

  /** The status engine hours alone call for. */
  function HoursBand(engineHours: int): HealthStatus
  {
    if engineHours >= 1000 then ServiceDue else if engineHours >= 500 then Attention else Good
  }

  /** The status the days since service alone call for. */
  function DaysBand(daysSinceService: int): HealthStatus
  {
    if daysSinceService > 180 then ServiceDue else if daysSinceService > 120 then Attention else Good
  }

  /** The less healthy of two statuses. */
  function Worse(a: HealthStatus, b: HealthStatus): HealthStatus
  {
    if Severity(a) >= Severity(b) then a else b
  }

  /**
   * The two thresholds: service is due first, attention next, good
   * otherwise; the status is the worse of what the hours and the days
   * each call for.
   */
  function Classify(engineHours: int, daysSinceService: int): (h: HealthStatus)
    ensures h == Worse(HoursBand(engineHours), DaysBand(daysSinceService))
  {
    if engineHours >= 1000 || daysSinceService > 180 then ServiceDue
    else if engineHours >= 500 || daysSinceService > 120 then Attention
    else Good
  }

  /** `getHealthStatus(engineHours, lastServiceDate)`. */
  function GetHealthStatus(engineHours: int, lastServiceDay: int, nowMillis: int): (h: HealthStatus)
    ensures var elapsed := nowMillis - lastServiceDay * MillisPerDay;
            (h == ServiceDue <==> engineHours >= 1000 || elapsed >= 181 * MillisPerDay) &&
            (h == Good <==> engineHours < 500 && elapsed < 121 * MillisPerDay)
  {
    var d := DaysSince(nowMillis, lastServiceDay);
    DaysThreshold(nowMillis - lastServiceDay * MillisPerDay, d, 181);
    DaysThreshold(nowMillis - lastServiceDay * MillisPerDay, d, 121);
    Classify(engineHours, d)
  }

  /** Whole days past a threshold are elapsed time past that many days. */
  lemma DaysThreshold(elapsed: int, d: int, n: int)
    requires d * MillisPerDay <= elapsed < (d + 1) * MillisPerDay
    ensures d >= n <==> elapsed >= n * MillisPerDay
  {
    if d >= n {
      assert d * MillisPerDay >= n * MillisPerDay by { MulMonotone(n, d); }
    } else {
      assert (d + 1) * MillisPerDay <= n * MillisPerDay by { MulMonotone(d + 1, n); }
    }
  }

  lemma MulMonotone(a: int, b: int)
    requires a <= b
    ensures a * MillisPerDay <= b * MillisPerDay
  {
  }

  /**
   * Service is due exactly at 1000 hours or past 180 days; attention exactly
   * when service is not due and the vessel is at 500 hours or past 120 days.
   */
  lemma ClassifyThresholds(hours: int, days: int)
    ensures Classify(hours, days) == ServiceDue <==> hours >= 1000 || days > 180
    ensures Classify(hours, days) == Attention <==> !(hours >= 1000 || days > 180) && (hours >= 500 || days > 120)
    ensures Classify(hours, days) == Good <==> hours < 500 && days <= 120
  {
  }

  function Severity(h: HealthStatus): nat
  {
    match h
    case Good => 0
    case Attention => 1
    case ServiceDue => 2
  }

  /** More hours or more days never make a vessel look healthier. */
  lemma ClassifyIsMonotone(h1: int, d1: int, h2: int, d2: int)
    requires h1 <= h2 && d1 <= d2
    ensures Severity(Classify(h1, d1)) <= Severity(Classify(h2, d2))
  {
  }

  /** An older last service never makes a vessel look healthier. */
  lemma OlderServiceIsNoHealthier(hours: int, day1: int, day2: int, nowMillis: int)
    requires day1 <= day2
    ensures Severity(GetHealthStatus(hours, day2, nowMillis)) <= Severity(GetHealthStatus(hours, day1, nowMillis))
  {
    DaysSinceAntitone(nowMillis, day1, day2);
    ClassifyIsMonotone(hours, DaysSince(nowMillis, day2), hours, DaysSince(nowMillis, day1));
  }

  // ---------------------------------------------------------------------
  // The rows

  datatype FleetRow = FleetRow(
    vesselName: string,
    customerName: string,
    engineHours: int,
    health: HealthStatus,
    daysSinceService: Option<int>)

  /** The comparator `b.date - a.date` sorts newest first: the key is the negated date. */
  function NewestFirst(e: ServiceEntry): int
  {
    -e.date
  }

  /** The history as `buildFleetRows` leaves it: sorted newest first when it is not empty. */
  function SortedHistory(history: seq<ServiceEntry>): (r: seq<ServiceEntry>)
    ensures multiset(r) == multiset(history) && |r| == |history|
    ensures forall i, j :: 0 <= i < j < |r| ==> r[j].date <= r[i].date
  {
    if |history| > 0 then SortByKey(history, NewestFirst) else history
  }

  /** The entry at the front of the sorted history, if there is one. */
  function LastService(c: Customer): (r: Option<ServiceEntry>)
    ensures r.None? <==> c.history == []
    ensures r.Some? ==> r.value in c.history &&
                        forall i :: 0 <= i < |c.history| ==> c.history[i].date <= r.value.date
  {
    if |c.history| > 0 then
      SortedHeadIsLeast(c.history, NewestFirst);
      Some(SortedHistory(c.history)[0])
    else None
  }

  /** `lastService?.date ?? "2025-01-01"`. */
  function LastServiceDay(c: Customer): int
  {
    match LastService(c)
    case Some(e) => e.date
    case None => DefaultServiceDay
  }

  /** The row of one vessel of customer `c`. */
  function RowFor(c: Customer, v: Vessel, nowMillis: int): (row: FleetRow)
    ensures row.vesselName == v.name && row.customerName == c.name && row.engineHours == v.engineHours
    ensures row.daysSinceService.None? <==> c.history == []
    ensures c.history == [] ==> row.health == GetHealthStatus(v.engineHours, DefaultServiceDay, nowMillis)
    ensures c.history != [] ==>
      exists e :: e in c.history && row.daysSinceService == Some(DaysSince(nowMillis, e.date)) &&
                  row.health == GetHealthStatus(v.engineHours, e.date, nowMillis) &&
                  forall i :: 0 <= i < |c.history| ==> c.history[i].date <= e.date
  {
    var last := LastService(c);
    FleetRow(v.name, c.name, v.engineHours,
             GetHealthStatus(v.engineHours, LastServiceDay(c), nowMillis),
             if last.Some? then Some(DaysSince(nowMillis, last.value.date)) else None)
  }

  /** The rows of a customer's vessels, in vessel order. */
  function RowsFor(c: Customer, vs: seq<Vessel>, nowMillis: int): (rows: seq<FleetRow>)
    ensures |rows| == |vs|
    ensures forall i :: 0 <= i < |vs| ==> rows[i] == RowFor(c, vs[i], nowMillis)
  {
    if vs == [] then [] else RowsFor(c, vs[..|vs| - 1], nowMillis) + [RowFor(c, vs[|vs| - 1], nowMillis)]
  }

  /** The row of some listed customer's own vessel. */
  ghost predicate IsRowOf(customers: seq<Customer>, vessels: seq<Vessel>, nowMillis: int, row: FleetRow)
  {
    exists c, v :: c in customers && v in vessels && v.customerId == c.id && row == RowFor(c, v, nowMillis)
  }

  /** All rows: customer by customer, each customer's vessels in fixture order. */
  function FleetRows(customers: seq<Customer>, vessels: seq<Vessel>, nowMillis: int): seq<FleetRow>
  {
    if customers == [] then []
    else
      var c := customers[|customers| - 1];
      FleetRows(customers[..|customers| - 1], vessels, nowMillis) + RowsFor(c, VesselsOf(vessels, c.id), nowMillis)
  }

  /** Every row is the row of a listed customer together with one of that customer's own vessels. */
  lemma {:induction false} FleetRowsAreOwnRows(customers: seq<Customer>, vessels: seq<Vessel>, nowMillis: int)
    ensures forall k :: 0 <= k < |FleetRows(customers, vessels, nowMillis)| ==>
      IsRowOf(customers, vessels, nowMillis, FleetRows(customers, vessels, nowMillis)[k])
  {
    if customers != [] {
      var init := customers[..|customers| - 1];
      var last := customers[|customers| - 1];
      FleetRowsAreOwnRows(init, vessels, nowMillis);
      var front := FleetRows(init, vessels, nowMillis);
      var back := RowsFor(last, VesselsOf(vessels, last.id), nowMillis);
      RowsForAreOwnRows(customers, vessels, nowMillis, last);
      forall k | 0 <= k < |front|
        ensures IsRowOf(customers, vessels, nowMillis, front[k])
      {
        IsRowOfWiden(init, customers, vessels, nowMillis, front[k]);
      }
      assert FleetRows(customers, vessels, nowMillis) == front + back;
    }
  }

  lemma RowsForAreOwnRows(customers: seq<Customer>, vessels: seq<Vessel>, nowMillis: int, c: Customer)
    requires c in customers
    ensures forall k :: 0 <= k < |RowsFor(c, VesselsOf(vessels, c.id), nowMillis)| ==>
      IsRowOf(customers, vessels, nowMillis, RowsFor(c, VesselsOf(vessels, c.id), nowMillis)[k])
  {
    var vs := VesselsOf(vessels, c.id);
    forall k | 0 <= k < |vs|
      ensures IsRowOf(customers, vessels, nowMillis, RowsFor(c, vs, nowMillis)[k])
    {
      assert vs[k] in vessels && vs[k].customerId == c.id;
      assert RowsFor(c, vs, nowMillis)[k] == RowFor(c, vs[k], nowMillis);
    }
  }

  lemma IsRowOfWiden(init: seq<Customer>, customers: seq<Customer>, vessels: seq<Vessel>, nowMillis: int, row: FleetRow)
    requires |init| <= |customers| && init == customers[..|init|]
    requires IsRowOf(init, vessels, nowMillis, row)
    ensures IsRowOf(customers, vessels, nowMillis, row)
  {
    var c, v :| c in init && v in vessels && v.customerId == c.id && row == RowFor(c, v, nowMillis);
    var i :| 0 <= i < |init| && init[i] == c;
    assert customers[i] == c;
  }

  /** The vessels whose owner is one of `ids`, in fixture order. */
  function VesselsOwnedBy(vessels: seq<Vessel>, ids: set<string>): (r: seq<Vessel>)
    ensures |r| <= |vessels|
  {
    if vessels == [] then []
    else if vessels[0].customerId in ids then [vessels[0]] + VesselsOwnedBy(vessels[1..], ids)
    else VesselsOwnedBy(vessels[1..], ids)
  }

  function CustomerIds(customers: seq<Customer>): set<string>
  {
    set i | 0 <= i < |customers| :: customers[i].id
  }

  predicate DistinctIds(customers: seq<Customer>)
  {
    forall i, j :: 0 <= i < j < |customers| ==> customers[i].id != customers[j].id
  }

  /** Adding one owner to the set adds exactly that owner's vessels to the count. */
  lemma {:induction false} VesselsOwnedByAdd(vessels: seq<Vessel>, ids: set<string>, id: string)
    requires id !in ids
    ensures |VesselsOwnedBy(vessels, ids + {id})| == |VesselsOwnedBy(vessels, ids)| + |VesselsOf(vessels, id)|
  {
    if vessels != [] {
      VesselsOwnedByAdd(vessels[1..], ids, id);
    }
  }

  /**
   * With distinct customer ids there is exactly one row per vessel that
   * belongs to one of the customers.
   */
  lemma {:induction false} OneRowPerOwnedVessel(customers: seq<Customer>, vessels: seq<Vessel>, nowMillis: int)
    requires DistinctIds(customers)
    ensures |FleetRows(customers, vessels, nowMillis)| == |VesselsOwnedBy(vessels, CustomerIds(customers))|
  {
    if customers == [] {
      assert CustomerIds(customers) == {};
      NoOwnersNoVessels(vessels);
    } else {
      var n := |customers| - 1;
      var front := customers[..n];
      var c := customers[n];
      assert DistinctIds(front) by {
        assert forall i :: 0 <= i < n ==> front[i] == customers[i];
      }
      OneRowPerOwnedVessel(front, vessels, nowMillis);
      CustomerIdsSnoc(customers);
      VesselsOwnedByAdd(vessels, CustomerIds(front), c.id);
    }
  }

  /** The ids of a longer list: those of the front and the last id, which the front does not hold. */
  lemma CustomerIdsSnoc(customers: seq<Customer>)
    requires |customers| > 0 && DistinctIds(customers)
    ensures var n := |customers| - 1;
      CustomerIds(customers) == CustomerIds(customers[..n]) + {customers[n].id} &&
      customers[n].id !in CustomerIds(customers[..n])
  {
    var n := |customers| - 1;
    var front := customers[..n];
    var c := customers[n];
    forall x | x in CustomerIds(customers)
      ensures x in CustomerIds(front) + {c.id}
    {
      var i :| 0 <= i < |customers| && customers[i].id == x;
      if i < n {
        assert front[i].id == x;
      }
    }
    forall x | x in CustomerIds(front)
      ensures x in CustomerIds(customers)
    {
      var i :| 0 <= i < |front| && front[i].id == x;
      assert customers[i].id == x;
    }
    forall i | 0 <= i < |front|
      ensures front[i].id != c.id
    {
      assert customers[i].id != customers[n].id;
    }
  }

  lemma {:induction false} NoOwnersNoVessels(vessels: seq<Vessel>)
    ensures VesselsOwnedBy(vessels, {}) == []
  {
    if vessels != [] {
      NoOwnersNoVessels(vessels[1..]);
    }
  }

  /** The customers with their histories sorted, as the row builder leaves them. */
  function WithSortedHistories(customers: seq<Customer>): (r: seq<Customer>)
    ensures |r| == |customers|
    ensures forall i :: 0 <= i < |customers| ==>
      r[i] == customers[i].(history := SortedHistory(customers[i].history))
  {
    seq(|customers|, i requires 0 <= i < |customers| => customers[i].(history := SortedHistory(customers[i].history)))
  }

  /** Sorting a history again changes nothing that the rows read: the rows are the same. */
  lemma SortingHistoriesKeepsRows(c: Customer)
    ensures LastService(c.(history := SortedHistory(c.history))).Some? == LastService(c).Some?
    ensures LastServiceDay(c.(history := SortedHistory(c.history))) == LastServiceDay(c)
  {
    var c' := c.(history := SortedHistory(c.history));
    if c.history != [] {
      var e := LastService(c).value;
      var e' := LastService(c').value;
      assert e' in multiset(c.history);
      var i :| 0 <= i < |c.history| && c.history[i] == e';
      assert e in multiset(c'.history);
      var j :| 0 <= j < |c'.history| && c'.history[j] == e;
    }
  }

  /** The rows of a longer customer list end with the last customer's rows. */
  lemma FleetRowsSnoc(customers: seq<Customer>, vessels: seq<Vessel>, nowMillis: int, i: nat)
    requires i < |customers|
    ensures FleetRows(customers[..i + 1], vessels, nowMillis) ==
            FleetRows(customers[..i], vessels, nowMillis) +
            RowsFor(customers[i], VesselsOf(vessels, customers[i].id), nowMillis)
  {
    assert customers[..i + 1][..i] == customers[..i];
  }

  lemma RowsForSnoc(c: Customer, vs: seq<Vessel>, j: nat, nowMillis: int)
    requires j < |vs|
    ensures RowsFor(c, vs[..j + 1], nowMillis) == RowsFor(c, vs[..j], nowMillis) + [RowFor(c, vs[j], nowMillis)]
  {
    assert vs[..j + 1][..j] == vs[..j];
  }

  lemma WithSortedHistoriesSnoc(customers: seq<Customer>, i: nat)
    requires i < |customers|
    ensures WithSortedHistories(customers[..i + 1]) ==
            WithSortedHistories(customers[..i]) + [customers[i].(history := SortedHistory(customers[i].history))]
  {
  }

  /** The last service is the head of the sorted history, and its date the day used for health. */
  lemma LastServiceIsSortedHead(c: Customer)
    ensures LastService(c) == if |SortedHistory(c.history)| > 0 then Some(SortedHistory(c.history)[0]) else None
    ensures LastServiceDay(c) == if LastService(c).Some? then LastService(c).value.date else DefaultServiceDay
  {
  }

  /** A vessel's row built from the customer's last service day and days since it. */
  lemma RowForParts(c: Customer, v: Vessel, nowMillis: int, lastServiceDay: int, daysSinceService: Option<int>)
    requires lastServiceDay == LastServiceDay(c)
    requires daysSinceService == if c.history != [] then Some(DaysSince(nowMillis, LastService(c).value.date)) else None
    ensures RowFor(c, v, nowMillis) ==
            FleetRow(v.name, c.name, v.engineHours, GetHealthStatus(v.engineHours, lastServiceDay, nowMillis), daysSinceService)
  {
  }

  /** The inner loop of `buildFleetRows`: one row per vessel of the customer, pushed in vessel order. */
  method PushVesselRows(rows: seq<FleetRow>, customer: Customer, customerVessels: seq<Vessel>,
                        lastServiceDay: int, daysSinceService: Option<int>, nowMillis: int)
    returns (rows': seq<FleetRow>)
    requires lastServiceDay == LastServiceDay(customer)
    requires daysSinceService == if customer.history != [] then Some(DaysSince(nowMillis, LastService(customer).value.date)) else None
    ensures rows' == rows + RowsFor(customer, customerVessels, nowMillis)
  {
    rows' := rows;
    var j := 0;
    while j < |customerVessels|
      invariant 0 <= j <= |customerVessels|
      invariant rows' == rows + RowsFor(customer, customerVessels[..j], nowMillis)
    {
      var vessel := customerVessels[j];
      var row := FleetRow(vessel.name, customer.name, vessel.engineHours,
                          GetHealthStatus(vessel.engineHours, lastServiceDay, nowMillis),
                          daysSinceService);
      assert rows + RowsFor(customer, customerVessels[..j + 1], nowMillis) == rows' + [row] by {
        RowsForSnoc(customer, customerVessels, j, nowMillis);
        RowForParts(customer, vessel, nowMillis, lastServiceDay, daysSinceService);
      }
      rows' := rows' + [row];
      j := j + 1;
    }
    assert customerVessels[..j] == customerVessels;
  }

  /**
   * `buildFleetRows`: the nested loops push one row per vessel of each
   * customer; the history sort, done in place in the source, is returned
   * as the customers with their sorted histories.
   */
  method BuildFleetRows(customers: seq<Customer>, vessels: seq<Vessel>, nowMillis: int)
    returns (rows: seq<FleetRow>, sortedCustomers: seq<Customer>)
    ensures rows == FleetRows(customers, vessels, nowMillis)
    ensures sortedCustomers == WithSortedHistories(customers)
  {
    rows := [];
    sortedCustomers := [];
    var i := 0;
    while i < |customers|
      invariant 0 <= i <= |customers|
      invariant rows == FleetRows(customers[..i], vessels, nowMillis)
      invariant sortedCustomers == WithSortedHistories(customers[..i])
    {
      var customer := customers[i];
      var customerVessels := VesselsOf(vessels, customer.id);
      var sortedHistory := SortedHistory(customer.history);
      var last: Option<ServiceEntry> := if |sortedHistory| > 0 then Some(sortedHistory[0]) else None;
      var lastServiceDay := if last.Some? then last.value.date else DefaultServiceDay;
      var daysSinceService := if last.Some? then Some(DaysSince(nowMillis, last.value.date)) else None;
      assert lastServiceDay == LastServiceDay(customer) &&
             daysSinceService == if customer.history != [] then Some(DaysSince(nowMillis, LastService(customer).value.date)) else None by {
        LastServiceIsSortedHead(customer);
      }
      rows := PushVesselRows(rows, customer, customerVessels, lastServiceDay, daysSinceService, nowMillis);
      assert rows == FleetRows(customers[..i + 1], vessels, nowMillis) by {
        FleetRowsSnoc(customers, vessels, nowMillis, i);
      }
      assert sortedCustomers + [customer.(history := sortedHistory)] == WithSortedHistories(customers[..i + 1]) by {
        WithSortedHistoriesSnoc(customers, i);
      }
      sortedCustomers := sortedCustomers + [customer.(history := sortedHistory)];
      i := i + 1;
    }
    assert customers[..i] == customers;
  }
}

=== FILE: guided_flow.dfy ===
/**
 * The guided walkthrough's step machine: five steps in a fixed order, a
 * 300 ms transition whose timer carries the target step computed when it
 * was scheduled, a reset and a scenario switch. A pending timer is an
 * entry in `pending`; all of them have the same delay, so they fire in the
 * order they were scheduled, one `Fire` each.
 */
module GuidedFlow {
  import opened Types

  /** The position of a step in the step order. */
  function StepIndex(s: GuidedStep): (i: nat)
    ensures i < |GuidedSteps| && GuidedSteps[i] == s
    ensures forall j :: 0 <= j < |GuidedSteps| && GuidedSteps[j] == s ==> j == i
  {
    match s
    case Intake => 0
    case Pipeline => 1
    case Review => 2
    case Approval => 3
    case Estimate => 4
  }

  /** The hook's state, with the targets of the timers still to fire. */
  datatype FlowState = FlowState(step: GuidedStep, scenarioIndex: int, isTransitioning: bool, pending: seq<GuidedStep>)

  const Initial: FlowState := FlowState(Intake, 0, false, [])

  /** `nextStep`: below the last step, start a transition towards the following step. */
  function AfterNext(st: FlowState): FlowState
  {
    var i := StepIndex(st.step);
    if i < |GuidedSteps| - 1 then st.(isTransitioning := true, pending := st.pending + [GuidedSteps[i + 1]])
    else st
  }

  /** `prevStep`: above the first step, start a transition towards the preceding step. */
  function AfterPrev(st: FlowState): FlowState
  {
    var i := StepIndex(st.step);
    if i > 0 then st.(isTransitioning := true, pending := st.pending + [GuidedSteps[i - 1]])
    else st
  }

  /** The oldest pending transition timer fires: its step is set and the transition ends. */
  function AfterFire(st: FlowState): FlowState
  {
    if st.pending == [] then st
    else st.(step := st.pending[0], isTransitioning := false, pending := st.pending[1..])
  }

  /** `reset`: back to the first step, not transitioning; scheduled timers are not cancelled. */
  function AfterReset(st: FlowState): FlowState
  {
    st.(step := Intake, isTransitioning := false)
  }

  /** `selectScenario(index)`: a different scenario starts over at the first step. */
  function AfterSelect(st: FlowState, index: int): FlowState
  {
    if index != st.scenarioIndex then st.(scenarioIndex := index, step := Intake) else st
  }

  /**
   * From a settled state, `nextStep` and its timer move exactly one step
   * forward, and stay at the last step; `prevStep` and its timer move
   * exactly one step back, and stay at the first.
   */
  lemma StepMovesByOne(st: FlowState)
    requires st.pending == []
    ensures StepIndex(AfterFire(AfterNext(st)).step) ==
            if StepIndex(st.step) < 4 then StepIndex(st.step) + 1 else 4
    ensures StepIndex(AfterFire(AfterPrev(st)).step) ==
            if StepIndex(st.step) > 0 then StepIndex(st.step) - 1 else 0
    ensures st.step == Estimate ==> AfterNext(st) == st
    ensures st.step == Intake ==> AfterPrev(st) == st
  {
  }

  /** Going forward and then back returns to the step one started from. */
  lemma NextThenPrevReturns(st: FlowState)
    requires st.pending == [] && st.step != Estimate
    ensures AfterFire(AfterPrev(AfterFire(AfterNext(st)))).step == st.step
    ensures !AfterFire(AfterPrev(AfterFire(AfterNext(st)))).isTransitioning
    ensures AfterFire(AfterPrev(AfterFire(AfterNext(st)))).pending == []
  {
    var i := StepIndex(st.step);
    var mid := AfterFire(AfterNext(st));
    assert mid.step == GuidedSteps[i + 1];
    assert StepIndex(mid.step) == i + 1;
  }

  /**
   * Two `nextStep` calls before the timer fires schedule the same target,
   * so the pair advances one step only: each timer carries the step it was
   * computed from.
   */
  lemma DoubleNextAdvancesOnce(st: FlowState)
    requires st.pending == [] && st.step != Estimate
    ensures AfterFire(AfterFire(AfterNext(AfterNext(st)))).step == GuidedSteps[StepIndex(st.step) + 1]
  {
  }

  /** Selecting the scenario already shown changes nothing; another one returns to the first step. */
  lemma SelectScenarioEffect(st: FlowState, index: int)
    ensures index == st.scenarioIndex ==> AfterSelect(st, index) == st
    ensures index != st.scenarioIndex ==>
      AfterSelect(st, index).step == Intake && AfterSelect(st, index).scenarioIndex == index &&
      AfterSelect(st, index).isTransitioning == st.isTransitioning
  {
  }

  /**
   * Reset does not cancel a transition already scheduled: when its timer
   * fires after the reset, the flow leaves the first step again.
   */
  lemma ResetKeepsScheduledTransition(st: FlowState)
    requires st.pending == [] && st.step != Estimate
    ensures AfterReset(AfterNext(st)).step == Intake
    ensures AfterFire(AfterReset(AfterNext(st))).step == GuidedSteps[StepIndex(st.step) + 1]
  {
  }

  /** The hook: `step`, `scenarioIndex`, `isTransitioning` and its scheduled transitions. */
  class GuidedFlowHook {
    var step: GuidedStep
    var scenarioIndex: int
    var isTransitioning: bool
    var pending: seq<GuidedStep>

    function State(): FlowState
      reads this
    {
      FlowState(step, scenarioIndex, isTransitioning, pending)
    }

    constructor()
      ensures State() == Initial
    {
      step, scenarioIndex, isTransitioning, pending := Intake, 0, false, [];
    }

    method NextStep()
      modifies this
      ensures State() == AfterNext(old(State()))
    {
      var currentIndex := StepIndex(step);
      if currentIndex < |GuidedSteps| - 1 {
        isTransitioning := true;
        pending := pending + [GuidedSteps[currentIndex + 1]];
      }
    }

    method PrevStep()
      modifies this
      ensures State() == AfterPrev(old(State()))
    {
      var currentIndex := StepIndex(step);
      if currentIndex > 0 {
        isTransitioning := true;
        pending := pending + [GuidedSteps[currentIndex - 1]];
      }
    }

    /** The oldest scheduled transition timer fires. */
    method Fire()
      modifies this
      ensures State() == AfterFire(old(State()))
    {
      if pending != [] {
        step := pending[0];
        isTransitioning := false;
        pending := pending[1..];
      }
    }

    method Reset()
      modifies this
      ensures State() == AfterReset(old(State()))
    {
      step := Intake;
      isTransitioning := false;
    }

    method SelectScenario(index: int)
      modifies this
      ensures State() == AfterSelect(old(State()), index)
    {
      if index != scenarioIndex {
        scenarioIndex := index;
        step := Intake;
      }
    }
  }
}

=== FILE: line_item_table.dfy ===
/**
 * The editable line-item table: the category choices it offers and the
 * calls its inputs and buttons make on the editor, with the quantity and
 * unit-price inputs normalised before the update is sent.
 */
module LineItemTable {
  import opened Common
  import opened Types
  import opened WorkOrderEditor
  import opened NumberText

  /** The options of the category selector, in display order. */
  const CategoryChoices: seq<Category> := [Labor, Parts, Materials, Environmental]

  /** The selector offers every category, each once. */
  lemma CategoryChoicesAreAllCategories()
    ensures forall c: Category :: c in CategoryChoices
    ensures forall i, j :: 0 <= i < j < |CategoryChoices| ==> CategoryChoices[i] != CategoryChoices[j]
  {
    forall c: Category
      ensures c in CategoryChoices
    {
      match c
      case Labor => assert CategoryChoices[0] == c;
      case Parts => assert CategoryChoices[1] == c;
      case Materials => assert CategoryChoices[2] == c;
      case Environmental => assert CategoryChoices[3] == c;
    }
  }

  /** A call the table makes on the editor hook. */
  datatype EditorCall = UpdateCall(id: string, update: ItemUpdate) | RemoveCall(id: string) | AddCall

  /** Applies a call to a working list, as the hook does; `newId` names an appended item. */
  function Dispatch(items: seq<LineItem>, call: EditorCall, newId: string): seq<LineItem>
  {
    match call
    case UpdateCall(id, u) => UpdateItems(items, id, u)
    case RemoveCall(id) => RemoveItems(items, id)
    case AddCall => items + [NewItem(newId)]
  }

  // ---------------------------------------------------------------------
  // Input handlers

  /** `Math.max(1, parseInt(value) || 1)`: `None` is `NaN`, which `||` replaces like 0. */
  function NormalizeQuantity(parsed: Option<int>): (q: int)
    ensures q >= 1
    ensures parsed.Some? && parsed.value >= 1 ==> q == parsed.value
    ensures parsed.None? || parsed.value < 1 ==> q == 1
  {
    var v := if parsed.None? || parsed.value == 0 then 1 else parsed.value;
    if v < 1 then 1 else v
  }

  /**
   * `parseFloat(value) || 0`, given the parsed price in cents (`None` for
   * `NaN`): no number and zero give 0, anything else, negatives included,
   * passes through.
   */
  function NormalizeUnitPrice(parsed: Option<int>): (p: int)
    ensures parsed.None? ==> p == 0
    ensures parsed.Some? ==> p == parsed.value
  {
    if parsed.None? || parsed.value == 0 then 0 else parsed.value
  }

  /** The description input: an update carrying only the new description, for its own row. */
  function OnDescriptionChange(item: LineItem, text: string): (c: EditorCall)
    ensures c.UpdateCall? && c.id == item.id
    ensures c.update.quantity.None? && c.update.unitPrice.None? && c.update.total.None?
  {
    UpdateCall(item.id, NoChange.(description := Some(text)))
  }

  /** The category selector: an update carrying only the new category, for its own row. */
  function OnCategoryChange(item: LineItem, category: Category): (c: EditorCall)
    ensures c.UpdateCall? && c.id == item.id
    ensures c.update.quantity.None? && c.update.unitPrice.None? && c.update.total.None?
  {
    UpdateCall(item.id, NoChange.(category := Some(category)))
  }

  /**
   * The quantity input: an update carrying only the normalised parse of the
   * text, always an integer of at least 1, for its own row.
   */
  function OnQuantityChange(item: LineItem, text: string): (c: EditorCall)
    ensures c.UpdateCall? && c.id == item.id
    ensures c.update.quantity == Some(NormalizeQuantity(ParseInt(text))) && c.update.quantity.value >= 1
    ensures c.update.unitPrice.None? && c.update.total.None?
  {
    UpdateCall(item.id, NoChange.(quantity := Some(NormalizeQuantity(ParseInt(text)))))
  }

  /** The unit-price input: an update carrying only the normalised price, for its own row. */
  function OnUnitPriceChange(item: LineItem, parsedCents: Option<int>): (c: EditorCall)
    ensures c.UpdateCall? && c.id == item.id
    ensures c.update.unitPrice == Some(NormalizeUnitPrice(parsedCents)) && c.update.quantity.None?
  {
    UpdateCall(item.id, NoChange.(unitPrice := Some(NormalizeUnitPrice(parsedCents))))
  }

  /** The delete button removes its own row's id. */
  function OnRemove(item: LineItem): (c: EditorCall)
    ensures c.RemoveCall? && c.id == item.id
  {
    RemoveCall(item.id)
  }

  /** Text edits of the description or category leave the row's total as it was. */
  lemma TextEditsKeepTotal(items: seq<LineItem>, k: nat, text: string, category: Category, newId: string)
    requires k < |items|
    ensures |Dispatch(items, OnDescriptionChange(items[k], text), newId)| == |items|
    ensures Dispatch(items, OnDescriptionChange(items[k], text), newId)[k].total == items[k].total
    ensures Dispatch(items, OnDescriptionChange(items[k], text), newId)[k].description == text
    ensures |Dispatch(items, OnCategoryChange(items[k], category), newId)| == |items|
    ensures Dispatch(items, OnCategoryChange(items[k], category), newId)[k].total == items[k].total
    ensures Dispatch(items, OnCategoryChange(items[k], category), newId)[k].category == category
  {
  }

  /** A quantity edit reprices its row with the row's own unit price. */
  lemma QuantityEditReprices(items: seq<LineItem>, k: nat, text: string, newId: string)
    requires k < |items|
    ensures |Dispatch(items, OnQuantityChange(items[k], text), newId)| == |items|
    ensures Dispatch(items, OnQuantityChange(items[k], text), newId)[k].quantity == NormalizeQuantity(ParseInt(text)) >= 1
    ensures Dispatch(items, OnQuantityChange(items[k], text), newId)[k].total ==
            NormalizeQuantity(ParseInt(text)) * items[k].unitPrice
  {
  }

  /** Rows whose id differs from the edited row's are untouched by its calls. */
  lemma CallsTouchOnlyTheirRow(items: seq<LineItem>, k: nat, j: nat, text: string, newId: string)
    requires k < |items| && j < |items| && items[j].id != items[k].id
    ensures Dispatch(items, OnQuantityChange(items[k], text), newId)[j] == items[j]
    ensures Dispatch(items, OnDescriptionChange(items[k], text), newId)[j] == items[j]
    ensures items[j] in Dispatch(items, OnRemove(items[k]), newId)
  {
  }
}

=== FILE: number_text.dfy ===
/**
 * The number readers of the form inputs: `parseInt` in base 10, as the
 * quantity input uses it, and `Number`, as the revenue field of the
 * add-opportunity form uses it, over decimal texts.
 */
module NumberText {
  import opened Common

  predicate IsDigit(c: char)
  {
    '0' <= c <= '9'
  }

  predicate AllDigits(s: string)
  {
    forall i :: 0 <= i < |s| ==> IsDigit(s[i])
  }

  /** The longest run of decimal digits at the start of `s`. */
  function LeadingDigits(s: string): (r: string)
    ensures |r| <= |s| && r == s[..|r|]
    ensures AllDigits(r)
    ensures |r| < |s| ==> !IsDigit(s[|r|])
  {
    if s == [] || !IsDigit(s[0]) then [] else [s[0]] + LeadingDigits(s[1..])
  }

  /** The value of a string of decimal digits. */
  function DigitsValue(ds: string): nat
    requires AllDigits(ds)
  {
    if ds == [] then 0
    else
      assert IsDigit(ds[|ds| - 1]);
      10 * DigitsValue(ds[..|ds| - 1]) + (ds[|ds| - 1] as int - '0' as int)
  }

  /** Leading white space, which `parseInt` skips. */
  function TrimStart(s: string): (r: string)
    ensures |r| <= |s| && r == s[|s| - |r|..]
  {
    if s != [] && IsSpace(s[0]) then TrimStart(s[1..])
    else s
  }

  predicate IsSpace(c: char)
  {
    c == ' ' || c == '\t' || c == '\n' || c == '\r'
  }

  /** A text that starts with a digit or a minus sign has no white space to skip. */
  lemma TrimStartOfNonSpace(s: string)
    requires s != [] && (IsDigit(s[0]) || s[0] == '-')
    ensures TrimStart(s) == s
  {
  }

  /**
   * `parseInt(text)` in base 10: an optional sign followed by the leading
   * digits; `None` stands for `NaN`, when no digit follows the sign.
   */
  function ParseInt(text: string): (r: Option<int>)
    ensures r.None? <==> LeadingDigits(Unsigned(TrimStart(text))) == []
  {
    var t := TrimStart(text);
    var ds := LeadingDigits(Unsigned(t));
    var magnitude: int := if ds == [] then 0 else DigitsValue(ds);
    if ds == [] then None
    else if |t| > 0 && t[0] == '-' then Some(-magnitude)
    else Some(magnitude)
  }

  /** The text after a leading sign. */
  function Unsigned(t: string): (r: string)
    ensures |r| <= |t|
  {
    if |t| > 0 && (t[0] == '-' || t[0] == '+') then t[1..] else t
  }

  /** The digits of a rendered number are all the leading digits of the text. */
  lemma {:induction false} LeadingDigitsOfDigits(ds: string, rest: string)
    requires AllDigits(ds)
    requires rest == [] || !IsDigit(rest[0])
    ensures LeadingDigits(ds + rest) == ds
  {
    if ds != [] {
      assert (ds + rest)[1..] == ds[1..] + rest;
      LeadingDigitsOfDigits(ds[1..], rest);
    }
  }

  /** Reading back a rendered number gives the number. */
  lemma {:induction false} DigitsValueOfNatToString(n: nat)
    ensures DigitsValue(NatToString(n)) == n
  {
    var s := NatToString(n);
    if n >= 10 {
      assert s[..|s| - 1] == NatToString(n / 10);
      DigitsValueOfNatToString(n / 10);
    }
  }

  /** `parseInt` reads the sign of an untrimmed text and the value of its leading digits. */
  lemma ParseIntOfSigned(t: string, ds: string)
    requires ds != [] && AllDigits(ds)
    requires TrimStart(t) == t && LeadingDigits(Unsigned(t)) == ds
    ensures t[0] == '-' ==> ParseInt(t) == Some(-(DigitsValue(ds) as int))
    ensures t[0] != '-' ==> ParseInt(t) == Some(DigitsValue(ds))
  {
  }

  /** `parseInt` inverts the decimal rendering of a non-negative integer. */
  lemma ParseIntRoundTrip(n: nat)
    ensures ParseInt(NatToString(n)) == Some(n)
  {
    ParseIntOfDigits(NatToString(n));
    DigitsValueOfNatToString(n);
  }

  /** A text made only of digits parses to their value. */
  lemma ParseIntOfDigits(ds: string)
    requires ds != [] && AllDigits(ds)
    ensures ParseInt(ds) == Some(DigitsValue(ds))
  {
    assert IsDigit(ds[0]);
    TrimStartOfNonSpace(ds);
    assert Unsigned(ds) == ds;
    LeadingDigitsOfDigits(ds, []);
    assert ds + [] == ds;
    ParseIntOfSigned(ds, ds);
  }

  /** `parseInt` inverts the decimal rendering of a negative integer. */
  lemma ParseIntRoundTripNegative(n: nat)
    ensures ParseInt("-" + NatToString(n)) == Some(-(n as int))
  {
    var s := NatToString(n);
    assert s != [] && AllDigits(s);
    DigitsValueOfNatToString(n);
    ParseIntOfNegatedDigits(s, n);
  }

  /** A minus sign followed only by digits parses to minus their value. */
  lemma ParseIntOfNegatedDigits(ds: string, n: nat)
    requires ds != [] && AllDigits(ds) && DigitsValue(ds) == n
    ensures ParseInt("-" + ds) == Some(-(n as int))
  {
    var t := "-" + ds;
    assert t[0] == '-';
    TrimStartOfNonSpace(t);
    assert Unsigned(t) == ds by {
      assert t[1..] == ds;
    }
    LeadingDigitsOfDigits(ds, []);
    assert ds + [] == ds;
    ParseIntOfSigned(t, ds);
  }

  // ---------------------------------------------------------------------
  // Number() on a decimal text

  /** Trailing white space, which `Number` skips like the leading one. */
  function TrimEnd(s: string): (r: string)
    ensures |r| <= |s| && r == s[..|r|]
  {
    if s != [] && IsSpace(s[|s| - 1]) then TrimEnd(s[..|s| - 1]) else s
  }

  /** A text that ends with a digit or a point has no white space to skip at its end. */
  lemma TrimEndOfNonSpace(s: string)
    requires s != [] && (IsDigit(s[|s| - 1]) || s[|s| - 1] == '.')
    ensures TrimEnd(s) == s
  {
  }

  function Pow10(n: nat): (p: nat)
    ensures p >= 1
  {
    if n == 0 then 1 else 10 * Pow10(n - 1)
  }

  /** The value of an integer part and a fractional part of decimal digits. */
  function DecimalValue(ip: string, fp: string): (v: real)
    requires AllDigits(ip) && AllDigits(fp)
    ensures v >= DigitsValue(ip) as real
  {
    DigitsValue(ip) as real + DigitsValue(fp) as real / Pow10(|fp|) as real
  }

  /**
   * An unsigned decimal: digits, optionally followed by a point and more
   * digits, with at least one digit in all; `None` is `NaN`.
   */
  function UnsignedDecimal(u: string): (r: Option<real>)
    ensures r.Some? ==> r.value >= 0.0
    ensures u == [] ==> r.None?
  {
    var ip := LeadingDigits(u);
    var rest := u[|ip|..];
    if rest == [] then
      if ip == [] then None else Some(DigitsValue(ip) as real)
    else if rest[0] == '.' && AllDigits(rest[1..]) && (ip != [] || |rest| > 1) then
      Some(DecimalValue(ip, rest[1..]))
    else None
  }

  /**
   * `Number(text)` for decimal texts: surrounding white space is skipped,
   * a blank text is 0, a sign may lead, and anything else that is not a
   * decimal is `NaN` (`None`).
   */
  function NumberValue(text: string): (r: Option<real>)
    ensures TrimEnd(TrimStart(text)) == [] ==> r == Some(0.0)
  {
    var t := TrimEnd(TrimStart(text));
    if t == [] then Some(0.0)
    else if t[0] == '-' then
      match UnsignedDecimal(t[1..])
      case None => None
      case Some(v) => Some(-v)
    else if t[0] == '+' then UnsignedDecimal(t[1..])
    else UnsignedDecimal(t)
  }

  /** `Number` reads a whole number written in decimal back as that number. */
  lemma NumberOfNatToString(n: nat)
    ensures NumberValue(NatToString(n)) == Some(n as real)
  {
    NumberOfWholeDigits(NatToString(n));
    DigitsValueOfNatToString(n);
  }

  /** A text that starts with a digit and has nothing to trim is read as an unsigned decimal. */
  lemma NumberOfUnsigned(t: string)
    requires t != [] && IsDigit(t[0]) && TrimEnd(t) == t
    ensures NumberValue(t) == UnsignedDecimal(t)
  {
    TrimStartOfNonSpace(t);
  }

  /** `Number` reads a text of digits as their value. */
  lemma NumberOfWholeDigits(ip: string)
    requires ip != [] && AllDigits(ip)
    ensures NumberValue(ip) == Some(DigitsValue(ip) as real)
  {
    assert IsDigit(ip[0]) && IsDigit(ip[|ip| - 1]);
    TrimEndOfNonSpace(ip);
    NumberOfUnsigned(ip);
    LeadingDigitsOfDigits(ip, []);
    assert ip + [] == ip;
  }

  /**
   * `Number` reads digits, a point and digits as the integer part plus the
   * fraction over the matching power of ten.
   */
  lemma NumberOfDecimalDigits(ip: string, fp: string)
    requires ip != [] && AllDigits(ip) && AllDigits(fp)
    ensures NumberValue(ip + "." + fp) ==
            Some(DecimalValue(ip, fp))
  {
    var t := ip + ("." + fp);
    assert ip + "." + fp == t;
    assert IsDigit(t[0]);
    assert t[|t| - 1] == if fp == [] then '.' else fp[|fp| - 1];
    TrimEndOfNonSpace(t);
    NumberOfUnsigned(t);
    UnsignedDecimalSplit(ip, fp);
  }

  lemma UnsignedDecimalSplit(ip: string, fp: string)
    requires ip != [] && AllDigits(ip) && AllDigits(fp)
    ensures UnsignedDecimal(ip + ("." + fp)) ==
            Some(DecimalValue(ip, fp))
  {
    var t := ip + ("." + fp);
    LeadingDigitsOfDigits(ip, "." + fp);
    var rest := t[|LeadingDigits(t)|..];
    assert rest == "." + fp;
    assert rest != [] && rest[0] == '.';
    assert rest[1..] == fp;
  }

  /** A few texts and what `Number` makes of them. */
  lemma NumberExamples()
    ensures NumberValue("") == Some(0.0)
    ensures NumberValue("abc") == None
    ensures NumberValue("1,200") == None
  {
    NumberOfLetters();
    NumberOfGroupedDigits();
  }

  lemma NumberOfLetters()
    ensures NumberValue("abc") == None
  {
    var t := "abc";
    assert TrimStart(t) == t by {
      assert !IsSpace(t[0]);
    }
    assert TrimEnd(t) == t by {
      assert !IsSpace(t[2]);
    }
    assert LeadingDigits(t) == [] by {
      assert !IsDigit(t[0]);
    }
  }

  lemma NumberOfGroupedDigits()
    ensures NumberValue("1,200") == None
  {
    var t := "1,200";
    TrimStartOfNonSpace(t);
    TrimEndOfNonSpace(t);
    assert LeadingDigits(t) == "1" by {
      assert IsDigit(t[0]) && !IsDigit(t[1]);
      assert t[1..] == ",200";
      assert LeadingDigits(t[1..]) == [];
    }
    assert t[1..][0] == ',';
  }
}

=== FILE: outreach.dfy ===
/**
 * The proactive-outreach list engine: the outreach opportunities, the
 * four filters over them, the visible list sorted by priority then status,
 * the per-status funnel, and the state object whose operations send,
 * dismiss, add and edit opportunities and change one filter at a time.
 */
module Outreach {
  import opened Common
  import opened Sorting

  datatype OutreachStatus = Draft | Sent | Opened | Booked | Dismissed

  datatype Priority = High | Medium | Low

  datatype Channel = Email | WhatsApp | Phone

  datatype TriggerType = EngineHours | Seasonal | TimeBased | PartsWear

  /** One outreach opportunity; `createdDate` is the ISO day text the creator stamped. */
  datatype Outreach = Outreach(
    id: string,
    customerId: string,
    vesselId: string,
    title: string,
    message: string,
    trigger: string,
    triggerType: TriggerType,
    priority: Priority,
    status: OutreachStatus,
    estimatedRevenue: real,
    channel: Channel,
    createdDate: string,
    aiConfidence: real,
    aiReasoning: string)

  /** The status filter values "all", "to-review", "sent", "to-reply" and "dismissed". */
  datatype StatusFilter = AllStatuses | ToReview | SentOnly | ToReply | DismissedOnly

  /** The revenue filter values "all", "0-500", "500-1500" and "1500+". */
  datatype RevenueRange = AnyRevenue | UpTo500 | From500To1500 | Above1500

  /** The filter record; `None` in the channel and priority slots is "all". */
  datatype Filters = Filters(
    status: StatusFilter,
    channel: Option<Channel>,
    revenueRange: RevenueRange,
    priority: Option<Priority>)

  const DefaultFilters: Filters := Filters(AllStatuses, None, AnyRevenue, None)

  // ---------------------------------------------------------------------
  // Filter predicates

  /**
   * The status filter, read the other way round: the filters under which
   * each status is shown.
   */
  predicate MatchesStatusFilter(status: OutreachStatus, filter: StatusFilter)
    ensures status == Draft ==> (MatchesStatusFilter(status, filter) <==> filter == AllStatuses || filter == ToReview)
    ensures status == Sent ==> (MatchesStatusFilter(status, filter) <==> filter != ToReview && filter != DismissedOnly)
    ensures status == Opened ==> (MatchesStatusFilter(status, filter) <==> filter == AllStatuses || filter == ToReply)
    ensures status == Booked ==> (MatchesStatusFilter(status, filter) <==> filter == AllStatuses)
    ensures status == Dismissed ==> (MatchesStatusFilter(status, filter) <==> filter == DismissedOnly)
  {
    match filter
    case AllStatuses => status != Dismissed
    case ToReview => status == Draft
    case SentOnly => status == Sent
    case ToReply => status == Sent || status == Opened
    case DismissedOnly => status == Dismissed
  }

  /**
   * How the status filters relate: "all" shows exactly what "dismissed"
   * hides, "to-reply" is "sent" plus opened, and "to-review" is the drafts;
   * a status shown by "all" is shown by "dismissed" never.
   */
  lemma StatusFiltersRelate(s: OutreachStatus)
    ensures MatchesStatusFilter(s, AllStatuses) <==> !MatchesStatusFilter(s, DismissedOnly)
    ensures MatchesStatusFilter(s, ToReply) <==> MatchesStatusFilter(s, SentOnly) || s == Opened
    ensures MatchesStatusFilter(s, ToReview) <==> s == Draft
    ensures MatchesStatusFilter(s, ToReview) || MatchesStatusFilter(s, SentOnly) ==> MatchesStatusFilter(s, AllStatuses)
    ensures !(MatchesStatusFilter(s, ToReview) && MatchesStatusFilter(s, ToReply))
  {
  }

  /** The bounded range a revenue falls in; a negative revenue falls in none. */
  function RevenueBand(revenue: real): Option<RevenueRange>
  {
    if revenue < 0.0 then None
    else if revenue <= 500.0 then Some(UpTo500)
    else if revenue <= 1500.0 then Some(From500To1500)
    else Some(Above1500)
  }

  /** "all" takes every revenue; a bounded range takes exactly the revenues of its band. */
  predicate MatchesRevenueRange(revenue: real, range: RevenueRange)
    ensures MatchesRevenueRange(revenue, range) <==> range == AnyRevenue || RevenueBand(revenue) == Some(range)
  {
    match range
    case AnyRevenue => true
    case UpTo500 => 0.0 <= revenue <= 500.0
    case From500To1500 => 500.0 < revenue <= 1500.0
    case Above1500 => revenue > 1500.0
  }

  /**
   * The three bounded ranges split the non-negative revenues: each one lies
   * in exactly one of them, 500 in the first and 1500 in the second; a
   * negative revenue lies in none.
   */
  lemma RevenueRangesPartition(revenue: real)
    ensures revenue >= 0.0 ==>
      (if MatchesRevenueRange(revenue, UpTo500) then 1 else 0) +
      (if MatchesRevenueRange(revenue, From500To1500) then 1 else 0) +
      (if MatchesRevenueRange(revenue, Above1500) then 1 else 0) == 1
    ensures revenue < 0.0 ==>
      !MatchesRevenueRange(revenue, UpTo500) && !MatchesRevenueRange(revenue, From500To1500) &&
      !MatchesRevenueRange(revenue, Above1500)
    ensures MatchesRevenueRange(500.0, UpTo500) && MatchesRevenueRange(1500.0, From500To1500)
  {
  }

  /** An item passes the filters when it passes each of the four. */
  predicate Passes(f: Filters, o: Outreach)
    ensures Passes(f, o) ==> MatchesStatusFilter(o.status, f.status)
    ensures f == DefaultFilters ==> (Passes(f, o) <==> o.status != Dismissed)
  {
    MatchesStatusFilter(o.status, f.status) &&
    (f.channel.None? || o.channel == f.channel.value) &&
    MatchesRevenueRange(o.estimatedRevenue, f.revenueRange) &&
    (f.priority.None? || o.priority == f.priority.value)
  }

  /** The items passing the filters, in list order. */
  function Passing(items: seq<Outreach>, f: Filters): (r: seq<Outreach>)
    ensures |r| <= |items|
    ensures forall i :: 0 <= i < |r| ==> r[i] in items && Passes(f, r[i])
    ensures forall i :: 0 <= i < |items| && Passes(f, items[i]) ==> items[i] in r
  {
    if items == [] then []
    else if Passes(f, items[0]) then [items[0]] + Passing(items[1..], f)
    else Passing(items[1..], f)
  }

  // ---------------------------------------------------------------------
  // The visible list

  function PriorityRank(p: Priority): (n: nat)
    ensures n < 3
  {
    match p
    case High => 0
    case Medium => 1
    case Low => 2
  }

  function StatusRank(s: OutreachStatus): (n: nat)
    ensures n < 5
  {
    match s
    case Draft => 0
    case Sent => 1
    case Opened => 2
    case Booked => 3
    case Dismissed => 4
  }

  /**
   * The comparator orders by priority and breaks ties by status; as a
   * single key that is five times the priority rank plus the status rank.
   */
  function SortKey(o: Outreach): (k: int)
    ensures 0 <= k < 15
    ensures k / 5 == PriorityRank(o.priority) && k % 5 == StatusRank(o.status)
  {
    5 * PriorityRank(o.priority) + StatusRank(o.status)
  }

  /** The single key orders exactly as the comparator's two keys do, lexicographically. */
  lemma SortKeyIsLexicographic(a: Outreach, b: Outreach)
    ensures SortKey(a) <= SortKey(b) <==>
      PriorityRank(a.priority) < PriorityRank(b.priority) ||
      (a.priority == b.priority && StatusRank(a.status) <= StatusRank(b.status))
  {
  }

  /** `items`: the passing items sorted by priority, then status. */
  function VisibleItems(all: seq<Outreach>, f: Filters): (r: seq<Outreach>)
    ensures multiset(r) == multiset(Passing(all, f))
    ensures SortedByKey(r, SortKey)
  {
    SortByKey(Passing(all, f), SortKey)
  }

  /**
   * The visible list holds exactly the items that pass the filters, each as
   * often as in the full list's filtered part, with higher priorities first
   * and, within one priority, earlier statuses first.
   */
  lemma VisibleItemsOrder(all: seq<Outreach>, f: Filters)
    ensures forall o :: o in VisibleItems(all, f) <==> o in all && Passes(f, o)
    ensures forall i, j :: 0 <= i < j < |VisibleItems(all, f)| ==>
      var a, b := VisibleItems(all, f)[i], VisibleItems(all, f)[j];
      PriorityRank(a.priority) < PriorityRank(b.priority) ||
      (a.priority == b.priority && StatusRank(a.status) <= StatusRank(b.status))
  {
    var r := VisibleItems(all, f);
    forall o
      ensures o in r <==> o in all && Passes(f, o)
    {
      calc {
        o in r;
        o in multiset(r);
        o in multiset(Passing(all, f));
        o in Passing(all, f);
      }
      if o in all && Passes(f, o) {
        var k :| 0 <= k < |all| && all[k] == o;
      }
      if o in Passing(all, f) {
        var k :| 0 <= k < |Passing(all, f)| && Passing(all, f)[k] == o;
      }
    }
    forall i, j | 0 <= i < j < |r|
      ensures PriorityRank(r[i].priority) < PriorityRank(r[j].priority) ||
              (r[i].priority == r[j].priority && StatusRank(r[i].status) <= StatusRank(r[j].status))
    {
      SortKeyIsLexicographic(r[i], r[j]);
    }
  }

  // ---------------------------------------------------------------------
  // The funnel

  /** The items with status `s`, in list order. */
  function WithStatus(items: seq<Outreach>, s: OutreachStatus): (r: seq<Outreach>)
    ensures |r| <= |items|
    ensures forall i :: 0 <= i < |r| ==> r[i].status == s && r[i] in items
    ensures forall i :: 0 <= i < |items| && items[i].status == s ==> items[i] in r
  {
    if items == [] then []
    else if items[0].status == s then [items[0]] + WithStatus(items[1..], s)
    else WithStatus(items[1..], s)
  }

  /** The sum of the estimated revenues of `items`. */
  function Revenue(items: seq<Outreach>): real
  {
    if items == [] then 0.0 else items[0].estimatedRevenue + Revenue(items[1..])
  }

  /** Items of one status, as counted per status across the five statuses. */
  function StatusCount(items: seq<Outreach>, s: OutreachStatus): (n: nat)
    ensures n <= |items|
  {
    |WithStatus(items, s)|
  }

  /** The statuses the funnel reports, in display order. */
  const FunnelStatuses: seq<OutreachStatus> := [Draft, Sent, Opened, Booked]

  /** The monthly-average counts the funnel compares against. */
  function MonthlyAverageCount(s: OutreachStatus): (n: int)
    ensures 1 <= n <= 3
  {
    match s
    case Draft => 3
    case Sent => 2
    case Opened => 1
    case Booked => 1
    case Dismissed => 1
  }

  datatype FunnelMetric = FunnelMetric(status: OutreachStatus, count: nat, revenue: real, vsMonthlyAvg: int)

  function Metric(all: seq<Outreach>, s: OutreachStatus): FunnelMetric
  {
    var selected := WithStatus(all, s);
    FunnelMetric(s, |selected|, Revenue(selected), |selected| - MonthlyAverageCount(s))
  }

  /** One entry per funnel status, in order, each summarising the items of that status. */
  function FunnelMetrics(all: seq<Outreach>): (r: seq<FunnelMetric>)
    ensures |r| == |FunnelStatuses| == 4
    ensures forall i :: 0 <= i < 4 ==>
      r[i].status == FunnelStatuses[i] &&
      r[i].count == StatusCount(all, FunnelStatuses[i]) &&
      r[i].revenue == Revenue(WithStatus(all, FunnelStatuses[i])) &&
      r[i].vsMonthlyAvg == r[i].count - MonthlyAverageCount(FunnelStatuses[i])
  {
    seq(4, i requires 0 <= i < 4 => Metric(all, FunnelStatuses[i]))
  }

  /** The five status counts account for every item once. */
  lemma {:induction false} StatusCountsPartition(all: seq<Outreach>)
    ensures StatusCount(all, Draft) + StatusCount(all, Sent) + StatusCount(all, Opened) +
            StatusCount(all, Booked) + StatusCount(all, Dismissed) == |all|
  {
    if all != [] {
      StatusCountsPartition(all[1..]);
      assert all == [all[0]] + all[1..];
      WithStatusSplit(all[0], all[1..], Draft);
      WithStatusSplit(all[0], all[1..], Sent);
      WithStatusSplit(all[0], all[1..], Opened);
      WithStatusSplit(all[0], all[1..], Booked);
      WithStatusSplit(all[0], all[1..], Dismissed);
    }
  }

  /** The five status revenues add up to the revenue of the whole list. */
  lemma {:induction false} StatusRevenuesPartition(all: seq<Outreach>)
    ensures Revenue(WithStatus(all, Draft)) + Revenue(WithStatus(all, Sent)) +
            Revenue(WithStatus(all, Opened)) + Revenue(WithStatus(all, Booked)) +
            Revenue(WithStatus(all, Dismissed)) == Revenue(all)
  {
    if all != [] {
      StatusRevenuesPartition(all[1..]);
      assert all == [all[0]] + all[1..];
      WithStatusSplit(all[0], all[1..], Draft);
      WithStatusSplit(all[0], all[1..], Sent);
      WithStatusSplit(all[0], all[1..], Opened);
      WithStatusSplit(all[0], all[1..], Booked);
      WithStatusSplit(all[0], all[1..], Dismissed);
    }
  }

  /** The first item counts, with its revenue, towards its own status only. */
  lemma WithStatusSplit(o: Outreach, rest: seq<Outreach>, s: OutreachStatus)
    ensures |WithStatus([o] + rest, s)| == |WithStatus(rest, s)| + (if o.status == s then 1 else 0)
    ensures Revenue(WithStatus([o] + rest, s)) ==
            Revenue(WithStatus(rest, s)) + (if o.status == s then o.estimatedRevenue else 0.0)
  {
    assert ([o] + rest)[1..] == rest;
  }

  // ---------------------------------------------------------------------
  // Id-addressed updates

  /** `prev.map(item => item.id === id ? { ...item, status } : item)`. */
  function SetStatus(items: seq<Outreach>, id: string, s: OutreachStatus): (r: seq<Outreach>)
    ensures |r| == |items|
    ensures forall i :: 0 <= i < |items| ==>
      r[i] == if items[i].id == id then items[i].(status := s) else items[i]
  {
    if items == [] then [] else
      [if items[0].id == id then items[0].(status := s) else items[0]] + SetStatus(items[1..], id, s)
  }

  /** `prev.map(item => item.id === id ? { ...item, message } : item)`. */
  function SetMessage(items: seq<Outreach>, id: string, message: string): (r: seq<Outreach>)
    ensures |r| == |items|
    ensures forall i :: 0 <= i < |items| ==>
      r[i] == if items[i].id == id then items[i].(message := message) else items[i]
  {
    if items == [] then [] else
      [if items[0].id == id then items[0].(message := message) else items[0]] + SetMessage(items[1..], id, message)
  }

  /**
   * Sending or dismissing overrides whatever status the item had: applying
   * a second status update to the same id leaves only the second one's
   * effect, and an update to an id that no item carries changes nothing.
   */
  lemma SetStatusOverrides(items: seq<Outreach>, id: string, s: OutreachStatus, t: OutreachStatus)
    ensures SetStatus(SetStatus(items, id, s), id, t) == SetStatus(items, id, t)
    ensures (forall i :: 0 <= i < |items| ==> items[i].id != id) ==> SetStatus(items, id, s) == items
  {
  }

  /**
   * A dismissed item leaves the default view, and a sent item shows under
   * both "sent" and "to-reply", whatever its earlier status.
   */
  lemma StatusUpdateMovesBetweenViews(items: seq<Outreach>, id: string, f: Filters, k: nat)
    requires k < |items| && items[k].id == id
    ensures !Passes(f.(status := AllStatuses), SetStatus(items, id, Dismissed)[k])
    ensures MatchesStatusFilter(SetStatus(items, id, Sent)[k].status, SentOnly)
    ensures MatchesStatusFilter(SetStatus(items, id, Sent)[k].status, ToReply)
  {
  }

  /** A message edit leaves every status, and so the funnel counts and revenues, as they were. */
  lemma {:induction false} SetMessageKeepsStatuses(items: seq<Outreach>, id: string, message: string, s: OutreachStatus)
    ensures StatusCount(SetMessage(items, id, message), s) == StatusCount(items, s)
    ensures Revenue(WithStatus(SetMessage(items, id, message), s)) == Revenue(WithStatus(items, s))
  {
    if items != [] {
      var r := SetMessage(items, id, message);
      SetMessageKeepsStatuses(items[1..], id, message, s);
      assert r == [r[0]] + SetMessage(items[1..], id, message);
      WithStatusSplit(r[0], SetMessage(items[1..], id, message), s);
      assert items == [items[0]] + items[1..];
      WithStatusSplit(items[0], items[1..], s);
    }
  }

  /** Prepending an item adds it to its own status's count and nowhere else. */
  lemma PrependCounts(items: seq<Outreach>, o: Outreach, s: OutreachStatus)
    ensures StatusCount([o] + items, s) == StatusCount(items, s) + (if o.status == s then 1 else 0)
  {
    WithStatusSplit(o, items, s);
  }

  /** One filter key and its new value. */
  datatype FilterChange =
    | StatusChange(status: StatusFilter)
    | ChannelChange(channel: Option<Channel>)
    | RevenueChange(revenueRange: RevenueRange)
    | PriorityChange(priority: Option<Priority>)

  /** `{ ...prev, [key]: value }`: sets one key and keeps the other three. */
  function ApplyFilterChange(f: Filters, c: FilterChange): (r: Filters)
    ensures c.StatusChange? ==> r.status == c.status
    ensures c.ChannelChange? ==> r.channel == c.channel
    ensures c.RevenueChange? ==> r.revenueRange == c.revenueRange
    ensures c.PriorityChange? ==> r.priority == c.priority
    ensures !c.StatusChange? ==> r.status == f.status
    ensures !c.ChannelChange? ==> r.channel == f.channel
    ensures !c.RevenueChange? ==> r.revenueRange == f.revenueRange
    ensures !c.PriorityChange? ==> r.priority == f.priority
  {
    match c
    case StatusChange(s) => f.(status := s)
    case ChannelChange(ch) => f.(channel := ch)
    case RevenueChange(rr) => f.(revenueRange := rr)
    case PriorityChange(p) => f.(priority := p)
  }

  /** Changes of two different keys commute, and a second change of the same key wins. */
  lemma FilterChangesCommute(f: Filters, c: FilterChange, d: FilterChange)
    ensures KeyOf(c) != KeyOf(d) ==>
      ApplyFilterChange(ApplyFilterChange(f, c), d) == ApplyFilterChange(ApplyFilterChange(f, d), c)
    ensures KeyOf(c) == KeyOf(d) ==>
      ApplyFilterChange(ApplyFilterChange(f, c), d) == ApplyFilterChange(f, d)
  {
  }

  /** Which of the four keys a change sets. */
  function KeyOf(c: FilterChange): nat
  {
    match c
    case StatusChange(_) => 0
    case ChannelChange(_) => 1
    case RevenueChange(_) => 2
    case PriorityChange(_) => 3
  }

  // ---------------------------------------------------------------------
  // The hook's state

  /** The `allItems` and `filters` state of the outreach hook. */
  class OutreachBoard {
    var allItems: seq<Outreach>
    var filters: Filters

    constructor(initial: seq<Outreach>)
      ensures allItems == initial && filters == DefaultFilters
    {
      allItems := initial;
      filters := DefaultFilters;
    }

    /** The visible, sorted list for the current filters. */
    function Items(): (r: seq<Outreach>)
      reads this
      ensures forall o :: o in r <==> o in allItems && Passes(filters, o)
    {
      VisibleItemsOrder(allItems, filters);
      VisibleItems(allItems, filters)
    }

    /** `funnelMetrics`: over every item, the list filters aside. */
    function Funnel(): (r: seq<FunnelMetric>)
      reads this
      ensures |r| == 4
      ensures forall i :: 0 <= i < 4 ==>
        r[i].status == FunnelStatuses[i] && r[i].count == StatusCount(allItems, FunnelStatuses[i]) &&
        r[i].count <= |allItems|
    {
      FunnelMetrics(allItems)
    }

    method SendOutreach(id: string)
      modifies this
      ensures allItems == SetStatus(old(allItems), id, Sent)
      ensures filters == old(filters)
    {
      allItems := SetStatus(allItems, id, Sent);
    }

    method DismissOutreach(id: string)
      modifies this
      ensures allItems == SetStatus(old(allItems), id, Dismissed)
      ensures filters == old(filters)
    {
      allItems := SetStatus(allItems, id, Dismissed);
    }

    /** The new item goes first; the others keep their order behind it. */
    method AddOutreach(item: Outreach)
      modifies this
      ensures allItems == [item] + old(allItems)
      ensures allItems[0] == item && allItems[1..] == old(allItems)
      ensures filters == old(filters)
    {
      allItems := [item] + allItems;
    }

    method UpdateOutreachMessage(id: string, message: string)
      modifies this
      ensures allItems == SetMessage(old(allItems), id, message)
      ensures filters == old(filters)
    {
      allItems := SetMessage(allItems, id, message);
    }

    method UpdateFilter(change: FilterChange)
      modifies this
      ensures filters == ApplyFilterChange(old(filters), change)
      ensures allItems == old(allItems)
    {
      filters := ApplyFilterChange(filters, change);
    }
  }
}

=== FILE: pipeline_animation.dfy ===
/**
 * The staged animation of the AI pipeline. Starting it schedules two timers
 * per stage, one that marks the stage processing and one that marks it
 * complete; the timers are kept, with their handles, until they fire or the
 * animation is reset. Time is not modelled: a timer fires when the
 * environment calls `Fire` with its position among the scheduled timers.
 */
module PipelineAnimation {
  import opened Types

  /** The stages in the order they run. */
  const StageOrder: seq<PipelineStage> := [EntityExtraction, DiagnosticRetrieval, WorkOrderAssembly, MarginCheck]

  /** How long each stage stays processing, in milliseconds. */
  function Duration(s: PipelineStage): (ms: nat)
    ensures 1500 <= ms <= 2500
  {
    match s
    case EntityExtraction => 1500
    case DiagnosticRetrieval => 2000
    case WorkOrderAssembly => 2500
    case MarginCheck => 1800
  }

  /** The pause before each stage starts, in milliseconds. */
  const StartPause := 300

  /** When the stage at position `i` starts: the previous stage's completion plus the pause. */
  function StartAt(i: nat): (t: nat)
    requires i < |StageOrder|
    ensures t >= StartPause * (i + 1) + 1500 * i
    decreases i, 0
  {
    (if i == 0 then 0 else CompleteAt(i - 1)) + StartPause
  }

  /** When the stage at position `i` completes: its start plus its duration. */
  function CompleteAt(i: nat): (t: nat)
    requires i < |StageOrder|
    ensures t >= StartAt(i) + 1500 && t >= StartPause * (i + 1) + 1500 * (i + 1)
    decreases i, 1
  {
    StartAt(i) + Duration(StageOrder[i])
  }

  datatype StageStatus = Pending | Processing | Complete

  /** A scheduled timer: its delay, the stage it updates and the status it gives that stage. */
  datatype TimerEvent = TimerEvent(delay: nat, stage: PipelineStage, becomes: StageStatus)

  /** The eight timers of one start, two per stage in stage order. */
  function Schedule(): (r: seq<TimerEvent>)
    ensures |r| == 2 * |StageOrder|
  {
    seq(8, j requires 0 <= j < 8 =>
      if j % 2 == 0 then TimerEvent(StartAt(j / 2), StageOrder[j / 2], Processing)
      else TimerEvent(CompleteAt(j / 2), StageOrder[j / 2], Complete))
  }

  /**
   * The schedule's delays strictly increase, so its order is the order the
   * timers fire in; the first stage starts at 300 ms and the last completes
   * at 9000 ms, the four durations plus four pauses.
   */
  lemma ScheduleIsIncreasing()
    ensures forall i, j :: 0 <= i < j < |Schedule()| ==> Schedule()[i].delay < Schedule()[j].delay
    ensures forall i :: 0 <= i < |StageOrder| ==> StartAt(i) < CompleteAt(i)
    ensures forall i :: 0 < i < |StageOrder| ==> CompleteAt(i - 1) < StartAt(i)
    ensures StartAt(0) == 300 && CompleteAt(3) == 9000
    ensures CompleteAt(3) == Duration(EntityExtraction) + Duration(DiagnosticRetrieval) +
                             Duration(WorkOrderAssembly) + Duration(MarginCheck) + 4 * StartPause
  {
    var s := Schedule();
    assert s[0].delay == 300 && s[1].delay == 1800 && s[2].delay == 2100 && s[3].delay == 4100;
    assert s[4].delay == 4400 && s[5].delay == 6900 && s[6].delay == 7200 && s[7].delay == 9000;
  }

  /** The position of a stage in the stage order. */
  function Position(s: PipelineStage): (i: nat)
    ensures i < |StageOrder| && StageOrder[i] == s
  {
    match s
    case EntityExtraction => 0
    case DiagnosticRetrieval => 1
    case WorkOrderAssembly => 2
    case MarginCheck => 3
  }

  /** The hook's visible state: each stage's status and the two flags. */
  datatype AnimationState = AnimationState(statuses: map<PipelineStage, StageStatus>, isRunning: bool, isComplete: bool)

  const AllPending: map<PipelineStage, StageStatus> :=
    map[EntityExtraction := Pending, DiagnosticRetrieval := Pending, WorkOrderAssembly := Pending, MarginCheck := Pending]

  const Idle := AnimationState(AllPending, false, false)

  /** The state right after a start: all stages pending, running, not complete. */
  const Started := AnimationState(AllPending, true, false)

  /**
   * A timer fires: its stage takes its status; the last stage's completion
   * also ends the run and marks the animation complete.
   */
  function ApplyEvent(st: AnimationState, e: TimerEvent): (r: AnimationState)
    ensures r.statuses == st.statuses[e.stage := e.becomes]
    ensures r.isComplete != st.isComplete || r.isRunning != st.isRunning ==>
      e.stage == MarginCheck && e.becomes == Complete
  {
    var statuses := st.statuses[e.stage := e.becomes];
    if e.becomes == Complete && Position(e.stage) == |StageOrder| - 1 then
      AnimationState(statuses, false, true)
    else st.(statuses := statuses)
  }

  /** Timers firing one after another, in the order given. */
  function RunEvents(st: AnimationState, events: seq<TimerEvent>): AnimationState
  {
    if events == [] then st
    else ApplyEvent(RunEvents(st, events[..|events| - 1]), events[|events| - 1])
  }

  /** The status of the stage at position `i` once the first `k` timers of a start have fired. */
  function StatusAfter(k: nat, i: nat): StageStatus
  {
    if 2 * i + 2 <= k then Complete else if 2 * i + 1 <= k then Processing else Pending
  }

  function StatusesAfter(k: nat): map<PipelineStage, StageStatus>
  {
    map[EntityExtraction := StatusAfter(k, 0), DiagnosticRetrieval := StatusAfter(k, 1),
        WorkOrderAssembly := StatusAfter(k, 2), MarginCheck := StatusAfter(k, 3)]
  }

  /**
   * Firing the first `k` timers of a start in time order gives every stage
   * its `StatusAfter(k, position)`; the run ends and the animation is
   * complete exactly when all eight have fired.
   */
  lemma {:induction false} InOrderFiring(k: nat)
    requires k <= |Schedule()|
    ensures RunEvents(Started, Schedule()[..k]) == AnimationState(StatusesAfter(k), k < 8, k == 8)
  {
    if k > 0 {
      var prefix := Schedule()[..k];
      assert prefix[..k - 1] == Schedule()[..k - 1];
      InOrderFiring(k - 1);
      StepFiring(k - 1);
    } else {
      assert StatusesAfter(0) == AllPending;
    }
  }

  /** The timer at position `j` of a start takes the stages from `StatusesAfter(j)` to `StatusesAfter(j + 1)`. */
  lemma StepFiring(j: nat)
    requires j < |Schedule()|
    ensures ApplyEvent(AnimationState(StatusesAfter(j), j < 8, j == 8), Schedule()[j]) ==
            AnimationState(StatusesAfter(j + 1), j + 1 < 8, j + 1 == 8)
  {
    var e := Schedule()[j];
    assert e.stage == StageOrder[j / 2];
    assert e.becomes == if j % 2 == 0 then Processing else Complete;
    assert StatusesAfter(j)[e.stage := e.becomes] == StatusesAfter(j + 1);
  }

  function Rank(s: StageStatus): nat
  {
    match s
    case Pending => 0
    case Processing => 1
    case Complete => 2
  }

  /**
   * What in-order firing shows: no stage ever moves back, at most one stage
   * is processing, and a stage has started only once every earlier stage is
   * complete.
   */
  lemma StageProgress(k: nat, k': nat)
    requires k <= k'
    ensures forall i :: 0 <= i < |StageOrder| ==> Rank(StatusAfter(k, i)) <= Rank(StatusAfter(k', i))
    ensures forall i, j :: 0 <= i < j < |StageOrder| && StatusAfter(k, i) == Processing ==> StatusAfter(k, j) == Pending
    ensures forall i, j :: 0 <= i < j < |StageOrder| && StatusAfter(k, j) != Pending ==> StatusAfter(k, i) == Complete
  {
  }

  /** The schedule grows by one stage's two timers at a time. */
  lemma ScheduleSnoc(i: nat)
    requires i < |StageOrder|
    ensures Schedule()[..2 * i + 2] == Schedule()[..2 * i] +
              [TimerEvent((if i == 0 then 0 else CompleteAt(i - 1)) + StartPause, StageOrder[i], Processing),
               TimerEvent((if i == 0 then 0 else CompleteAt(i - 1)) + StartPause + Duration(StageOrder[i]), StageOrder[i], Complete)]
  {
    var s := Schedule();
    assert s[2 * i] == TimerEvent(StartAt(i), StageOrder[i], Processing);
    assert s[2 * i + 1] == TimerEvent(CompleteAt(i), StageOrder[i], Complete);
    assert s[..2 * i + 2] == s[..2 * i] + [s[2 * i], s[2 * i + 1]];
  }

  /** The hook, with its scheduled timers and their handles. */
  class PipelineAnimationHook {
    var stageStatuses: map<PipelineStage, StageStatus>
    var isRunning: bool
    var isComplete: bool
    /** The handles the hook remembers, in the order they were taken. */
    var handles: seq<nat>
    /** The timers scheduled and neither fired nor cleared. */
    var pending: seq<TimerEvent>
    /** The next handle the timer facility gives out. */
    var nextHandle: nat

    function State(): AnimationState
      reads this
    {
      AnimationState(stageStatuses, isRunning, isComplete)
    }

    constructor()
      ensures State() == Idle && handles == [] && pending == []
    {
      stageStatuses, isRunning, isComplete := AllPending, false, false;
      handles, pending, nextHandle := [], [], 0;
    }

    /**
     * `startAnimation`: every stage pending, running, and the eight timers
     * of `Schedule()` added after those already waiting, with eight new
     * handles appended to the ones kept so far.
     */
    method StartAnimation()
      modifies this
      ensures State() == Started
      ensures pending == old(pending) + Schedule()
      ensures handles == old(handles) + seq(8, j => old(nextHandle) + j)
      ensures nextHandle == old(nextHandle) + 8
    {
      isRunning := true;
      isComplete := false;
      stageStatuses := AllPending;
      var cumulativeDelay := 0;
      var index := 0;
      while index < |StageOrder|
        invariant 0 <= index <= |StageOrder|
        invariant cumulativeDelay == if index == 0 then 0 else CompleteAt(index - 1)
        invariant pending == old(pending) + Schedule()[..2 * index]
        invariant nextHandle == old(nextHandle) + 2 * index
        invariant handles == old(handles) + seq(2 * index, j => old(nextHandle) + j)
        invariant State() == Started
      {
        var stage := StageOrder[index];
        var startDelay := cumulativeDelay + StartPause;
        var completeDelay := startDelay + Duration(stage);
        assert Schedule()[..2 * index + 2] ==
               Schedule()[..2 * index] + [TimerEvent(startDelay, stage, Processing), TimerEvent(completeDelay, stage, Complete)] by {
          ScheduleSnoc(index);
        }
        assert seq(2 * index + 2, j => old(nextHandle) + j) ==
               seq(2 * index, j => old(nextHandle) + j) + [nextHandle, nextHandle + 1];
        pending := pending + [TimerEvent(startDelay, stage, Processing), TimerEvent(completeDelay, stage, Complete)];
        handles := handles + [nextHandle, nextHandle + 1];
        nextHandle := nextHandle + 2;
        cumulativeDelay := completeDelay;
        index := index + 1;
      }
    }

    /** The scheduled timer at position `k` fires and is no longer waiting. */
    method Fire(k: nat)
      requires k < |pending|
      modifies this
      ensures State() == ApplyEvent(old(State()), old(pending[k]))
      ensures pending == old(pending[..k] + pending[k + 1..])
      ensures handles == old(handles) && nextHandle == old(nextHandle)
    {
      var e := pending[k];
      stageStatuses := stageStatuses[e.stage := e.becomes];
      if e.becomes == Complete && Position(e.stage) == |StageOrder| - 1 {
        isRunning := false;
        isComplete := true;
      }
      pending := pending[..k] + pending[k + 1..];
    }

    /** `resetAnimation`: every timer cleared, the handle list emptied, all stages pending, both flags off. */
    method ResetAnimation()
      modifies this
      ensures State() == Idle && handles == [] && pending == []
      ensures nextHandle == old(nextHandle)
    {
      handles := [];
      pending := [];
      isRunning := false;
      isComplete := false;
      stageStatuses := AllPending;
    }
  }
}

=== FILE: proactive_dashboard.dfy ===
/**
 * The summary figures of the proactive dashboard: the active opportunities
 * and their revenue, the per-status counts read back from the funnel, the
 * engaged count, the conversion rate and the "Requires Review" figure.
 */
module ProactiveDashboard {
  import opened Common
  import opened Outreach

  /** The items that are not dismissed, in list order. */
  function ActiveItems(all: seq<Outreach>): (r: seq<Outreach>)
    ensures |r| <= |all|
    ensures forall i :: 0 <= i < |r| ==> r[i] in all && r[i].status != Dismissed
    ensures forall i :: 0 <= i < |all| && all[i].status != Dismissed ==> all[i] in r
  {
    if all == [] then []
    else if all[0].status != Dismissed then [all[0]] + ActiveItems(all[1..])
    else ActiveItems(all[1..])
  }

  /**
   * The opportunity count and the revenue of the banner leave out exactly
   * the dismissed items: count and revenue are those of the whole list
   * minus those of the dismissed ones.
   */
  lemma ActiveItemsLeaveOutDismissed(all: seq<Outreach>)
    ensures |ActiveItems(all)| + StatusCount(all, Dismissed) == |all|
    ensures Revenue(ActiveItems(all)) + Revenue(WithStatus(all, Dismissed)) == Revenue(all)
  {
    ActiveCount(all);
    ActiveRevenue(all);
  }

  lemma {:induction false} ActiveCount(all: seq<Outreach>)
    ensures |ActiveItems(all)| + StatusCount(all, Dismissed) == |all|
  {
    if all != [] {
      var o, rest := all[0], all[1..];
      ActiveCount(rest);
      assert all == [o] + rest;
      WithStatusSplit(o, rest, Dismissed);
    }
  }

  lemma {:induction false} ActiveRevenue(all: seq<Outreach>)
    ensures Revenue(ActiveItems(all)) + Revenue(WithStatus(all, Dismissed)) == Revenue(all)
  {
    if all != [] {
      var o, rest := all[0], all[1..];
      ActiveRevenue(rest);
      assert all == [o] + rest;
      WithStatusSplit(o, rest, Dismissed);
      if o.status != Dismissed {
        assert ActiveItems(all) == [o] + ActiveItems(rest);
        assert ([o] + ActiveItems(rest))[1..] == ActiveItems(rest);
      } else {
        assert ActiveItems(all) == ActiveItems(rest);
      }
    }
  }

  /** The test `m => m.status === s` the dashboard looks entries up with. */
  function HasStatus(s: OutreachStatus): FunnelMetric -> bool
  {
    (m: FunnelMetric) => m.status == s
  }

  /** `funnelMetrics.find(m => m.status === s)?.count ?? 0`. */
  function FunnelCount(metrics: seq<FunnelMetric>, s: OutreachStatus): (n: nat)
    ensures (forall i :: 0 <= i < |metrics| ==> metrics[i].status != s) ==> n == 0
    ensures (exists i :: 0 <= i < |metrics| && metrics[i].status == s) ==>
      exists k :: 0 <= k < |metrics| && metrics[k].status == s && metrics[k].count == n &&
                  forall i :: 0 <= i < k ==> metrics[i].status != s
  {
    match Find(metrics, HasStatus(s))
    case Some(m) => m.count
    case None => 0
  }

  /**
   * Read back from the funnel, each of the four funnel statuses gives its
   * item count; the dismissed status, which the funnel leaves out, gives 0.
   */
  lemma FunnelCountIsStatusCount(all: seq<Outreach>, s: OutreachStatus)
    ensures s in FunnelStatuses ==> FunnelCount(FunnelMetrics(all), s) == StatusCount(all, s)
    ensures s == Dismissed ==> FunnelCount(FunnelMetrics(all), s) == 0
  {
    var metrics := FunnelMetrics(all);
    var found := Find(metrics, HasStatus(s));
    if s in FunnelStatuses {
      var j :| 0 <= j < 4 && FunnelStatuses[j] == s;
      assert metrics[j].status == s;
      var k :| 0 <= k < |metrics| && metrics[k] == found.value && metrics[k].status == s;
      assert FunnelStatuses[k] == s;
    } else if s == Dismissed {
      forall i | 0 <= i < |metrics|
        ensures metrics[i].status != s
      {
        assert metrics[i].status == FunnelStatuses[i];
      }
    }
  }

  /**
   * `Math.round(booked / engaged * 100)`, or 0 with nothing engaged. The
   * result is the whole percentage nearest to the exact ratio, halves
   * rounding up.
   */
  function ConversionRate(booked: nat, engaged: nat): (r: int)
    ensures engaged == 0 ==> r == 0
    ensures engaged > 0 ==> 2 * engaged * r <= 200 * booked + engaged < 2 * engaged * (r + 1)
  {
    if engaged > 0 then (200 * booked + engaged) / (2 * engaged) else 0
  }

  /** A rate over at most as many bookings as engagements is a percentage. */
  lemma ConversionRateIsPercentage(booked: nat, engaged: nat)
    requires booked <= engaged
    ensures 0 <= ConversionRate(booked, engaged) <= 100
  {
    var r := ConversionRate(booked, engaged);
    if engaged > 0 {
      if r > 100 {
        assert 2 * engaged * r >= 2 * engaged * 101 by {
          MultiplyMonotone(2 * engaged, 101, r);
        }
        assert false;
      }
      if r < 0 {
        assert 2 * engaged * (r + 1) <= 0 by {
          MultiplyMonotone(2 * engaged, r + 1, 0);
        }
        assert false;
      }
    }
  }

  lemma MultiplyMonotone(c: nat, a: int, b: int)
    requires a <= b
    ensures c * a <= c * b
  {
    assert c * b - c * a == c * (b - a);
  }

  /** The figures the dashboard shows above the list. */
  datatype Summary = Summary(
    opportunities: nat,
    totalRevenue: real,
    draftCount: nat,
    openedCount: nat,
    sentCount: nat,
    bookedCount: nat,
    engagedCount: nat,
    conversionRate: int,
    requiresReview: nat)

  /**
   * The dashboard's figures in terms of the items: the opportunities are
   * the non-dismissed items, "Requires Review" counts drafts and opened
   * items, the engaged count is the sent, opened and booked items, and the
   * conversion rate is a percentage of it.
   */
  function Summarize(all: seq<Outreach>): (r: Summary)
    ensures r.opportunities == |all| - StatusCount(all, Dismissed)
    ensures r.totalRevenue == Revenue(all) - Revenue(WithStatus(all, Dismissed))
    ensures r.draftCount == StatusCount(all, Draft) && r.openedCount == StatusCount(all, Opened)
    ensures r.sentCount == StatusCount(all, Sent) && r.bookedCount == StatusCount(all, Booked)
    ensures r.engagedCount == r.sentCount + r.openedCount + r.bookedCount
    ensures r.requiresReview == r.draftCount + r.openedCount
    ensures r.conversionRate == ConversionRate(r.bookedCount, r.engagedCount)
    ensures 0 <= r.conversionRate <= 100
  {
    var active := ActiveItems(all);
    var metrics := FunnelMetrics(all);
    var drafts := FunnelCount(metrics, Draft);
    var openedOnes := FunnelCount(metrics, Opened);
    var sentOnes := FunnelCount(metrics, Sent);
    var bookings := FunnelCount(metrics, Booked);
    var engaged := sentOnes + openedOnes + bookings;
    ActiveItemsLeaveOutDismissed(all);
    FunnelCountIsStatusCount(all, Draft);
    FunnelCountIsStatusCount(all, Opened);
    FunnelCountIsStatusCount(all, Sent);
    FunnelCountIsStatusCount(all, Booked);
    ConversionRateIsPercentage(bookings, engaged);
    Summary(|active|, Revenue(active), drafts, openedOnes, sentOnes, bookings, engaged,
            ConversionRate(bookings, engaged), drafts + openedOnes)
  }
}

=== FILE: request_list.dfy ===
/**
 * The guided mode's request inbox: statuses defaulting to "new", the
 * status filter, the per-status counts beside the "All" total, and the
 * labels of each card (truncated message, AI-generated badge, relative
 * time, short id, walkthrough highlight).
 */
module RequestList {
  import opened Common
  import opened Types

  datatype ScenarioStatus = New | InProgress | Completed

  /** `scenarioStatuses[id] ?? "new"`. */
  function EffectiveStatus(statuses: map<string, ScenarioStatus>, id: string): (s: ScenarioStatus)
    ensures id !in statuses ==> s == New
    ensures id in statuses ==> s == statuses[id]
  {
    if id in statuses then statuses[id] else New
  }

  /** The filter: "all" or one status. */
  datatype RequestFilter = AllRequests | OnlyStatus(status: ScenarioStatus)

  /** The scenarios whose effective status is `s`, in list order. */
  function WithStatus(all: seq<Scenario>, statuses: map<string, ScenarioStatus>, s: ScenarioStatus): (r: seq<Scenario>)
    ensures |r| <= |all|
    ensures forall i :: 0 <= i < |r| ==> r[i] in all && EffectiveStatus(statuses, r[i].id) == s
    ensures forall i :: 0 <= i < |all| && EffectiveStatus(statuses, all[i].id) == s ==> all[i] in r
  {
    if all == [] then []
    else if EffectiveStatus(statuses, all[0].id) == s then [all[0]] + WithStatus(all[1..], statuses, s)
    else WithStatus(all[1..], statuses, s)
  }

  /** `filteredScenarios`: every scenario under "all", else those of the chosen status. */
  function FilteredScenarios(all: seq<Scenario>, statuses: map<string, ScenarioStatus>, filter: RequestFilter): (r: seq<Scenario>)
    ensures filter == AllRequests ==> r == all
    ensures filter.OnlyStatus? ==> r == WithStatus(all, statuses, filter.status)
  {
    match filter
    case AllRequests => all
    case OnlyStatus(s) => WithStatus(all, statuses, s)
  }

  /**
   * The "New", "In Progress" and "Completed" counts add up to the "All"
   * count, and a scenario with no recorded status counts as new.
   */
  lemma {:induction false} StatusCountsAddUp(all: seq<Scenario>, statuses: map<string, ScenarioStatus>)
    ensures |WithStatus(all, statuses, New)| + |WithStatus(all, statuses, InProgress)| +
            |WithStatus(all, statuses, Completed)| == |all|
    ensures forall i :: 0 <= i < |all| && all[i].id !in statuses ==> all[i] in WithStatus(all, statuses, New)
  {
    if all != [] {
      StatusCountsAddUp(all[1..], statuses);
    }
  }

  /** Filtering by a status keeps the survivors in list order: it distributes over concatenation. */
  lemma {:induction false} FilterKeepsOrder(a: seq<Scenario>, b: seq<Scenario>, statuses: map<string, ScenarioStatus>, s: ScenarioStatus)
    ensures WithStatus(a + b, statuses, s) == WithStatus(a, statuses, s) + WithStatus(b, statuses, s)
  {
    if a == [] {
      assert a + b == b;
    } else {
      assert (a + b)[1..] == a[1..] + b;
      FilterKeepsOrder(a[1..], b, statuses, s);
    }
  }

  const MaxPreview: nat := 120

  /** The card's message: up to 120 characters as they are, a longer one cut to 120 plus "...". */
  function Truncate(message: string): (r: string)
    ensures |message| <= MaxPreview ==> r == message
    ensures |message| > MaxPreview ==> |r| == MaxPreview + 3 && r[..MaxPreview] == message[..MaxPreview] && r[MaxPreview..] == "..."
  {
    if |message| > MaxPreview then message[..MaxPreview] + "..." else message
  }

  /** A shown message is never longer than 123 characters, and showing it again changes nothing. */
  lemma TruncateIsIdempotent(message: string)
    ensures |Truncate(message)| <= MaxPreview + 3
    ensures Truncate(Truncate(message)) == Truncate(message)
  {
    var r := Truncate(message);
    if |message| > MaxPreview {
      assert r[..MaxPreview] == message[..MaxPreview];
      assert Truncate(r) == r[..MaxPreview] + "...";
    }
  }

  /** A scenario is AI-generated when its id is not one of the fixture scenarios' ids. */
  predicate IsAiGenerated(staticIds: set<string>, s: Scenario)
  {
    s.id !in staticIds
  }

  function StaticIds(fixtures: seq<Scenario>): set<string>
  {
    set i | 0 <= i < |fixtures| :: fixtures[i].id
  }

  /** The fixture scenarios are never badged, and any scenario with a new id is. */
  lemma AiGeneratedIffNotFixture(fixtures: seq<Scenario>, s: Scenario)
    ensures IsAiGenerated(StaticIds(fixtures), s) <==> forall i :: 0 <= i < |fixtures| ==> fixtures[i].id != s.id
  {
    if !IsAiGenerated(StaticIds(fixtures), s) {
      var i :| 0 <= i < |fixtures| && fixtures[i].id == s.id;
    }
  }

  /** `allScenarios.indexOf(scenario)`: the first position holding the scenario, or -1. */
  function IndexOf(all: seq<Scenario>, s: Scenario): (k: int)
    ensures -1 <= k < |all|
    ensures k == -1 <==> s !in all
    ensures 0 <= k ==> all[k] == s && forall i :: 0 <= i < k ==> all[i] != s
  {
    if all == [] then -1
    else if all[0] == s then 0
    else
      var k := IndexOf(all[1..], s);
      if k == -1 then -1 else k + 1
  }

  const RelativeTimes: seq<string> := ["2 min ago", "15 min ago", "1 hr ago"]

  /** "Just now" for AI-generated scenarios, else `RELATIVE_TIMES[originalIndex] ?? "2 hr ago"`. */
  function TimeLabel(aiGenerated: bool, originalIndex: int): (text: string)
    ensures aiGenerated ==> text == "Just now"
    ensures !aiGenerated && 0 <= originalIndex < |RelativeTimes| ==> text == RelativeTimes[originalIndex]
    ensures !aiGenerated && !(0 <= originalIndex < |RelativeTimes|) ==> text == "2 hr ago"
  {
    if aiGenerated then "Just now"
    else if 0 <= originalIndex < |RelativeTimes| then RelativeTimes[originalIndex]
    else "2 hr ago"
  }

  /** `scenario.id.slice(0, 5)`: at most the first five characters. */
  function ShortId(id: string): (r: string)
    ensures |r| == if |id| < 5 then |id| else 5
    ensures r == id[..|r|]
  {
    if |id| < 5 then id else id[..5]
  }

  /** What a card shows. */
  datatype Card = Card(
    scenario: Scenario,
    originalIndex: int,
    status: ScenarioStatus,
    aiGenerated: bool,
    timeLabel: string,
    message: string,
    shortId: string,
    highlighted: bool)

  function CardFor(all: seq<Scenario>, statuses: map<string, ScenarioStatus>, staticIds: set<string>,
                   highlight: Option<Highlight>, s: Scenario): Card
  {
    var originalIndex := IndexOf(all, s);
    var ai := IsAiGenerated(staticIds, s);
    Card(s, originalIndex, EffectiveStatus(statuses, s.id), ai, TimeLabel(ai, originalIndex),
         Truncate(s.customerRequest), ShortId(s.id), highlight == Some(RequestHighlight) && originalIndex == 0)
  }

  /** The cards of the filtered list, in its order. */
  function Cards(all: seq<Scenario>, statuses: map<string, ScenarioStatus>, filter: RequestFilter,
                 staticIds: set<string>, highlight: Option<Highlight>): (cards: seq<Card>)
    ensures |cards| == |FilteredScenarios(all, statuses, filter)|
    ensures forall i :: 0 <= i < |cards| ==>
      cards[i] == CardFor(all, statuses, staticIds, highlight, FilteredScenarios(all, statuses, filter)[i])
  {
    var shown := FilteredScenarios(all, statuses, filter);
    seq(|shown|, i requires 0 <= i < |shown| => CardFor(all, statuses, staticIds, highlight, shown[i]))
  }

  /**
   * On every card the original index points back at the card's scenario
   * in the full list; the card is highlighted exactly when the "request"
   * highlight is on and its scenario is the first of the full list; a
   * fixture scenario at one of the first three positions shows that
   * position's relative time.
   */
  lemma CardsPointBack(all: seq<Scenario>, statuses: map<string, ScenarioStatus>, filter: RequestFilter,
                       staticIds: set<string>, highlight: Option<Highlight>, i: nat)
    requires i < |Cards(all, statuses, filter, staticIds, highlight)|
    ensures var c := Cards(all, statuses, filter, staticIds, highlight)[i];
            0 <= c.originalIndex < |all| && all[c.originalIndex] == c.scenario &&
            (c.highlighted <==> highlight == Some(RequestHighlight) && all[0] == c.scenario) &&
            (!c.aiGenerated && c.originalIndex < 3 ==> c.timeLabel == RelativeTimes[c.originalIndex]) &&
            (filter.OnlyStatus? ==> c.status == filter.status)
  {
    var shown := FilteredScenarios(all, statuses, filter);
    assert shown[i] in all;
  }
}

=== FILE: sorting.dfy ===
/**
 * `Array.prototype.sort` with a comparator of the form
 * `(a, b) => key(a) - key(b)`: a stable sort into ascending key order,
 * stable as `Array.prototype.sort` is required to be.
 * The two sorts of the modelled core (outreach items by priority then
 * status, service history by date, newest first) are both of this form.
 */
module Sorting {
  import opened Common

  /** Every earlier element has a key no larger than every later one. */
  ghost predicate SortedByKey<T>(s: seq<T>, key: T -> int)
  {
    forall i, j :: 0 <= i < j < |s| ==> key(s[i]) <= key(s[j])
  }

  /** Inserts `x` before the first element whose key is not smaller than its own. */
  function Insert<T(==)>(x: T, s: seq<T>, key: T -> int): (r: seq<T>)
    requires SortedByKey(s, key)
    ensures SortedByKey(r, key)
    ensures multiset(r) == multiset(s) + multiset{x}
    ensures |r| == |s| + 1
  {
    if s == [] then [x]
    else if key(x) <= key(s[0]) then [x] + s
    else
      var rest := Insert(x, s[1..], key);
      assert s == [s[0]] + s[1..];
      HeadBelowRest(x, s, rest, key);
      [s[0]] + rest
  }

  /** Inserting a larger key behind the head of a sorted sequence keeps the head least. */
  lemma HeadBelowRest<T>(x: T, s: seq<T>, rest: seq<T>, key: T -> int)
    requires s != [] && SortedByKey(s, key) && key(s[0]) < key(x)
    requires SortedByKey(rest, key) && multiset(rest) == multiset(s[1..]) + multiset{x}
    ensures SortedByKey([s[0]] + rest, key)
  {
    forall k | 0 <= k < |rest|
      ensures key(s[0]) <= key(rest[k])
    {
      assert rest[k] in multiset(rest);
      if rest[k] != x {
        assert rest[k] in multiset(s[1..]);
        var j :| 0 <= j < |s[1..]| && s[1..][j] == rest[k];
        assert key(s[0]) <= key(s[j + 1]);
      }
    }
  }

  /**
   * Insertion sort. An element is inserted before the equal-keyed elements
   * that came after it in the input, so equal keys keep their input order.
   */
  function SortByKey<T(==)>(s: seq<T>, key: T -> int): (r: seq<T>)
    ensures SortedByKey(r, key)
    ensures multiset(r) == multiset(s)
    ensures |r| == |s|
  {
    if s == [] then []
    else
      assert s == [s[0]] + s[1..];
      Insert(s[0], SortByKey(s[1..], key), key)
  }

  /** The first element of a sorted permutation is an input element of least key. */
  lemma SortedHeadIsLeast<T>(s: seq<T>, key: T -> int)
    requires s != []
    ensures SortByKey(s, key)[0] in s
    ensures forall i :: 0 <= i < |s| ==> key(SortByKey(s, key)[0]) <= key(s[i])
  {
    var r := SortByKey(s, key);
    assert r[0] in multiset(r);
    forall i | 0 <= i < |s|
      ensures key(r[0]) <= key(s[i])
    {
      assert s[i] in multiset(s);
      var j :| 0 <= j < |r| && r[j] == s[i];
    }
  }

  /** The test "has key `k`". */
  function WithKey<T>(key: T -> int, k: int): T -> bool
  {
    y => key(y) == k
  }

  /**
   * Inserting into a sorted sequence puts the new element in front of the
   * elements with its key, and leaves the order of every other key alone.
   */
  lemma {:induction false} InsertKeepsEqualKeyOrder<T>(x: T, s: seq<T>, key: T -> int, k: int)
    requires SortedByKey(s, key)
    ensures Filter(Insert(x, s, key), WithKey(key, k)) ==
            if key(x) == k then [x] + Filter(s, WithKey(key, k)) else Filter(s, WithKey(key, k))
  {
    var p := WithKey(key, k);
    if s == [] {
      FilterCons(x, [], p);
      assert [x] + [] == [x];
    } else if key(x) <= key(s[0]) {
      FilterCons(x, s, p);
    } else {
      var rest := Insert(x, s[1..], key);
      assert SortedByKey(s[1..], key);
      InsertKeepsEqualKeyOrder(x, s[1..], key, k);
      FilterCons(s[0], rest, p);
      assert s == [s[0]] + s[1..];
      FilterCons(s[0], s[1..], p);
    }
  }

  /**
   * The sort is stable: the elements of any one key come out in the order
   * they went in.
   */
  lemma {:induction false} SortKeepsEqualKeyOrder<T>(s: seq<T>, key: T -> int, k: int)
    ensures Filter(SortByKey(s, key), WithKey(key, k)) == Filter(s, WithKey(key, k))
  {
    if s != [] {
      SortKeepsEqualKeyOrder(s[1..], key, k);
      InsertKeepsEqualKeyOrder(s[0], SortByKey(s[1..], key), key, k);
      assert s == [s[0]] + s[1..];
      FilterCons(s[0], s[1..], WithKey(key, k));
    }
  }
}

=== FILE: types.dfy ===
/**
 * The records of the demo's shared type declarations and constants that the
 * modelled components use. Money on a line item is held in integer cents;
 * hours and outreach revenue, which the source keeps as plain numbers, are
 * reals; calendar dates are whole day numbers.
 */
module Types {
  import opened Common

  /** The four line-item categories of the `LineItem` record. */
  datatype Category = Labor | Parts | Materials | Environmental

  /** One billable row of a work order; `unitPrice` and `total` are in cents. */
  datatype LineItem = LineItem(
    id: string,
    description: string,
    category: Category,
    quantity: int,
    unitPrice: int,
    total: int,
    partId: Option<string>,
    laborHours: Option<real>)

  /** A priced work order; `subtotal`, `tax` and `total` are in cents. */
  datatype WorkOrderData = WorkOrderData(
    id: string,
    lineItems: seq<LineItem>,
    subtotal: int,
    tax: int,
    total: int,
    estimatedHours: real,
    scheduledDate: string,
    technicianNotes: string)

  /** One entry of a customer's service history; `date` is a day number. */
  datatype ServiceEntry = ServiceEntry(date: int, description: string, total: real)

  datatype Customer = Customer(id: string, name: string, history: seq<ServiceEntry>)

  datatype Vessel = Vessel(id: string, name: string, engineHours: int, customerId: string)

  /** `vessels.filter(v => v.customerId === customerId)`: one customer's vessels, in fixture order. */
  function VesselsOf(vessels: seq<Vessel>, customerId: string): (r: seq<Vessel>)
    ensures |r| <= |vessels|
    ensures forall i :: 0 <= i < |r| ==> r[i] in vessels && r[i].customerId == customerId
    ensures forall i :: 0 <= i < |vessels| && vessels[i].customerId == customerId ==> vessels[i] in r
  {
    if vessels == [] then []
    else if vessels[0].customerId == customerId then [vessels[0]] + VesselsOf(vessels[1..], customerId)
    else VesselsOf(vessels[1..], customerId)
  }

  /** The parts of a scenario that the request inbox reads. */
  datatype Scenario = Scenario(id: string, title: string, customerRequest: string)

  /** The sales tax rate, 7 %, as a fraction `TaxRateNumerator / 100`. */
  const TaxRateNumerator: int := 7

  /** The five steps of the guided flow. */
  datatype GuidedStep = Intake | Pipeline | Review | Approval | Estimate

  /** The step order of the guided flow. */
  const GuidedSteps: seq<GuidedStep> := [Intake, Pipeline, Review, Approval, Estimate]

  /** The walkthrough highlights "demo", "request" and "new-request"; `None` of it is no highlight. */
  datatype Highlight = DemoHighlight | RequestHighlight | NewRequestHighlight

  /** The four animated stages of the AI pipeline. */
  datatype PipelineStage = EntityExtraction | DiagnosticRetrieval | WorkOrderAssembly | MarginCheck
}

=== FILE: typewriter.dfy ===
/**
 * The typewriter reveal: while typing, every interval tick shows one more
 * character of the text, and the tick that reaches the end shows the whole
 * text, stops and reports completion. The interval is not modelled as time:
 * each `Tick` is one firing of it. `completions` counts the calls of the
 * completion callback.
 */
module Typewriter {

  datatype TypewriterState = TypewriterState(
    displayedText: string,
    isTyping: bool,
    isComplete: bool,
    index: nat,
    completions: nat)

  const Initial := TypewriterState("", false, false, 0, 0)

  /** `start`: back to the beginning, typing and not complete. */
  function AfterStart(st: TypewriterState): TypewriterState
  {
    st.(index := 0, displayedText := "", isTyping := true, isComplete := false)
  }

  /**
   * One interval tick. The interval only runs while typing. The index moves
   * on by one; at or past the end of the text the whole text is shown, the
   * typing stops and completion is reported, otherwise the prefix up to the
   * index is shown.
   */
  function AfterTick(text: string, st: TypewriterState): TypewriterState
  {
    if !st.isTyping then st
    else
      var index := st.index + 1;
      if index >= |text| then
        TypewriterState(text, false, true, index, st.completions + 1)
      else st.(index := index, displayedText := text[..index])
  }

  /** `skipToEnd`: the whole text, typing stopped, complete, completion reported. */
  function AfterSkip(text: string, st: TypewriterState): TypewriterState
  {
    st.(displayedText := text, isTyping := false, isComplete := true, completions := st.completions + 1)
  }

  /** `n` ticks of the interval. */
  function Ticks(text: string, st: TypewriterState, n: nat): TypewriterState
  {
    if n == 0 then st else AfterTick(text, Ticks(text, st, n - 1))
  }

  /**
   * What every reachable state satisfies: the shown text is a prefix of the
   * text, typing and complete are never both on, and while typing the
   * shown text is exactly the first `index` characters.
   */
  predicate Consistent(text: string, st: TypewriterState)
  {
    st.displayedText <= text &&
    !(st.isTyping && st.isComplete) &&
    (st.isTyping ==> st.index <= |text| && st.displayedText == text[..st.index])
  }

  /** Each operation keeps the state consistent. */
  lemma OperationsKeepConsistency(text: string, st: TypewriterState)
    requires Consistent(text, st)
    ensures Consistent(text, AfterStart(st))
    ensures Consistent(text, AfterTick(text, st))
    ensures Consistent(text, AfterSkip(text, st))
  {
  }

  lemma InitialIsConsistent(text: string)
    ensures Consistent(text, Initial)
  {
  }

  /**
   * A tick changes nothing unless typing; a tick short of the end shows
   * exactly one more character; the tick that reaches the end shows the
   * whole text, stops typing, completes and reports completion once.
   */
  lemma TickEffect(text: string, st: TypewriterState)
    requires Consistent(text, st)
    ensures !st.isTyping ==> AfterTick(text, st) == st
    ensures st.isTyping && st.index + 1 < |text| ==>
      AfterTick(text, st).displayedText == st.displayedText + [text[st.index]] &&
      AfterTick(text, st).isTyping && AfterTick(text, st).completions == st.completions
    ensures st.isTyping && st.index + 1 >= |text| ==>
      AfterTick(text, st).displayedText == text && !AfterTick(text, st).isTyping &&
      AfterTick(text, st).isComplete && AfterTick(text, st).completions == st.completions + 1
  {
    if st.isTyping && st.index + 1 < |text| {
      assert text[..st.index + 1] == text[..st.index] + [text[st.index]];
    }
  }

  /**
   * After a start, the first `k` ticks short of the end show the first `k`
   * characters and keep typing.
   */
  lemma {:induction false} TypingRevealsPrefix(text: string, st: TypewriterState, k: nat)
    requires k < |text|
    ensures Ticks(text, AfterStart(st), k) ==
            AfterStart(st).(index := k, displayedText := text[..k])
  {
    if k > 0 {
      TypingRevealsPrefix(text, st, k - 1);
    }
  }

  /**
   * A text of `n` characters is complete after exactly `n` ticks (an empty
   * one after the first), with completion reported once; further ticks
   * change nothing.
   */
  lemma {:induction false} TypingCompletes(text: string, st: TypewriterState, extra: nat)
    ensures var n := if |text| == 0 then 1 else |text|;
            var done := Ticks(text, AfterStart(st), n);
            done.displayedText == text && !done.isTyping && done.isComplete &&
            done.completions == st.completions + 1 &&
            Ticks(text, AfterStart(st), n + extra) == done
  {
    var n := if |text| == 0 then 1 else |text|;
    if |text| > 0 {
      TypingRevealsPrefix(text, st, n - 1);
    }
    StoppedStaysStopped(text, Ticks(text, AfterStart(st), n), extra);
    TicksAdd(text, AfterStart(st), n, extra);
  }

  lemma {:induction false} StoppedStaysStopped(text: string, st: TypewriterState, n: nat)
    requires !st.isTyping
    ensures Ticks(text, st, n) == st
  {
    if n > 0 {
      StoppedStaysStopped(text, st, n - 1);
    }
  }

  lemma {:induction false} TicksAdd(text: string, st: TypewriterState, m: nat, n: nat)
    ensures Ticks(text, st, m + n) == Ticks(text, Ticks(text, st, m), n)
  {
    if n > 0 {
      TicksAdd(text, st, m, n - 1);
    }
  }

  /** The hook for one text. */
  class TypewriterHook {
    const text: string
    var displayedText: string
    var isTyping: bool
    var isComplete: bool
    var index: nat
    var completions: nat

    function State(): TypewriterState
      reads this
    {
      TypewriterState(displayedText, isTyping, isComplete, index, completions)
    }

    constructor(text: string)
      ensures this.text == text && State() == Initial
    {
      this.text := text;
      displayedText, isTyping, isComplete, index, completions := "", false, false, 0, 0;
    }

    method Start()
      modifies this
      ensures State() == AfterStart(old(State()))
    {
      index := 0;
      displayedText := "";
      isTyping := true;
      isComplete := false;
    }

    /** One firing of the interval. */
    method Tick()
      modifies this
      ensures State() == AfterTick(text, old(State()))
    {
      if !isTyping {
        return;
      }
      index := index + 1;
      if index >= |text| {
        displayedText := text;
        isTyping := false;
        isComplete := true;
        completions := completions + 1;
      } else {
        displayedText := text[..index];
      }
    }

    method SkipToEnd()
      modifies this
      ensures State() == AfterSkip(text, old(State()))
    {
      displayedText := text;
      isTyping := false;
      isComplete := true;
      completions := completions + 1;
    }
  }
}

=== FILE: work_order_assembly.dfy ===
/**
 * The pipeline's work-order summary splits the line items into labor,
 * parts and "other" (materials and environmental) lists, each kept in the
 * order of the work order.
 */
module WorkOrderAssembly {
  import opened Common
  import opened Types

  predicate IsLabor(li: LineItem)
  {
    li.category == Labor
  }

  predicate IsParts(li: LineItem)
  {
    li.category == Parts
  }

  predicate IsOther(li: LineItem)
  {
    li.category == Materials || li.category == Environmental
  }

  /** The labor rows, in work-order order. */
  function LaborItems(items: seq<LineItem>): (r: seq<LineItem>)
    ensures forall i :: 0 <= i < |r| ==> r[i] in items && r[i].category == Labor
    ensures forall i :: 0 <= i < |items| && items[i].category == Labor ==> items[i] in r
  {
    Filter(items, IsLabor)
  }

  /** The parts rows, in work-order order. */
  function PartsItems(items: seq<LineItem>): (r: seq<LineItem>)
    ensures forall i :: 0 <= i < |r| ==> r[i] in items && r[i].category == Parts
    ensures forall i :: 0 <= i < |items| && items[i].category == Parts ==> items[i] in r
  {
    Filter(items, IsParts)
  }

  /** The materials and environmental rows, in work-order order. */
  function OtherItems(items: seq<LineItem>): (r: seq<LineItem>)
    ensures forall i :: 0 <= i < |r| ==> r[i] in items && r[i].category in {Materials, Environmental}
    ensures forall i :: 0 <= i < |items| && items[i].category in {Materials, Environmental} ==> items[i] in r
  {
    Filter(items, IsOther)
  }

  /**
   * The three lists partition the items: the multiset of rows is exactly
   * split between them, so every row lands in one list, once, and their
   * sizes add up to the number of rows.
   */
  lemma AssemblyPartitions(items: seq<LineItem>)
    ensures multiset(LaborItems(items)) + multiset(PartsItems(items)) + multiset(OtherItems(items))
            == multiset(items)
    ensures |LaborItems(items)| + |PartsItems(items)| + |OtherItems(items)| == |items|
  {
    AssemblyMultiset(items);
    var labor, parts, other := LaborItems(items), PartsItems(items), OtherItems(items);
    assert |multiset(labor) + multiset(parts) + multiset(other)| == |labor| + |parts| + |other|;
  }

  lemma {:induction false} AssemblyMultiset(items: seq<LineItem>)
    ensures multiset(LaborItems(items)) + multiset(PartsItems(items)) + multiset(OtherItems(items))
            == multiset(items)
  {
    if items != [] {
      var h, t := items[0], items[1..];
      AssemblyMultiset(t);
      assert items == [h] + t;
      FilterCons(h, t, IsLabor);
      FilterCons(h, t, IsParts);
      FilterCons(h, t, IsOther);
      assert multiset(items) == multiset{h} + multiset(t);
    }
  }

  /** A row belongs to exactly one of the three lists. */
  lemma AssemblyListsAreDisjoint(items: seq<LineItem>, li: LineItem)
    requires li in items
    ensures li in LaborItems(items) <==> li.category == Labor
    ensures li in PartsItems(items) <==> li.category == Parts
    ensures li in OtherItems(items) <==> li.category in {Materials, Environmental}
  {
  }

  /** Each list is built from the work order's rows in their order: appending rows appends to the lists. */
  lemma AssemblyKeepsOrder(a: seq<LineItem>, b: seq<LineItem>)
    ensures LaborItems(a + b) == LaborItems(a) + LaborItems(b)
    ensures PartsItems(a + b) == PartsItems(a) + PartsItems(b)
    ensures OtherItems(a + b) == OtherItems(a) + OtherItems(b)
  {
    FilterConcat(a, b, IsLabor);
    FilterConcat(a, b, IsParts);
    FilterConcat(a, b, IsOther);
  }
}

=== FILE: work_order_editor.dfy ===
/**
 * The work-order editor hook: a working list of line items that the review
 * screen edits (update, remove, append, reset), a process-wide counter that
 * names appended items, and the pricing of the list (subtotal, 7 % tax,
 * total, estimated hours). Money is in integer cents.
 */
module WorkOrderEditor {
  import opened Common
  import opened Types

  /**
   * `Partial<Omit<LineItem, "id">>`: every field except the id, each either
   * absent (`None`) or carrying its new value.
   */
  datatype ItemUpdate = ItemUpdate(
    description: Option<string>,
    category: Option<Category>,
    quantity: Option<int>,
    unitPrice: Option<int>,
    total: Option<int>,
    partId: Option<string>,
    laborHours: Option<real>)

  /** The empty update `{}`. */
  const NoChange: ItemUpdate := ItemUpdate(None, None, None, None, None, None, None)

  /** A line item whose total is its quantity times its unit price. */
  predicate Consistent(item: LineItem)
  {
    item.total == item.quantity * item.unitPrice
  }

  /**
   * `{ ...item, ...updates }`, after which the total is recomputed from the
   * merged quantity and unit price when the update names either of them.
   */
  function ApplyUpdate(item: LineItem, u: ItemUpdate): (r: LineItem)
    ensures r.id == item.id
    ensures r.description == u.description.GetOr(item.description)
    ensures r.category == u.category.GetOr(item.category)
    ensures r.quantity == u.quantity.GetOr(item.quantity)
    ensures r.unitPrice == u.unitPrice.GetOr(item.unitPrice)
    ensures r.partId == (if u.partId.Some? then u.partId else item.partId)
    ensures r.laborHours == (if u.laborHours.Some? then u.laborHours else item.laborHours)
    ensures u.quantity.Some? || u.unitPrice.Some? ==> Consistent(r)
    ensures u.quantity.None? && u.unitPrice.None? ==> r.total == u.total.GetOr(item.total)
  {
    var merged := item.(
      description := u.description.GetOr(item.description),
      category := u.category.GetOr(item.category),
      quantity := u.quantity.GetOr(item.quantity),
      unitPrice := u.unitPrice.GetOr(item.unitPrice),
      total := u.total.GetOr(item.total),
      partId := if u.partId.Some? then u.partId else item.partId,
      laborHours := if u.laborHours.Some? then u.laborHours else item.laborHours);
    if u.quantity.Some? || u.unitPrice.Some? then merged.(total := merged.quantity * merged.unitPrice)
    else merged
  }

  /** An update that does not carry a bare `total` keeps a consistent item consistent. */
  lemma UpdateKeepsConsistency(item: LineItem, u: ItemUpdate)
    requires Consistent(item)
    requires u.total.None? || u.quantity.Some? || u.unitPrice.Some?
    ensures Consistent(ApplyUpdate(item, u))
  {
  }

  /**
   * The update type admits `total`: an update carrying a total and neither
   * quantity nor unit price writes that total as it is, even when it is not
   * quantity times unit price.
   */
  lemma BareTotalOverwrites(item: LineItem, t: int)
    requires t != item.quantity * item.unitPrice
    ensures !Consistent(ApplyUpdate(item, NoChange.(total := Some(t))))
  {
  }

  /** `prev.map(item => item.id !== id ? item : applyUpdate(item))`. */
  function UpdateItems(items: seq<LineItem>, id: string, u: ItemUpdate): (r: seq<LineItem>)
    ensures |r| == |items|
    ensures forall i :: 0 <= i < |items| && items[i].id != id ==> r[i] == items[i]
    ensures forall i :: 0 <= i < |items| && items[i].id == id ==> r[i] == ApplyUpdate(items[i], u)
  {
    MapWhere(items, (it: LineItem) => it.id == id, (it: LineItem) => ApplyUpdate(it, u))
  }

  /** An id that no item carries leaves the list as it was. */
  lemma UpdateUnknownIdIsNoOp(items: seq<LineItem>, id: string, u: ItemUpdate)
    requires forall i :: 0 <= i < |items| ==> items[i].id != id
    ensures UpdateItems(items, id, u) == items
  {
  }

  /** `prev.filter(item => item.id !== id)`. */
  function RemoveItems(items: seq<LineItem>, id: string): (r: seq<LineItem>)
    ensures forall i :: 0 <= i < |r| ==> r[i].id != id && r[i] in items
    ensures forall i :: 0 <= i < |items| && items[i].id != id ==> items[i] in r
  {
    Filter(items, (it: LineItem) => it.id != id)
  }

  /** Removing the same id a second time changes nothing. */
  lemma RemoveIsIdempotent(items: seq<LineItem>, id: string)
    ensures RemoveItems(RemoveItems(items, id), id) == RemoveItems(items, id)
  {
    FilterIdempotent(items, (it: LineItem) => it.id != id);
  }

  /** Removal keeps the other items in their order: it distributes over concatenation. */
  lemma RemoveKeepsOrder(a: seq<LineItem>, b: seq<LineItem>, id: string)
    ensures RemoveItems(a + b, id) == RemoveItems(a, id) + RemoveItems(b, id)
  {
    FilterConcat(a, b, (it: LineItem) => it.id != id);
  }

  /** The item `addItem` appends under a freshly generated id. */
  function NewItem(id: string): (r: LineItem)
    ensures r.id == id && r.description == "" && r.category == Labor
    ensures r.quantity == 1 && r.unitPrice == 0 && r.total == 0
    ensures r.partId.None? && r.laborHours.None?
    ensures Consistent(r)
  {
    LineItem(id, "", Labor, 1, 0, 0, None, None)
  }

  // ---------------------------------------------------------------------
  // Pricing

  /** `lineItems.reduce((sum, item) => sum + item.total, 0)` in cents. */
  function Subtotal(items: seq<LineItem>): int
  {
    SumInt(items, (it: LineItem) => it.total)
  }

  /** `lineItems.reduce((sum, item) => sum + (item.laborHours ?? 0), 0)`. */
  function LaborHours(items: seq<LineItem>): real
  {
    SumReal(items, (it: LineItem) => it.laborHours.GetOr(0.0))
  }

  /**
   * `Math.round(subtotal * TAX_RATE * 100) / 100` in cents: 7 % of the
   * subtotal rounded to the nearest cent, halves rounded up.
   */
  function TaxCents(subtotal: int): (t: int)
    ensures 100 * t - 50 <= TaxRateNumerator * subtotal < 100 * t + 50
  {
    (TaxRateNumerator * subtotal + 50) / 100
  }

  /** The rounding bounds of `TaxCents` single out one value. */
  lemma TaxIsUnique(subtotal: int, t: int)
    requires 100 * t - 50 <= TaxRateNumerator * subtotal < 100 * t + 50
    ensures t == TaxCents(subtotal)
  {
  }

  /** The computed work order: the base with the current items and freshly derived totals. */
  function Recompute(base: WorkOrderData, items: seq<LineItem>): (r: WorkOrderData)
    ensures r.id == base.id && r.scheduledDate == base.scheduledDate
    ensures r.technicianNotes == base.technicianNotes
    ensures r.lineItems == items
    ensures r.subtotal == Subtotal(items)
    ensures 100 * r.tax - 50 <= TaxRateNumerator * r.subtotal < 100 * r.tax + 50
    ensures r.total == r.subtotal + r.tax
    ensures LaborHours(items) != 0.0 ==> r.estimatedHours == LaborHours(items)
    ensures LaborHours(items) == 0.0 ==> r.estimatedHours == base.estimatedHours
  {
    var subtotal := Subtotal(items);
    var tax := TaxCents(subtotal);
    var hours := LaborHours(items);
    base.(
      lineItems := items,
      subtotal := subtotal,
      tax := tax,
      total := subtotal + tax,
      estimatedHours := if hours != 0.0 then hours else base.estimatedHours)
  }

  /** Removing every item gives zero subtotal, tax and total, and the base's hours. */
  lemma EmptyWorkOrder(base: WorkOrderData)
    ensures Recompute(base, []).subtotal == 0
    ensures Recompute(base, []).tax == 0
    ensures Recompute(base, []).total == 0
    ensures Recompute(base, []).estimatedHours == base.estimatedHours
  {
  }

  /** Recomputing a computed work order from the same items changes nothing. */
  lemma RecomputeIsIdempotent(base: WorkOrderData, items: seq<LineItem>)
    ensures Recompute(Recompute(base, items), items) == Recompute(base, items)
  {
  }

  /** Appending a fresh item leaves every derived figure as it was. */
  lemma {:induction false} AppendKeepsTotals(base: WorkOrderData, items: seq<LineItem>, id: string)
    ensures Recompute(base, items + [NewItem(id)]).subtotal == Recompute(base, items).subtotal
    ensures Recompute(base, items + [NewItem(id)]).tax == Recompute(base, items).tax
    ensures Recompute(base, items + [NewItem(id)]).total == Recompute(base, items).total
    ensures Recompute(base, items + [NewItem(id)]).estimatedHours == Recompute(base, items).estimatedHours
  {
    SumIntConcat(items, [NewItem(id)], (it: LineItem) => it.total);
    SumRealConcat(items, [NewItem(id)], (it: LineItem) => it.laborHours.GetOr(0.0));
  }

  /** The items that carry `id`, in order. */
  function ItemsWithId(items: seq<LineItem>, id: string): seq<LineItem>
  {
    Filter(items, (it: LineItem) => it.id == id)
  }

  /** Removing an id takes exactly the totals of the items carrying it off the subtotal. */
  lemma {:induction false} RemoveSubtractsTotals(items: seq<LineItem>, id: string)
    ensures Subtotal(RemoveItems(items, id)) == Subtotal(items) - Subtotal(ItemsWithId(items, id))
  {
    if items != [] {
      RemoveSubtractsTotals(items[1..], id);
    }
  }

  /** When one item carries the id, an update moves the subtotal by that item's change of total. */
  lemma {:induction false} UpdateShiftsSubtotal(items: seq<LineItem>, k: nat, u: ItemUpdate)
    requires k < |items|
    requires forall i :: 0 <= i < |items| && i != k ==> items[i].id != items[k].id
    ensures Subtotal(UpdateItems(items, items[k].id, u)) ==
            Subtotal(items) - items[k].total + ApplyUpdate(items[k], u).total
  {
    var id := items[k].id;
    var r := UpdateItems(items, id, u);
    assert items == items[..k] + [items[k]] + items[k + 1..];
    assert r == r[..k] + [r[k]] + r[k + 1..];
    assert r[..k] == items[..k];
    assert r[k + 1..] == items[k + 1..];
    var f := (it: LineItem) => it.total;
    SumIntConcat(items[..k] + [items[k]], items[k + 1..], f);
    SumIntConcat(items[..k], [items[k]], f);
    SumIntConcat(r[..k] + [r[k]], r[k + 1..], f);
    SumIntConcat(r[..k], [r[k]], f);
  }

  // ---------------------------------------------------------------------
  // Ids of appended items

  const IdPrefix: string := "li-new-"

  /** The counter value of the first generated id. */
  const FirstId: nat := 1000

  /** The id `generateId` returns for counter value `n`. */
  function GeneratedId(n: nat): (id: string)
    ensures |id| > |IdPrefix| && id[..|IdPrefix|] == IdPrefix
    ensures forall i :: |IdPrefix| <= i < |id| ==> '0' <= id[i] <= '9'
  {
    IdPrefix + NatToString(n)
  }

  /** Different counter values give different ids. */
  lemma GeneratedIdInjective(a: nat, b: nat)
    requires GeneratedId(a) == GeneratedId(b)
    ensures a == b
  {
    assert NatToString(a) == GeneratedId(a)[|IdPrefix|..];
    assert NatToString(b) == GeneratedId(b)[|IdPrefix|..];
    NatToStringInjective(a, b);
  }

  /** The ids issued so far: the k-th is generated from `FirstId + k`. */
  ghost predicate IssuedInOrder(issued: seq<string>)
  {
    forall k :: 0 <= k < |issued| ==> issued[k] == GeneratedId(FirstId + k)
  }

  /** No generated id is ever issued twice. */
  lemma IssuedIdsDistinct(issued: seq<string>)
    requires IssuedInOrder(issued)
    ensures forall i, j :: 0 <= i < j < |issued| ==> issued[i] != issued[j]
  {
    forall i, j | 0 <= i < j < |issued|
      ensures issued[i] != issued[j]
    {
      if issued[i] == issued[j] {
        GeneratedIdInjective(FirstId + i, FirstId + j);
      }
    }
  }

  /**
   * The module-level `nextId` counter behind `generateId`. It is shared by
   * every editor, so one object stands for it.
   */
  class IdGenerator {
    var nextId: nat
    ghost var issued: seq<string>

    ghost predicate Valid()
      reads this
    {
      nextId == FirstId + |issued| && IssuedInOrder(issued)
    }

    constructor ()
      ensures Valid() && nextId == FirstId && issued == []
    {
      nextId := FirstId;
      issued := [];
    }

    /** `li-new-${nextId++}`. */
    method Generate() returns (id: string)
      requires Valid()
      modifies this
      ensures Valid()
      ensures id == GeneratedId(old(nextId)) && nextId == old(nextId) + 1
      ensures issued == old(issued) + [id]
      ensures id !in old(issued)
    {
      id := GeneratedId(nextId);
      forall k | 0 <= k < |issued|
        ensures issued[k] != id
      {
        if issued[k] == id {
          GeneratedIdInjective(FirstId + k, nextId);
        }
      }
      issued := issued + [id];
      nextId := nextId + 1;
    }
  }

  /** One review screen's editor session over a base work order. */
  class Editor {
    const base: WorkOrderData
    const ids: IdGenerator
    var lineItems: seq<LineItem>

    constructor (base: WorkOrderData, ids: IdGenerator)
      ensures this.base == base && this.ids == ids
      ensures lineItems == base.lineItems
    {
      this.base := base;
      this.ids := ids;
      lineItems := base.lineItems;
    }

    /** `updateItem`: applies `u` to every item carrying `id`. */
    method UpdateItem(id: string, u: ItemUpdate)
      modifies this
      ensures lineItems == UpdateItems(old(lineItems), id, u)
    {
      lineItems := UpdateItems(lineItems, id, u);
    }

    /** `removeItem`: drops every item carrying `id`. */
    method RemoveItem(id: string)
      modifies this
      ensures lineItems == RemoveItems(old(lineItems), id)
    {
      lineItems := RemoveItems(lineItems, id);
    }

    /** `addItem`: appends one blank labor item under a never-issued id. */
    method AddItem()
      requires ids.Valid()
      modifies this, ids
      ensures ids.Valid()
      ensures lineItems == old(lineItems) + [NewItem(GeneratedId(old(ids.nextId)))]
      ensures ids.nextId == old(ids.nextId) + 1
      ensures GeneratedId(old(ids.nextId)) !in old(ids.issued)
    {
      var id := ids.Generate();
      lineItems := lineItems + [NewItem(id)];
    }

    /** `resetItems`: the working list is the base work order's items again. */
    method ResetItems()
      modifies this
      ensures lineItems == base.lineItems
    {
      lineItems := base.lineItems;
    }

    /** `computedWorkOrder`, recomputed from the current list. */
    function ComputedWorkOrder(): (r: WorkOrderData)
      reads this
      ensures r == Recompute(base, lineItems)
    {
      Recompute(base, lineItems)
    }
  }
}
